=== FILE: README.md ===
# hocort core, modelled in Dafny

hocort removes host reads from sequencing data. It aligns or classifies
the reads with external tools: Bowtie2, HISAT2, minimap2, BWA-MEM2, BBMap,
STAR, Kraken2 and BioBloom Tools. It then keeps or drops reads by name. This
project models the deterministic logic around those tools and proves
properties of it. That logic consists of:

- the argument allowlist check, `validate` and `validate_args`
  (`allowlist.dfy`);
- the `samtools` read-selection commands, whose FLAG masks are SAM FLAG
  bits from section 1.4 of the SAM format specification (SAMv1) (`sam.dfy`);
- the command lines every aligner and classifier builds, and the
  `filterbyname.sh` command (`*_aligner.dfy`, `kraken2_classifier.dfy`,
  `fastq.dfy`);
- every pipeline `run`, as a pure function from an environment of oracles
  to a trace of the steps it takes and its outcome (`pipeline_core.dfy`,
  `id_filter.dfy`, `*_pipeline.dfy`);
- the read-name tally and comparison of `compare.py` (`compare.dfy`).

Conventions used throughout:

- Optional Python arguments are `Option<string>`. `Truthy(o)` is Python
  truthiness: `None` and `""` are both false. Tests written `is None` or
  `== None` use `o.None?` instead. Several properties turn on the
  difference between the two tests.
- An f-string renders `None` as the text `None` (`Wrappers.Render`) and a
  bool as `True`/`False` (`Wrappers.RenderBool`). `str(threads)` is
  `Decimal.IntToString`.
- A command is a `seq<string>`. A `Chain` is a list of commands plus
  whether they are piped.
- Running commands is an oracle `(Chain, stage) -> StageResult(code,
  stdout, stderr)`.
- A pipeline run takes an `Env` holding:
  - the temporary directory name;
  - the executor;
  - `extract_ids` (identifier lists);
  - `self.filter` (a return code);
  - `self.validate` (a verdict);
  - the aligner calls that the pipelines make but no shown module defines
    (optional command lists);
  - the result of a sub-pipeline call.
- A run returns a `Trace`: the steps taken, in order, and the outcome. The
  outcome is either `Returned(Code(n))`, `Returned(NoneReturned)` (a Python
  `None` falling off the end), or `Raised(...)`.
- Python's `None != 0` is true, so a sub-pipeline that returns `None`
  counts as failed (`PipelineCore.Failed`). The compound pipelines' own
  logic is modelled over whatever their sub-pipeline calls return. In the
  source, every compound pipeline passes at least one sub-pipeline a
  keyword that the callee's `run` does not accept, so that call raises
  `TypeError`; "## Left out" lists the call for each pipeline. If such a
  call did return, the run would go as follows. `Bowtie2.run` returns
  nothing but `None` (and, as written, raises `AttributeError` once it
  reaches the aligner; see "## Findings"), so `Bowtie2HISAT2.run` and `Bowtie2Bowtie2.run` would
  stop with 1 after their first stage, and `Kraken2Bowtie2.run` would end
  with 1 even when Kraken2 succeeded; see
  `Bowtie2Bowtie2Pipeline.NoneFromFirstPassStops`.

## Model

| member | source | states |
|---|---|---|
| Allowlist.Disallowed | hocort/parse/parser.py:52 | the characters reported are all outside the allowlist class, and none are reported exactly when every character is allowlisted |
| Allowlist.DisallowedCounts | hocort/parse/parser.py:52 | each character outside the allowlist is reported as many times as it occurs in the argument; allowlisted characters are never reported |
| Allowlist.DisallowedConcat | hocort/parse/parser.py:52 | `findall` over a concatenation gives the characters of the first part followed by those of the second, in order |
| Allowlist.PatternIsAccepted | hocort/parse/parser.py:53 | the regex `^[...]+$\|^(?![\s\S])` with Python's `$` (end, or before a final newline) matches exactly the empty string, a non-empty allowlisted string, or one followed by a single newline |
| Allowlist.Validate | hocort/parse/parser.py:34-55 | the verdict is the regex match and the list is `findall`; the empty string is valid with no characters; for a non-empty argument not ending in a newline, valid iff no character is reported |
| Allowlist.TrailingNewlineQuirk | hocort/parse/parser.py:52-55 | an allowlisted non-empty string plus one `\n` is reported valid while `\n` is listed as disallowed |
| Allowlist.LoneNewlineRejected | hocort/parse/parser.py:53-55 | a lone `"\n"` is invalid, with `['\n']` as its characters |
| Allowlist.ValidateArgs | hocort/parse/parser.py:7-32 | the verdict is valid iff every string element is valid, and non-strings are skipped; a valid result is `(True, '', [])`, including for the empty list; otherwise it names the first failing string and its characters |
| Allowlist.StopsAtFirstFailure | hocort/parse/parser.py:26-31 | once a prefix fails, nothing appended after it changes the result |
| Allowlist.PassingPrefix | hocort/parse/parser.py:26-32 | a passing prefix has no effect: the result is the one for the rest of the list |
| Decimal.IntToStringInjective | hocort/aligners/bowtie2.py:10 | `str(threads)` never renders two different thread counts as the same token |
| Decimal.NatRoundTrip | hocort/aligners/bowtie2.py:10 | reading a rendered non-negative number back gives the number |
| Sam.MaskBits | hocort/parse/sam.py:32-41 | the mask tokens require/exclude FLAG bits 13/0 (paired, mfilter), 1/12 (paired), 4/0 (mfilter) and 0/4 (neither) |
| Sam.MaskMeaning | hocort/parse/sam.py:32-41 | for every 16-bit FLAG value, samtools keeps a record under the mask iff the record is what the call asks for: unmapped (both mates when paired) with `mfilter`, mapped (both mates, and paired) without it |
| Sam.Select | hocort/parse/sam.py:6-49 | one command, `samtools view --threads <t> -h`, then the mask, then `-o output` iff the output is truthy, then the input path if truthy and `-` otherwise |
| Sam.SamToFastq | hocort/parse/sam.py:51-94 | one command, `samtools fastq --threads <t> -N`; both outputs truthy gives the paired mask with `-1 out1 -2 out2`; only out1 truthy gives the single-end mask with `-0 out1`; out1 falsy gives no mask or output tokens; the input (or `-`) comes last |
| Sam.SelectKeepsIntended | hocort/parse/sam.py:31-41 | the filter tokens of a `select` command keep a FLAG value iff it is the selection asked for: unmapped reads (both mates when paired) with `mfilter`, mapped ones without |
| Sam.SamToFastqKeepsIntended | hocort/parse/sam.py:76-88 | when out1 is given, the filter tokens of a `sam_to_fastq` command keep a FLAG value iff it is the intended selection, paired exactly when out2 is given too |
| Sam.DefaultsSelectOpposite | hocort/parse/sam.py:6-51 | with their default `mfilter` values (True for `select`, False for `sam_to_fastq`), the two paired masks keep no FLAG value in common |
| FastQ.FilterById | hocort/parse/fastq.py:7-9 | one unpiped command of 6 + \|options\| tokens, starting `filterbyname.sh`, with `ow=t` sixth and the options appended unchanged |
| FastQ.FilterRoundTrip | hocort/parse/fastq.py:9 | reading the command back recovers the input, output and names paths (as rendered), the include flag and the options |
| Argv.Mates | hocort/aligners/kraken2.py:119-121 | the read-file tokens: the paired flag (`--paired` for Kraken2, `--paired_mode` for BioBloom, none for minimap2 and BWA-MEM2), `seq1` and `seq2` when seq2 is truthy, `seq1` alone otherwise |
| Bowtie2Aligner.Reads | hocort/aligners/bowtie2.py:11-13 | `-1 seq1 -2 seq2` when seq2 is truthy, otherwise `-U seq1` |
| Bowtie2Aligner.GenerateIndex | hocort/aligners/bowtie2.py:6-7 | builds no command at all |
| Bowtie2Aligner.AlignSam | hocort/aligners/bowtie2.py:9-15 | one unpiped command: `bowtie2 -p <t> -x index -q -S output`, then the options, then the reads |
| Bowtie2Aligner.AlignBam | hocort/aligners/bowtie2.py:17-25 | a two-command pipe: `bowtie2 -p <t> -x index -q`, options, reads, piped into `samtools view -@ <t> -b -o output` |
| Bowtie2Aligner.BamIsSamWithoutOutput | hocort/aligners/bowtie2.py:10-21 | the BAM variant's first command is the SAM command with `-S output` removed |
| Bowtie2Aligner.EmptySeq2IsSingleEnd | hocort/aligners/bowtie2.py:11-21 | an empty-string seq2 builds exactly the single-end commands |
| Minimap2Aligner.BuildIndex | hocort/aligners/minimap2.py:6-9 | `minimap2 -t <t> -d path_out`, then the options, with `fasta_in` last |
| Minimap2Aligner.AlignSam | hocort/aligners/minimap2.py:11-17 | `minimap2 -t <t> -a -o output`, then the options, then the index, then the reads |
| Minimap2Aligner.AlignBam | hocort/aligners/minimap2.py:19-27 | a pipe whose first command is `minimap2 -t <t> -a`, options, index, reads, and whose second is `samtools view -@ <t> -b -o output` |
| Minimap2Aligner.BamIsSamWithoutOutput | hocort/aligners/minimap2.py:12-21 | the BAM variant's first command is the SAM command with `-o output` removed |
| BwaMem2Aligner.BuildIndex | hocort/aligners/bwa_mem2.py:6-9 | one unpiped five-token command, `bwa-mem2 index`, then `-p path_out`, with `fasta_in` last; no option fits in it |
| BwaMem2Aligner.BuildIndexIgnoresOptions | hocort/aligners/bwa_mem2.py:6-7 | the index command does not depend on the options |
| BwaMem2Aligner.AlignSam | hocort/aligners/bwa_mem2.py:11-17 | `bwa-mem2 mem -t <t> -o output index`, then the reads, then the options: options after the reads |
| BwaMem2Aligner.AlignBam | hocort/aligners/bwa_mem2.py:19-27 | a pipe: `bwa-mem2 mem -t <t> index`, reads, options, into `samtools view -@ <t> -b -o output` |
| BwaMem2Aligner.BamIsSamWithoutOutput | hocort/aligners/bwa_mem2.py:12-21 | the BAM variant's first command is the SAM command with `-o output` removed |
| BBMapAligner.Reads | hocort/aligners/bbmap.py:13-15 | `in=seq1 in2=seq2` when seq2 is truthy, otherwise `in=seq1` |
| BBMapAligner.BuildIndex | hocort/aligners/bbmap.py:6-9 | one unpiped four-token command: `bbmap.sh`, the thread count, `ref=fasta_in`, `path=path_out`; no option fits in it |
| BBMapAligner.BuildIndexIgnoresOptions | hocort/aligners/bbmap.py:6-7 | the index command does not depend on the options |
| BBMapAligner.Align | hocort/aligners/bbmap.py:12-16 | `bbmap.sh threads=<t> path=index` and the output token, then the reads, then the options last |
| BBMapAligner.AlignSam | hocort/aligners/bbmap.py:11-18 | one unpiped command with `out=output.sam` fourth and the options last |
| BBMapAligner.AlignBam | hocort/aligners/bbmap.py:20-27 | the SAM command with only its fourth token changed, to `out=output.bam` |
| BBMapAligner.SamAndBamDifferOnlyInOutput | hocort/aligners/bbmap.py:12-21 | the SAM and BAM commands agree on every token except the fourth, the output |
| StarAligner.Reads | hocort/aligners/star.py:13-15 | `--readFilesIn seq1`, then `seq2` iff seq2 is truthy |
| StarAligner.BuildIndex | hocort/aligners/star.py:6-9 | `STAR --runThreadN <t>`, the options, then `--runMode genomeGenerate --genomeDir path_out --genomeFastaFiles fasta_in` |
| StarAligner.AlignSam | hocort/aligners/star.py:11-17 | one unpiped command: `STAR --runThreadN <t> --genomeDir index --outFileNamePrefix output_path`, the options, then the reads |
| StarAligner.AlignBam | hocort/aligners/star.py:19-25 | the SAM command with the single token `--outSAMtype BAM Unsorted` inserted before the options |
| StarAligner.ReadFilesInOnce | hocort/aligners/star.py:12-13 | when no argument spells `--readFilesIn`, it occurs exactly once, right after the last option |
| Kraken2Aligner.BuildIndex | hocort/aligners/kraken2.py:45-70 | the failure order: disallowed characters among path_out, fasta_in and options, then empty fasta_in, then empty path_out; succeeds iff all three checks pass, with the four build commands |
| Kraken2Aligner.BuildCommands | hocort/aligners/kraken2.py:54-70 | four commands: download-taxonomy, add-to-library, build, clean; each starts `kraken2-build --threads <t> <step>` and ends `--db path_out`; `fasta_in` is the add-to-library argument |
| Kraken2Aligner.BuildIndexIgnoresOptions | hocort/aligners/kraken2.py:46-68 | options that pass validation have no effect on the commands |
| Kraken2Aligner.OptionalPath | hocort/aligners/kraken2.py:115-118 | a flag and its path iff the path is truthy, otherwise nothing |
| Kraken2Aligner.Classify | hocort/aligners/kraken2.py:106-124 | the failure order: disallowed characters among the five paths and the options, then empty index, then empty seq1; on success, one command |
| Kraken2Aligner.ClassifyCommand | hocort/aligners/kraken2.py:114-124 | `kraken2 --threads <t> --db index`, then `--classified-out`/`--unclassified-out` for the truthy paths only, then the reads, then the options last |
| Kraken2Aligner.CharacterCheckComesFirst | hocort/aligners/kraken2.py:106-113 | any failing string among the checked arguments makes `classify` fail with the disallowed-input error, whatever the emptiness checks would say |
| BioBloomAligner.BuildIndex | hocort/aligners/biobloom.py:45-56 | the failure order: disallowed characters, then empty fasta_in, then empty path_out; on success, one command |
| BioBloomAligner.BuildCommand | hocort/aligners/biobloom.py:54 | `biobloommaker -t <t> -p reference fasta_in -o path_out` |
| BioBloomAligner.BuildIndexIgnoresOptions | hocort/aligners/biobloom.py:46-54 | options are validated but never placed on the command |
| BioBloomAligner.Classify | hocort/aligners/biobloom.py:90-104 | the failure order: disallowed characters, then empty index, then empty seq1; `out` is never checked for emptiness; on success, one command |
| BioBloomAligner.ClassifyCommand | hocort/aligners/biobloom.py:98-104 | `biobloomcategorizer -t <t> -f index --fq -p out`, then the reads, then the options last |
| BioBloomAligner.EmptyOutputAccepted | hocort/aligners/biobloom.py:90-98 | an empty `out` still gives a command |
| Kraken2Classifier.BuildCommands | hocort/classifiers/kraken2.py:6-25 | four commands: download-taxonomy, `--add_to_library`, build, clean; each carries `--threads <t>` and ends `--db path_out` |
| Kraken2Classifier.BuildIndex | hocort/classifiers/kraken2.py:6-31 | all four commands run in order; the code is the sum of their codes; stdout and stderr are the four outputs concatenated in order |
| Kraken2Classifier.AllStepsRun | hocort/classifiers/kraken2.py:10-25 | which commands run does not depend on any command's result |
| Kraken2Classifier.NonNegativeSumIsZeroIffAllZero | hocort/classifiers/kraken2.py:27 | when no code is negative, the sum is 0 iff every code is 0 |
| Kraken2Classifier.SumHidesFailures | hocort/classifiers/kraken2.py:27 | codes 1 and -1 sum to 0, so a failed step can be reported as success |
| Kraken2Classifier.BuildMatchesAlignerButSpelling | hocort/classifiers/kraken2.py:14 | the classifier's commands equal the aligner's except that the library step is spelled `--add_to_library` |
| Kraken2Classifier.ClassifyCommand | hocort/classifiers/kraken2.py:34-37 | both output flags always present, then the options, then the reads |
| Kraken2Classifier.OptionsBeforeReads | hocort/classifiers/kraken2.py:34-37 | the classifier puts the options before the reads; the aligner puts them after, on the same head |
| PipelineCore.ExitStatus | hocort/pipelines/bbmap.py:92-97 | 0 when every code is 0, otherwise 1 |
| PipelineCore.TwoStage | hocort/pipelines/kraken2_hisat2.py:92-120 | the first stage always runs; the second runs iff the first did not fail; the result is 0 iff both returned 0, else 1 |
| PipelineCore.FailFast | hocort/pipelines/kraken2_hisat2.py:99-101 | after a failed first stage, nothing about the second stage can change the run |
| PipelineCore.AlignThenFilter | hocort/pipelines/star.py:33-60 | the aligner chain runs first; a non-zero checked code ends the run with 1 before extraction; otherwise it extracts, filters the original reads, and returns 0 iff the filter returned 0 |
| PipelineCore.MateTemp | hocort/pipelines/kraken2_hisat2.py:104 | the mate temp path is `None` iff `seq2 is None`; an empty seq2 still gets a path |
| PipelineCore.IdFile | hocort/pipelines/bowtie2.py:62-64 | the identifier file is at least as long as the list and ends in a newline when the list is non-empty |
| PipelineCore.IdFileRoundTrip | hocort/pipelines/bowtie2.py:62-64 | splitting the file on `\n` gives the identifiers back, in order, followed by one empty string |
| PipelineCore.IdFileInjective | hocort/pipelines/bwa_mem2.py:40-42 | two identifier lists without newlines never write the same file |
| IdFilter.MateFilters | hocort/pipelines/bowtie2.py:68-72 | seq1 is always filtered into out1; a second filter, seq2 into out2, exists iff `seq2 is not None`; both read the same names file and flag |
| IdFilter.ExtractWriteFilter | hocort/pipelines/bowtie2.py:55-72 | extraction, then writing the names file, then each filter in order |
| IdFilter.NamesFileHoldsIds | hocort/pipelines/bwa_mem2.py:38-42 | the names file the filters read holds exactly the extracted identifiers, one per line |
| Kraken2Pipeline.Normalise | hocort/pipelines/kraken2.py:19-22 | the options normalisation leaves the options unchanged |
| Kraken2Pipeline.Run | hocort/pipelines/kraken2.py:27-50 | runs `classify` as one unpiped command with the derived output paths; returns 1 iff that command's code is non-zero, otherwise 0 |
| Kraken2Pipeline.CommandCarriesPaths | hocort/pipelines/kraken2.py:29-42 | the command carries the index, the derived class and unclass paths, the options, and the reads (paired iff seq2 is truthy) |
| Kraken2Pipeline.SubstituteNoHash | hocort/pipelines/kraken2.py:32-34 | assumption about the external Kraken2 binary, which the source relies on: a path with no `#` names its file as it is, so single-end output goes to the path given |
| Kraken2Pipeline.SubstituteLength | hocort/pipelines/kraken2.py:30-31 | assumption about the external Kraken2 binary: replacing each `#` with a non-empty mate suffix never shortens the path |
| Kraken2Pipeline.SubstituteConcat | hocort/pipelines/kraken2.py:30-31 | Kraken2's `#` substitution distributes over concatenation |
| Kraken2Pipeline.SubstituteHole | hocort/pipelines/kraken2.py:30-31 | substituting a single `#` puts the mate suffix in its place |
| Kraken2Pipeline.UnclassWritten | hocort/pipelines/kraken2.py:29-34 | assumption about the external Kraken2 binary: it writes two unclassified files (the `#` pattern with `_1` and with `_2`) for truthy seq2 and one otherwise, each named under `out` |
| Kraken2Pipeline.UnclassifiedMates | hocort/pipelines/kraken2.py:29-34 | with truthy seq2, the unclassified pattern yields `out/unclass_1.fq` and `out/unclass_2.fq`; otherwise the path is `out/unclass_1.fq`; so the first file written is `Unclass1(out)` and, for truthy seq2, the second is the `Unclass2(out, seq2)` that downstream stages read |
| StarPipeline.Run | hocort/pipelines/star.py:16-60 | the aligner (BAM iff intermediary is `BAM`) runs first; a non-zero first code returns 1; otherwise extraction with `mapq` and add_slash = truthy seq2, then the filter decides 0 or 1 |
| StarPipeline.ExtractsWhatStarWrote | hocort/pipelines/star.py:30-50 | the extracted file is the `--outFileNamePrefix` value followed by `Aligned.out.bam` or `Aligned.out.sam`, matching the chosen intermediary |
| Minimap2Pipeline.EffectiveOptions | hocort/pipelines/minimap2.py:16-19 | empty options become `-A1 -B4 -O1,10 -s100 --end-bonus 200`; non-empty options are kept |
| Minimap2Pipeline.Run | hocort/pipelines/minimap2.py:15-60 | with BAM, either piped code non-zero returns 1; with SAM, only the first code is checked; then extraction from `tmp/output` without add_slash, and the filter decides 0 or 1 |
| Minimap2Pipeline.ExtractsWhatAlignerWrote | hocort/pipelines/minimap2.py:29-50 | the extracted path is the one the aligner chain was told to write with `-o`; add_slash is never passed |
| Minimap2Pipeline.SamtoolsFailureStops | hocort/pipelines/minimap2.py:38-40 | with BAM, a failing `samtools` stage alone ends the run with 1 |
| Bowtie2Pipeline.ModeOptions | hocort/pipelines/bowtie2.py:26-31 | `local` and `end-to-end` select their presets; any other mode binds no options |
| Bowtie2Pipeline.Run | hocort/pipelines/bowtie2.py:18-75 | corrected: the alignment calls go to the Bowtie2 aligner; a seq2/out2 mismatch returns `None` with no step; an unknown mode raises on the unbound `options`; otherwise it aligns, extracts, writes the names file and filters; it never returns a code |
| Bowtie2Pipeline.RunAsWritten | hocort/pipelines/bowtie2.py:3-57 | as written: the pipeline class `Bowtie2` shadows the imported aligner, so past the seq2/out2 checks the run raises `AttributeError` on `align_bam` (intermediary `BAM`) or `align_sam` (otherwise) with no step taken; it returns `None` exactly when the checks fail |
| Bowtie2Pipeline.AsWrittenNeverAligns | hocort/pipelines/bowtie2.py:14-57 | as written agrees with the corrected run exactly when the corrected run stops at the seq2/out2 checks; whenever the corrected run takes a step or raises, the as-written run raises `AttributeError` |
| Bowtie2Pipeline.ExtractsWhatAlignerWrote | hocort/pipelines/bowtie2.py:41-60 | corrected run: the file extracted is the one the aligner was told to write (`-o` of the samtools stage for BAM, `-S` for SAM), with mapq 0 and add_slash = truthy seq2 |
| Bowtie2Pipeline.CodesIgnored | hocort/pipelines/bowtie2.py:51-72 | the run does not depend on any command's return code |
| Bowtie2Pipeline.EmptySeq2StillFiltered | hocort/pipelines/bowtie2.py:44-72 | an empty seq2 with no out2 gets single-end extraction but a second filter reading `in=` into `out=None` |
| BwaMem2Pipeline.Run | hocort/pipelines/bwa_mem2.py:18-52 | the run as it would go if `BWA_MEM2_mapper.align` returned (in the source that lookup raises `AttributeError` before any command runs): the aligner call with the fixed options, extraction from `tmp/output.sam` with mapq 0 and add_slash = truthy seq2, the names file, then the filters; returns `None` |
| BwaMem2Pipeline.IncludeAndIntermediaryIgnored | hocort/pipelines/bwa_mem2.py:18-27 | the caller's `include` and `intermediary` have no effect |
| BwaMem2Pipeline.FiltersExcludeNames | hocort/pipelines/bwa_mem2.py:27-50 | every filter gets `include=False`; a second filter runs iff `seq2 is not None` |
| Bowtie2OnlyPipeline.Run | hocort/pipelines/bowtie2_only.py:17-58 | Bowtie2 with the fixed option and default thread count into `tmp/output`, extraction with mapq 0 and add_slash = truthy seq2, then filters into `out.file1.fastq` and, iff `seq2 is not None`, `out.file2.fastq`; returns `None` |
| Bowtie2OnlyPipeline.OutputsDifferOnlyInMate | hocort/pipelines/bowtie2_only.py:53-57 | the two output names differ only in the mate digit |
| Bowtie2OnlyPipeline.AlignsWithFixedSettings | hocort/pipelines/bowtie2_only.py:26-42 | the aligner runs with one thread and the single option `--score-min L,-0.4,-0.4` |
| BBMapPipeline.WithPreset | hocort/pipelines/bbmap.py:68-71 | `nanopore` appends `maxlen=600`; any other preset leaves the options unchanged |
| BBMapPipeline.FullChain | hocort/pipelines/bbmap.py:83-89 | the aligner's commands followed by `sam_to_fastq` reading standard input, all piped |
| BBMapPipeline.AlignAndConvert | hocort/pipelines/bbmap.py:76-97 | a `None` aligner command returns 1; otherwise it runs the piped chain and returns 0 iff every stage code is 0 |
| BBMapPipeline.Run | hocort/pipelines/bbmap.py:62-97 | corrected: a truthy seq2 with falsy out2 raises before anything is built; otherwise it would align (the aligner's missing `align` aside; see "## Left out") with the caller's non-empty options, or with the preset applied to a fresh empty list |
| BBMapPipeline.OptionsOverridePreset | hocort/pipelines/bbmap.py:44-46 | corrected: non-empty options reach the aligner unchanged, and the preset then makes no difference to the run, as the `options` parameter is documented |
| BBMapPipeline.RunAsWritten | hocort/pipelines/bbmap.py:19-97 | as written: the same raise; otherwise it extends the options in place and would align (in the source `bb().align` raises `AttributeError` at that point) with the preset applied to the caller's list or to the shared default list, and a default call leaves that list extended; away from `nanopore` a call with options agrees with the corrected run |
| BBMapPipeline.AlignerOptions | hocort/pipelines/bbmap.py:68-81 | as written: a caller's options reach the aligner with one `maxlen=600` appended for `nanopore`, so `nanopore` and `illumina` runs differ even when options are given |
| BBMapPipeline.DefaultOptionsAccumulate | hocort/pipelines/bbmap.py:19-71 | the second default `nanopore` call hands the aligner `maxlen=600` twice |
| BBMapPipeline.DefaultCallsIndependent | hocort/pipelines/bbmap.py:19-71 | in the corrected run, a default call always sees the same options |
| BioBloomPipeline.FinalOptions | hocort/pipelines/biobloom.py:52-54 | an empty options string gives no options; otherwise the whole string is one token |
| BioBloomPipeline.Run | hocort/pipelines/biobloom.py:52-75 | a builder error propagates with no command run; otherwise the commands run unpiped and the result is 0 iff every code is 0, else 1 |
| BioBloomPipeline.RejectedBeforeExecution | hocort/pipelines/biobloom.py:59-65 | an empty index or seq1 raises before any command runs |
| BioBloomPipeline.OptionsStringIsOneToken | hocort/pipelines/biobloom.py:52-64 | a non-empty options string is the last token of the command, unsplit |
| Kraken2Hisat2Pipeline.RunAsWritten | hocort/pipelines/kraken2_hisat2.py:80-120 | as written: a truthy `seq2` without `out2` raises, then a failed validation raises, both before any stage; otherwise Kraken2 on `kr2_out`, then HISAT2 on `temp1`/`temp2`, fail-fast, 0 iff both return 0 |
| Kraken2Hisat2Pipeline.AsWrittenReadsUnwrittenFiles | hocort/pipelines/kraken2_hisat2.py:91-113 | as written: none of the files HISAT2 is told to read is one of the unclassified files the Kraken2 pipeline writes under `kr2_out` (`kr2_out/unclass…fq`, hocort/pipelines/kraken2.py:29-34) |
| Kraken2Hisat2Pipeline.Run | hocort/pipelines/kraken2_hisat2.py:80-120 | corrected: the same checks and stage order, with Kraken2 writing into the temporary directory and HISAT2 reading `unclass_1.fq` and, unless `seq2 is None`, `unclass_2.fq` there |
| Kraken2Hisat2Pipeline.SecondReadsWhatFirstWrote | hocort/pipelines/kraken2_hisat2.py:91-113 | corrected: HISAT2 reads exactly the unclassified files Kraken2 writes, mate by mate, for `None` or a non-empty `seq2` |
| Kraken2Hisat2Pipeline.EmptySeq2AsksForMissingMate | hocort/pipelines/kraken2_hisat2.py:102-104 | with `seq2 == ""`, Kraken2 writes single-end output but HISAT2 is still given a second file, because `temp2` is decided by `seq2 == None` |
| Kraken2Hisat2Pipeline.SettingsForwarded | hocort/pipelines/kraken2_hisat2.py:92-113 | `mfilter` and `threads` reach both stages unchanged |
| Kraken2Minimap2Pipeline.RunAsWritten | hocort/pipelines/kraken2_minimap2.py:67-87 | as written: a truthy `seq2` without `out2` returns 1 with no stage run; otherwise Kraken2 on `kr2_out`, then Minimap2 on `temp1`/`temp2`, fail-fast, 0 iff both return 0 |
| Kraken2Minimap2Pipeline.AsWrittenReadsUnwrittenFiles | hocort/pipelines/kraken2_minimap2.py:71-80 | as written: none of the files Minimap2 is told to read is one the Kraken2 pipeline writes under `kr2_out` |
| Kraken2Minimap2Pipeline.Run | hocort/pipelines/kraken2_minimap2.py:67-87 | corrected: the same early return and stage order, with Kraken2 writing into the temporary directory and Minimap2 reading its unclassified files there |
| Kraken2Minimap2Pipeline.SecondReadsWhatFirstWrote | hocort/pipelines/kraken2_minimap2.py:71-80 | corrected: Minimap2 reads exactly the unclassified files Kraken2 writes, mate by mate, for `None` or a non-empty `seq2` |
| Kraken2Minimap2Pipeline.SettingsForwarded | hocort/pipelines/kraken2_minimap2.py:72-80 | `preset` goes only to Minimap2; `hcfilter` and `threads` go to both |
| Kraken2Bowtie2Pipeline.Run | hocort/pipelines/kraken2_bowtie2.py:68-85 | Kraken2 then Bowtie2, fail-fast, 0 iff both return 0, else 1 |
| Kraken2Bowtie2Pipeline.ReadsKrakenUnclassified | hocort/pipelines/kraken2_bowtie2.py:75-76 | Bowtie2 reads the unclassified files Kraken2 writes into the temporary directory |
| Kraken2Bowtie2Pipeline.SettingsForwarded | hocort/pipelines/kraken2_bowtie2.py:69-78 | Kraken2 gets neither `hcfilter` nor `mapq`; Bowtie2 gets both, in end-to-end mode; both get `threads` |
| Bowtie2Hisat2Pipeline.Run | hocort/pipelines/bowtie2_hisat2.py:18-30 | Bowtie2 then HISAT2, fail-fast, 0 iff both return 0, else 1 |
| Bowtie2Hisat2Pipeline.StagesConnect | hocort/pipelines/bowtie2_hisat2.py:18-24 | Bowtie2 runs with `mode="end-to-end"` and HISAT2 gets no mode; HISAT2 reads the temp files Bowtie2 writes (the second only when `seq2 is not None`); `threads`, `intermediary` and `hcfilter` are the same for both |
| Bowtie2Bowtie2Pipeline.Run | hocort/pipelines/bowtie2_bowtie2.py:17-29 | first pass then second pass, fail-fast, 0 iff both return 0, else 1 |
| Bowtie2Bowtie2Pipeline.ThreadsDropped | hocort/pipelines/bowtie2_bowtie2.py:13-23 | the `threads` argument has no effect on the run |
| Bowtie2Bowtie2Pipeline.PassesDiffer | hocort/pipelines/bowtie2_bowtie2.py:19-23 | same index for both passes; the first is end-to-end, the second local, and it reads the first pass's output |
| Bowtie2Bowtie2Pipeline.NoneFromFirstPassStops | hocort/pipelines/bowtie2_bowtie2.py:19-22 | a first pass returning `None` (as `Bowtie2.run` does) ends the run with 1 before the second pass |
| Compare.Key | hocort/compare.py:8 | the key is a prefix of the name with no `_` in it, followed in the name by `_` or by nothing |
| Compare.FirstIndexMeaning | hocort/compare.py:7-11 | `FirstIndex` is the position of the first name with the key, and no earlier name has it |
| Compare.FirstKeysOrdered | hocort/compare.py:9-11 | `FirstKeys` lists a key iff some name has it, and lists keys in the order their first names appear, which is the insertion order of the dictionary |
| Compare.Count | hocort/compare.py:4-15 | keys are listed once each, in first-occurrence order (`FirstKeys`); each has a count of at least 1 equal to the number of names with that key, keys with no names are absent, and the total is the number of names and the sum of the counts |
| Compare.TallyNames | hocort/compare.py:5-11 | the dictionary built record by record: keys in the insertion order a new key gets (`FirstKeys`), each counted once per name with that key, keys of no name absent, and the counts add up to the number of names |
| Compare.BumpKeys | hocort/compare.py:9-11 | a new key is appended to the key list and a known key leaves it unchanged, which keeps it equal to `FirstKeys` |
| Compare.Total | hocort/compare.py:12-15 | the total is the sum of the counts over the keys |
| Compare.PrintCmp | hocort/compare.py:18-22 | the difference is file1's count minus file2's |
| Compare.PairReports | hocort/compare.py:28-32 | a line for entry1 with its count in file 2 or 0, plus a (0, n2) line for entry2 iff entry2 is not in file 1 |
| Compare.ZipReports | hocort/compare.py:27-32 | between one and two lines per pair of `zip`; every line is about a key of file 1 within the shared length, or a file-2-only key within it |
| Compare.CompareTallies | hocort/compare.py:24-34 | the pair lines, then the `total reads: ` line with both totals |
| Compare.ZipDropsLongerTail | hocort/compare.py:27 | keys of file 1 beyond the length of file 2's key list are never reported |
| Compare.ZipReportsEachKey | hocort/compare.py:28-30 | every key of file 1 within the shared length is reported with its count and file 2's count or 0 |
| Compare.ZipReportsSecondOnly | hocort/compare.py:31-32 | every key of file 2 within the shared length that file 1 lacks is reported as (0, n2) |
| Compare.PairReportsFaithful | hocort/compare.py:28-32 | the entry1 line carries entry1's number of names in each file (0 in file 2 when absent), and the entry2 line's 0 is entry2's true count in file 1 |
| Compare.ZipReportsFaithful | hocort/compare.py:27-32 | every pair line reports, for its key, the number of names with that key in file 1 and in file 2 |
| Compare.ZipReportsMatchLines | hocort/compare.py:27-32 | the lines printed from the two dictionaries equal `ZipLines`, the same zip stated over the names: the first key's line, then the second key's line iff no name of file 1 has it |
| Compare.ZipLinesCover | hocort/compare.py:27-32 | every position of the zip gets the first key's line, and the second key's line when file 1 lacks that key |
| Compare.ZipLinesOnly | hocort/compare.py:27-32 | every line is for a first key or a file-1-lacking second key at some zipped position, and gives its key's true counts |
| Compare.ZipLinesCovers | hocort/compare.py:27-32 | all three at once: which keys get a line (both directions) and that every line is faithful |
| Compare.CompareNames | hocort/compare.py:24-34 | `compare` end to end over the two files' names: the lines before the last are exactly the zip of the first-occurrence key lists; each paired key of file 1 gets a line, each paired key of file 2 that file 1 lacks gets one, no other key does, and every line gives its key's true counts in both files; the last line gives the two numbers of reads and their difference |

## Left out

- hocort/execute.py: process spawning, OS pipes and output files are I/O. Executing a chain is an oracle that gives a code, stdout and stderr per stage. The callers pass `decode_stderr=`, `pipe=` and `merge_stdout_stderr=`, which the shown `execute` does not accept. Its tuple-of-codes shape is modelled as one code per stage.
- `SAM.extract_ids` and `BAM.extract_ids`: no shown module defines them, so the identifier lists come from an uninterpreted function of the call (format, path, mapq, threads, add_slash).
- `self.filter` and `self.validate`: the pipeline base class does not define them, so they are oracles in `Env`. Only the arguments passed and the use of the result are modelled.
- BwaMem2Pipeline.Run: `BWA_MEM2_mapper.align` (hocort/pipelines/bwa_mem2.py:35) names a method the BWA-MEM2 aligner class (hocort/aligners/bwa_mem2.py) does not have, so in the source the run raises `AttributeError` there, before any command runs. The model records the call as a step with its arguments and carries on as if it had returned.
- BBMapPipeline.Run and BBMapPipeline.RunAsWritten: `bb().align` (hocort/pipelines/bbmap.py:76) names a method the BBMap aligner class (hocort/aligners/bbmap.py) does not have, so in the source the run raises `AttributeError` there, after the in-place `options +=` of lines 69 and 71. The model records the call with its arguments, takes the optional command list it would yield from `Env`, and carries on as if it had returned.
- Sub-pipeline calls in the compound pipelines are recorded as calls with their positional and keyword arguments, and their results come from `Env`. A call that passes a keyword the callee's `run` does not accept raises `TypeError` in the source; the model does not raise there. The raising call of each compound pipeline is listed below. HISAT2's pipeline is not part of this model.
- Bowtie2Hisat2Pipeline.Run: the first call, `Bowtie2().run(...)` (hocort/pipelines/bowtie2_hisat2.py:20), passes `hcfilter=`, which `Bowtie2.run` (hocort/pipelines/bowtie2.py:18) does not accept; the second call passes `seq2`, `out2`, `threads`, `intermediary` and `hcfilter` to `HISAT2.run(idx, seq, out)` (hocort/pipelines/hisat2.py:17).
- Bowtie2Bowtie2Pipeline.Run: both calls (hocort/pipelines/bowtie2_bowtie2.py:19 and 23) pass `hcfilter=` to `Bowtie2.run`, which does not accept it.
- Kraken2Bowtie2Pipeline.Run: the Kraken2 call is accepted; the Bowtie2 call (hocort/pipelines/kraken2_bowtie2.py:78) passes `hcfilter=` and `mapq=`, which `Bowtie2.run` does not accept.
- Kraken2Hisat2Pipeline.Run and Kraken2Hisat2Pipeline.RunAsWritten: the first call passes `mfilter=` to `Kraken2.run` (hocort/pipelines/kraken2_hisat2.py:92; hocort/pipelines/kraken2.py:15), and the second passes `seq2`, `out2`, `threads`, `mfilter` and `options` to `HISAT2.run(idx, seq, out)`.
- Kraken2Minimap2Pipeline.Run and Kraken2Minimap2Pipeline.RunAsWritten: the first call passes `hcfilter=` to `Kraken2.run` (hocort/pipelines/kraken2_minimap2.py:72), and the second passes `preset=` to `Minimap2.run` (hocort/pipelines/minimap2.py:15).
- The `Kraken2Minimap2` test (tests/test_kraken2_minimap2_pipeline.py:68-70) expects a `ValueError` for seq2 without out2. The code returns 1 instead, and the model follows the code.
- `BioBloom.run`'s `cmd == None` branch: the builder either raises or returns a list, so the branch cannot be reached and is not modelled.
- BioBloomAligner.Classify: `out` is a plain string rather than `Option<string>`. `validate_args` does skip a `None` there, but no caller passes one.
- Kraken2Classifier.ClassifyCommand: both output paths are plain strings, because the command places them unconditionally. `classify` itself is `execute` on that one command; the Kraken2 pipeline runs it through the executor oracle.
- Kraken2Classifier.BuildIndex: the four codes are added as integers, which is what the shown `execute` returns. Under the tuple-returning executor the pipelines index into, `+` would concatenate the four codes instead.
- BBMapPipeline.RunAsWritten: the in-place extension of a list the caller passed in, visible to the caller afterwards, is not modelled. Only the shared default list is tracked. The no-op `options = options` (hocort/pipelines/bbmap.py:73-74) has no counterpart.
- Kraken2Pipeline.UnclassWritten: the names the external Kraken2 binary gives its output files (each `#` becomes `_1` or `_2`; a path without `#` is used as given) are an assumption about that binary, which is not part of this model; the source relies on it when the Kraken2-then-Bowtie2 pipeline reads `unclass_1.fq`/`unclass_2.fq`.
- StarPipeline.Run, Bowtie2Bowtie2Pipeline.Run, Bowtie2Hisat2Pipeline.Run, Kraken2Minimap2Pipeline.Run, Kraken2Minimap2Pipeline.RunAsWritten and Kraken2Bowtie2Pipeline.Run: the model assumes the pipeline base-class API these modules were written for (a constructor taking the module path, `self.logger`, `self.temp_dir`, and a two-argument `debug_log_args`). The base class in hocort/pipelines/pipeline.py:11 takes `logger, function_name, locals_vars`, so the first line of each of these runs, `self.debug_log_args(self.run.__name__, locals())` (star.py:17, bowtie2_bowtie2.py:14, bowtie2_hisat2.py:15, kraken2_minimap2.py:66, kraken2_bowtie2.py:64), raises `TypeError` before the first step the model records.
- Logging, timing, the `print` of `stderr` in the Bowtie2 pipelines, temporary directory creation and cleanup, and `multiprocessing.cpu_count()` defaults (the thread count is a parameter).
- The command-line interfaces: every `interface` and `index_interface` method, `ArgParser` and `create_version_action`.
- The pipelines that run straight-line I/O with no branching: hisat2, bwa_mem2_only, human_bwa_mem2, human_bowtie2. Also HISAT2's aligner, and the one-command BAM and BED wrappers.
- Reading FASTQ records in `count`: the model takes the sequence of record names.
- Compare.CompareNames: the `'---------------'` separator `compare` prints before the totals line (hocort/compare.py:33) is not a report line and is not modelled.

## Findings

| source | as written | input that shows it | evidently intended | confidence | as-written member | corrected member |
|---|---|---|---|---|---|---|
| hocort/pipelines/bbmap.py:19,68-71 | `options=[]` is a shared default list, and `options += ['maxlen=600']` extends it in place, so every `nanopore` run that relies on the default adds another `maxlen=600` to all later default runs | two successive `run(..., preset='nanopore')` calls without `options`: the shared list holds `['maxlen=600', 'maxlen=600']` after the second call's line 71, and the aligner would be passed that (in the source `bb().align` raises `AttributeError` first; see "## Left out") | each call starts from an empty list, so a default `nanopore` run always passes exactly `['maxlen=600']` | high; not executed | BBMapPipeline.RunAsWritten, BBMapPipeline.DefaultOptionsAccumulate | BBMapPipeline.Run, BBMapPipeline.DefaultCallsIndependent |
| hocort/pipelines/bbmap.py:44-46,68-74 | `options` is documented to override `preset`, yet the preset's `maxlen=600` is appended to a list the caller gives, and the following `if len(options) > 0: options = options` does nothing | `run(..., preset='nanopore', options=['minid=0.9'])` extends the caller's list to `['minid=0.9', 'maxlen=600']` and would hand the aligner that list (in the source `bb().align` raises `AttributeError` first; see "## Left out") | non-empty options are used as given and the preset applies only when none are given | medium; not executed | BBMapPipeline.RunAsWritten, BBMapPipeline.AlignerOptions | BBMapPipeline.Run, BBMapPipeline.OptionsOverridePreset |
| hocort/pipelines/kraken2_hisat2.py:91-113 | Kraken2 is handed `kr2_out`, a file-name pattern, but the Kraken2 pipeline treats its `out` as a directory and writes `kr2_out/unclass_1.fq`; HISAT2 is then told to read `temp_dir/out_1.fastq`, which nothing writes | if the Kraken2 call returned 0 (in the source it raises `TypeError` first; see "## Left out"), e.g. single-end: Kraken2 writes `tmp/out_1.fastq/unclass_1.fq` and HISAT2 reads `tmp/out_1.fastq` | Kraken2 writes into the temporary directory and HISAT2 reads `unclass_1.fq`/`unclass_2.fq` there, as the Kraken2-then-Bowtie2 pipeline does | medium; not executed | Kraken2Hisat2Pipeline.RunAsWritten, Kraken2Hisat2Pipeline.AsWrittenReadsUnwrittenFiles | Kraken2Hisat2Pipeline.Run, Kraken2Hisat2Pipeline.SecondReadsWhatFirstWrote |
| hocort/pipelines/kraken2_minimap2.py:71-80 | the same `kr2_out` pattern and the same `temp1`/`temp2` as the HISAT2 variant, so Minimap2 reads files that nothing writes | if the Kraken2 call returned 0 (in the source it raises `TypeError` first; see "## Left out"): Kraken2 writes under `tmp/out_1.fastq/` or `tmp/out#.fastq/`, and Minimap2 reads `tmp/out_1.fastq` | Kraken2 writes into the temporary directory and Minimap2 reads its unclassified files there | medium; not executed | Kraken2Minimap2Pipeline.RunAsWritten, Kraken2Minimap2Pipeline.AsWrittenReadsUnwrittenFiles | Kraken2Minimap2Pipeline.Run, Kraken2Minimap2Pipeline.SecondReadsWhatFirstWrote |
| hocort/pipelines/bowtie2.py:3,14,51,57 | the pipeline class is named `Bowtie2`, like the aligner it imports, so inside `run` the name `Bowtie2` is the pipeline class, which has no `align_bam` or `align_sam` | `run('idx', 'r1.fq', 'o1.fq')`: passes the seq2/out2 checks and raises `AttributeError` at `Bowtie2.align_sam` before any command runs | the alignment calls reach the imported Bowtie2 aligner, which builds the `bowtie2` command | high; not executed | Bowtie2Pipeline.RunAsWritten, Bowtie2Pipeline.AsWrittenNeverAligns | Bowtie2Pipeline.Run, Bowtie2Pipeline.ExtractsWhatAlignerWrote |

=== FILE: allowlist.dfy ===
/**
 * The character allowlist that every path and option is checked against
 * before it is placed on a command line (hocort/parse/parser.py).
 */
module Allowlist {

  import opened Wrappers

  /** Membership in the class `[a-zA-Z0-9\. !#=/_-]`. */
  predicate Allowed(c: char)
  {
    || ('a' <= c <= 'z') || ('A' <= c <= 'Z') || ('0' <= c <= '9')
    || c == '.' || c == ' ' || c == '!' || c == '#' || c == '=' || c == '/' || c == '_' || c == '-'
  }

  predicate AllAllowed(s: string)
  {
    forall i :: 0 <= i < |s| ==> Allowed(s[i])
  }

  /**
   * `re.findall` of the complemented class: the characters of `s` outside the
   * allowlist, in order and with repeats.
   */
  function Disallowed(s: string): (r: seq<char>)
    ensures forall i :: 0 <= i < |r| ==> !Allowed(r[i])
    ensures r == [] <==> AllAllowed(s)
    decreases |s|
  {
    if |s| == 0 then []
    else if Allowed(s[0]) then Disallowed(s[1..]) else [s[0]] + Disallowed(s[1..])
  }

  /** Every character outside the allowlist is reported as often as it occurs; no other is. */
  lemma {:induction false} DisallowedCounts(s: string)
    ensures forall c :: multiset(Disallowed(s))[c] == if Allowed(c) then 0 else multiset(s)[c]
    decreases |s|
  {
    if |s| > 0 {
      assert s == [s[0]] + s[1..];
      DisallowedCounts(s[1..]);
    }
  }

  /** The disallowed characters of a concatenation are those of each part, in order. */
  lemma {:induction false} DisallowedConcat(a: string, b: string)
    ensures Disallowed(a + b) == Disallowed(a) + Disallowed(b)
    decreases |a|
  {
    if |a| == 0 {
      assert a + b == b;
    } else {
      var s := a + b;
      assert s[0] == a[0];
      assert s[1..] == a[1..] + b;
      DisallowedConcat(a[1..], b);
      if Allowed(a[0]) {
        calc {
          Disallowed(s);
          Disallowed(a[1..] + b);
          Disallowed(a[1..]) + Disallowed(b);
          Disallowed(a) + Disallowed(b);
        }
      } else {
        calc {
          Disallowed(s);
          [a[0]] + Disallowed(a[1..] + b);
          [a[0]] + (Disallowed(a[1..]) + Disallowed(b));
          ([a[0]] + Disallowed(a[1..])) + Disallowed(b);
          Disallowed(a) + Disallowed(b);
        }
      }
    }
  }

  // ---- the regular expression `^[a-zA-Z0-9\. !#=/_-]+$|^(?![\s\S])` under `re.match` ----

  /** How far the greedy `[...]+` runs from the start: the longest allowlisted prefix. */
  function AllowedRun(s: string): (n: nat)
    ensures n <= |s|
    ensures AllAllowed(s[..n])
    ensures n < |s| ==> !Allowed(s[n])
    decreases |s|
  {
    if |s| == 0 || !Allowed(s[0]) then 0
    else
      var k := AllowedRun(s[1..]);
      assert s[..1 + k] == [s[0]] + s[1..][..k];
      1 + k
  }

  /** Python's `$` without MULTILINE, at position `p`: end of input, or just before a final newline. */
  predicate EndAnchor(s: string, p: nat)
  {
    p == |s| || (p + 1 == |s| && s[p] == '\n')
  }

  /** Backtracking of the greedy `+` followed by `$`: try end positions p, p-1, ..., 1. */
  predicate TryEnds(s: string, p: nat)
    decreases p
  {
    p >= 1 && (EndAnchor(s, p) || TryEnds(s, p - 1))
  }

  /**
   * `re.match` of the whole pattern: the first alternative as the engine runs
   * it, or the second, `^(?![\s\S])`, which only succeeds on an empty string.
   */
  predicate PatternMatches(s: string)
  {
    TryEnds(s, AllowedRun(s)) || |s| == 0
  }

  /**
   * What the pattern accepts, said directly: the empty string, an allowlisted
   * string, or a non-empty allowlisted string followed by one newline.
   */
  predicate Accepted(s: string)
  {
    || |s| == 0
    || AllAllowed(s)
    || (|s| >= 2 && s[|s| - 1] == '\n' && AllAllowed(s[..|s| - 1]))
  }

  lemma {:induction false} TryEndsWitness(s: string, p: nat)
    requires TryEnds(s, p)
    ensures exists q :: 1 <= q <= p && EndAnchor(s, q)
    decreases p
  {
    if !EndAnchor(s, p) {
      TryEndsWitness(s, p - 1);
    }
  }

  /** The backtracking matcher accepts exactly the strings `Accepted` describes. */
  lemma PatternIsAccepted(s: string)
    ensures PatternMatches(s) <==> Accepted(s)
  {
    var n := AllowedRun(s);
    if TryEnds(s, n) {
      TryEndsWitness(s, n);
      var q :| 1 <= q <= n && EndAnchor(s, q);
      assert forall i :: 0 <= i < q ==> s[i] == s[..n][i];
      if q == |s| {
        assert AllAllowed(s);
      } else {
        assert forall i :: 0 <= i < |s| - 1 ==> s[..|s| - 1][i] == s[i];
      }
    }
    if Accepted(s) && |s| > 0 {
      if AllAllowed(s) {
        assert n == |s|;
      } else {
        assert forall i :: 0 <= i < |s| - 1 ==> s[..|s| - 1][i] == s[i];
        assert !Allowed(s[|s| - 1]);
        assert forall i :: 0 <= i < |s| - 1 ==> Allowed(s[i]);
        assert n == |s| - 1;
        assert EndAnchor(s, n);
      }
    }
  }

  /** Result of `validate`: the verdict and the offending characters. */
  datatype Checked = Checked(valid: bool, chars: seq<char>)

  /** `validate(arg)`. */
  function Validate(arg: string): (r: Checked)
    ensures r.valid <==> Accepted(arg)
    ensures r.chars == Disallowed(arg)
    ensures arg == "" ==> r.valid && r.chars == []
    ensures |arg| > 0 && arg[|arg| - 1] != '\n' ==> (r.valid <==> r.chars == [])
  {
    PatternIsAccepted(arg);
    Checked(PatternMatches(arg), Disallowed(arg))
  }

  /**
   * Because `$` also matches before a final newline, an allowlisted string
   * with one newline appended is reported valid although the newline is
   * listed as a disallowed character.
   */
  lemma TrailingNewlineQuirk(t: string)
    requires |t| >= 1 && AllAllowed(t)
    ensures Validate(t + "\n") == Checked(true, ['\n'])
  {
    var s := t + "\n";
    assert s[..|s| - 1] == t;
    DisallowedConcat(t, "\n");
    assert Disallowed("\n") == ['\n'];
  }

  /** A newline on its own is rejected: the `+` needs at least one allowlisted character. */
  lemma LoneNewlineRejected()
    ensures Validate("\n") == Checked(false, ['\n'])
  {
    assert Disallowed("\n") == ['\n'];
    assert !AllAllowed("\n");
  }

  /** Result of `validate_args`: verdict, the offending argument, its disallowed characters. */
  datatype Verdict = Verdict(valid: bool, arg: string, chars: seq<char>)

  /** An element passes when it is not a string or is a valid string. */
  predicate Passes(o: Option<string>)
  {
    o.None? || Validate(o.value).valid
  }

  /** Position `k` holds the first string element that fails validation. */
  predicate FirstFailure(args: seq<Option<string>>, k: int)
  {
    && 0 <= k < |args|
    && !Passes(args[k])
    && forall j :: 0 <= j < k ==> Passes(args[j])
  }

  /**
   * `validate_args(args)`: elements that are not strings (`None`) are skipped;
   * the first invalid string ends the scan.
   */
  function ValidateArgs(args: seq<Option<string>>): (r: Verdict)
    ensures r.valid <==> forall i :: 0 <= i < |args| ==> Passes(args[i])
    ensures r.valid ==> r == Verdict(true, "", [])
    ensures !r.valid ==> exists k :: FirstFailure(args, k) && r == Verdict(false, args[k].value, Disallowed(args[k].value))
    decreases |args|
  {
    if |args| == 0 then Verdict(true, "", [])
    else
      var rest := ValidateArgs(args[1..]);
      assert forall i :: 1 <= i < |args| ==> args[i] == args[1..][i - 1];
      if !Passes(args[0]) then
        assert FirstFailure(args, 0);
        var v := Validate(args[0].value);
        Verdict(false, args[0].value, v.chars)
      else
        if !rest.valid then
          var k :| FirstFailure(args[1..], k) && rest == Verdict(false, args[1..][k].value, Disallowed(args[1..][k].value));
          assert FirstFailure(args, k + 1);
          rest
        else
          rest
  }

  /** Once an invalid string has been met, nothing after it changes the verdict. */
  lemma {:induction false} StopsAtFirstFailure(a: seq<Option<string>>, b: seq<Option<string>>)
    requires !ValidateArgs(a).valid
    ensures ValidateArgs(a + b) == ValidateArgs(a)
    decreases |a|
  {
    assert (a + b)[1..] == a[1..] + b;
    assert (a + b)[0] == a[0];
    if Passes(a[0]) {
      StopsAtFirstFailure(a[1..], b);
    }
  }

  /** A prefix that passes entirely leaves the verdict to what follows it. */
  lemma {:induction false} PassingPrefix(a: seq<Option<string>>, b: seq<Option<string>>)
    requires ValidateArgs(a).valid
    ensures ValidateArgs(a + b) == ValidateArgs(b)
    decreases |a|
  {
    if |a| > 0 {
      assert (a + b)[1..] == a[1..] + b;
      assert (a + b)[0] == a[0];
      assert Passes(a[0]);
      PassingPrefix(a[1..], b);
    } else {
      assert a + b == b;
    }
  }
}

=== FILE: argv.dfy ===
/** Commands, process chains, and the executor that runs them (left opaque). */
module Argv {

  import opened Wrappers

  /** One external command: program name followed by its arguments. */
  type Cmd = seq<string>

  /**
   * The commands handed to the executor in one call. With `pipe`, stage i's
   * standard output feeds stage i+1's standard input.
   */
  datatype Chain = Chain(cmds: seq<Cmd>, pipe: bool)

  /** What one stage reports when it exits. */
  datatype StageResult = StageResult(code: int, stdout: string, stderr: string)

  /**
   * The process-chain executor. Spawning processes is outside the model: it is
   * an oracle that reports, for a chain and a stage index, what that stage did.
   */
  type Executor = (Chain, nat) -> StageResult

  /** A single command run on its own. */
  function Single(cmd: Cmd): Chain
  {
    Chain([cmd], false)
  }

  /** `cmd1 | cmd2`, the shape every `align_bam` returns. */
  function Piped(cmd1: Cmd, cmd2: Cmd): Chain
  {
    Chain([cmd1, cmd2], true)
  }

  /** The exit codes of a chain, one per stage, in stage order. */
  function Codes(exec: Executor, c: Chain): (r: seq<int>)
    ensures |r| == |c.cmds|
    ensures forall i :: 0 <= i < |r| ==> r[i] == exec(c, i).code
  {
    seq(|c.cmds|, i requires 0 <= i => exec(c, i).code)
  }

  predicate AllZero(codes: seq<int>)
  {
    forall i :: 0 <= i < |codes| ==> codes[i] == 0
  }

  /** A list of strings as a list whose every element is a string (never `None`). */
  function Strings(xs: seq<string>): (r: seq<Option<string>>)
    ensures |r| == |xs|
    ensures forall i :: 0 <= i < |xs| ==> r[i] == Some(xs[i])
  {
    seq(|xs|, i requires 0 <= i < |xs| => Some(xs[i]))
  }

  /**
   * The read files at the end of a command: `seq1` alone for single-end
   * input, or `pairedFlag` (possibly no token) then `seq1 seq2` when `seq2` is
   * truthy. An empty-string `seq2` is single-end input.
   */
  function Mates(pairedFlag: seq<string>, seq1: string, seq2: Option<string>): (r: seq<string>)
    ensures Truthy(seq2) ==>
      && |r| == |pairedFlag| + 2 && r[..|pairedFlag|] == pairedFlag
      && r[|pairedFlag|] == seq1 && r[|pairedFlag| + 1] == seq2.value
    ensures !Truthy(seq2) ==> r == [seq1]
  {
    if Truthy(seq2) then pairedFlag + [seq1, seq2.value] else [seq1]
  }

  /** `cmd` with the `n` tokens starting at position `i` taken out. */
  function Without(cmd: Cmd, i: nat, n: nat): Cmd
    requires i + n <= |cmd|
  {
    cmd[..i] + cmd[i + n..]
  }
}

=== FILE: bbmap_aligner.dfy ===
/** BBMap index and alignment commands (hocort/aligners/bbmap.py). */
module BBMapAligner {

  import opened Wrappers
  import opened Argv
  import Decimal

  /** `in=<seq1> in2=<seq2>` for a truthy `seq2`, otherwise `in=<seq1>`. */
  function Reads(seq1: string, seq2: Option<string>): (r: seq<string>)
    ensures Truthy(seq2) ==> r == ["in=" + seq1, "in2=" + seq2.value]
    ensures !Truthy(seq2) ==> r == ["in=" + seq1]
  {
    if Truthy(seq2) then ["in=" + seq1, "in2=" + seq2.value] else ["in=" + seq1]
  }

  /** `build_index`: the options are accepted and dropped. */
  function BuildIndex(pathOut: string, fastaIn: string, threads: int, options: seq<string>): (r: Chain)
    ensures !r.pipe && |r.cmds| == 1 && |r.cmds[0]| == 4 && r.cmds[0][0] == "bbmap.sh"
    ensures r.cmds[0][1] == "threads=" + Decimal.IntToString(threads)
    ensures r.cmds[0][2] == "ref=" + fastaIn && r.cmds[0][3] == "path=" + pathOut
  {
    Single(["bbmap.sh", "threads=" + Decimal.IntToString(threads), "ref=" + fastaIn, "path=" + pathOut])
  }

  /** The alignment command shared by both variants; only the output file's extension differs. */
  function Align(index: string, seq1: string, outToken: string, seq2: Option<string>, threads: int, options: seq<string>): (r: Cmd)
    ensures |r| == 4 + |Reads(seq1, seq2)| + |options|
    ensures r[..4] == ["bbmap.sh", "threads=" + Decimal.IntToString(threads), "path=" + index, outToken]
    ensures r[4..4 + |Reads(seq1, seq2)|] == Reads(seq1, seq2)
    ensures r[4 + |Reads(seq1, seq2)|..] == options
  {
    ["bbmap.sh", "threads=" + Decimal.IntToString(threads), "path=" + index, outToken] + Reads(seq1, seq2) + options
  }

  /** `align_sam`: writes `<output>.sam`; options last. */
  function AlignSam(index: string, seq1: string, output: string, seq2: Option<string>, threads: int, options: seq<string>): (r: Chain)
    ensures !r.pipe && |r.cmds| == 1 && |r.cmds[0]| == 4 + |Reads(seq1, seq2)| + |options|
    ensures r.cmds[0][3] == "out=" + output + ".sam"
    ensures r.cmds[0][|r.cmds[0]| - |options|..] == options
  {
    Single(Align(index, seq1, "out=" + output + ".sam", seq2, threads, options))
  }

  /** `align_bam`: writes `<output>.bam` from a single, unpiped command. */
  function AlignBam(index: string, seq1: string, output: string, seq2: Option<string>, threads: int, options: seq<string>): (r: Chain)
    ensures var sam := AlignSam(index, seq1, output, seq2, threads, options).cmds[0];
      r == Single(sam[3 := "out=" + output + ".bam"])
  {
    var bam := Align(index, seq1, "out=" + output + ".bam", seq2, threads, options);
    assert bam == Align(index, seq1, "out=" + output + ".sam", seq2, threads, options)[3 := "out=" + output + ".bam"];
    Single(bam)
  }

  /** The two variants differ in exactly one token, the output file name. */
  lemma SamAndBamDifferOnlyInOutput(index: string, seq1: string, output: string, seq2: Option<string>, threads: int, options: seq<string>)
    ensures var s := AlignSam(index, seq1, output, seq2, threads, options).cmds[0];
      var b := AlignBam(index, seq1, output, seq2, threads, options).cmds[0];
      && |s| == |b|
      && (forall i :: 0 <= i < |s| && i != 3 ==> s[i] == b[i])
      && s[3] != b[3]
  {
    var s := AlignSam(index, seq1, output, seq2, threads, options).cmds[0];
    var b := AlignBam(index, seq1, output, seq2, threads, options).cmds[0];
    var n := |"out=" + output| + 1;
    assert s[3][n] == 's' && b[3][n] == 'b';
  }

  /** The options never reach the index command. */
  lemma BuildIndexIgnoresOptions(pathOut: string, fastaIn: string, threads: int, o1: seq<string>, o2: seq<string>)
    ensures BuildIndex(pathOut, fastaIn, threads, o1) == BuildIndex(pathOut, fastaIn, threads, o2)
  {
  }
}

=== FILE: bbmap_pipeline.dfy ===
/** The BBMap pipeline (hocort/pipelines/bbmap.py). */
module BBMapPipeline {

  import opened Wrappers
  import opened Argv
  import opened PipelineCore
  import Sam

  /** The option the `nanopore` preset adds. */
  const NanoporeLimit := "maxlen=600"

  /** The options after the preset is applied: `nanopore` appends the length limit, anything else adds nothing. */
  function WithPreset(preset: string, options: seq<string>): (r: seq<string>)
    ensures preset == "nanopore" ==> r == options + [NanoporeLimit]
    ensures preset != "nanopore" ==> r == options
  {
    if preset == "illumina" then options + []
    else if preset == "nanopore" then options + [NanoporeLimit]
    else options
  }

  /**
   * The aligner call. `bb().align` is not defined by the aligner module the
   * pipeline imports, so its result comes from the environment.
   */
  function AlignCall(idx: string, seq1: string, seq2: Option<string>, threads: int, options: seq<string>): Call
  {
    Call("BBMap.align", [Str(idx), Str(seq1)],
         map["output" := Str("stdout.sam"), "seq2" := OptArg(seq2), "threads" := Int(threads), "options" := Strs(options)])
  }

  /** The chain run: the aligner's commands, then `samtools fastq` reading standard input, all piped. */
  function FullChain(built: seq<Cmd>, out1: string, out2: Option<string>, threads: int, mfilter: bool): (r: Chain)
    ensures r.pipe
    ensures r.cmds == built + Sam.SamToFastq(None, Some(out1), out2, threads, mfilter)
  {
    Chain(built + Sam.SamToFastq(None, Some(out1), out2, threads, mfilter), true)
  }

  /** The run once the options are settled (the arity check has passed). */
  function AlignAndConvert(env: Env, idx: string, seq1: string, out1: string, seq2: Option<string>, out2: Option<string>,
                           mfilter: bool, threads: int, options: seq<string>): (r: Trace)
    ensures |r.steps| >= 1 && r.steps[0] == Invoke(AlignCall(idx, seq1, seq2, threads, options))
    ensures env.build(AlignCall(idx, seq1, seq2, threads, options)).None? ==> r == Exit(r.steps[..1], 1)
    ensures env.build(AlignCall(idx, seq1, seq2, threads, options)).Some? ==>
      var chain := FullChain(env.build(AlignCall(idx, seq1, seq2, threads, options)).value, out1, out2, threads, mfilter);
      && r.steps == [r.steps[0], Execute(chain)]
      && (r.outcome == Returned(Code(0)) <==> AllZero(Codes(env.exec, chain)))
      && (r.outcome == Returned(Code(1)) <==> !AllZero(Codes(env.exec, chain)))
  {
    var call := AlignCall(idx, seq1, seq2, threads, options);
    match env.build(call)
    case None => Exit([Invoke(call)], 1)
    case Some(built) =>
      var chain := FullChain(built, out1, out2, threads, mfilter);
      Exit([Invoke(call), Execute(chain)], ExitStatus(Codes(env.exec, chain)))
  }

  /**
   * The options the aligner is meant to receive: a non-empty list from the
   * caller overrides the preset, as the `options` parameter is documented;
   * otherwise the preset alone decides.
   */
  function EffectiveOptions(preset: string, options: seq<string>): seq<string>
  {
    if |options| > 0 then options else WithPreset(preset, [])
  }

  /**
   * `BBMap.run` corrected on two counts: the preset extends a fresh list, so
   * one call never affects the next, and options the caller gives override
   * the preset.
   */
  function Run(env: Env, idx: string, seq1: string, out1: string, seq2: Option<string>, out2: Option<string>,
               mfilter: bool, preset: string, threads: int, options: seq<string>): (r: Trace)
    ensures Truthy(seq2) && !Truthy(out2) ==> r == Trace([], Raised(ValueErr(Seq2WithoutOut2)))
    ensures !(Truthy(seq2) && !Truthy(out2)) ==>
      r == AlignAndConvert(env, idx, seq1, out1, seq2, out2, mfilter, threads, EffectiveOptions(preset, options))
  {
    if Truthy(seq2) && !Truthy(out2) then Trace([], Raised(ValueErr(Seq2WithoutOut2)))
    else AlignAndConvert(env, idx, seq1, out1, seq2, out2, mfilter, threads, EffectiveOptions(preset, options))
  }

  /** Corrected: given options reach the aligner unchanged, and the preset then makes no difference. */
  lemma OptionsOverridePreset(env: Env, idx: string, seq1: string, out1: string, seq2: Option<string>, out2: Option<string>,
                              mfilter: bool, p1: string, p2: string, threads: int, options: seq<string>)
    requires |options| > 0
    ensures Run(env, idx, seq1, out1, seq2, out2, mfilter, p1, threads, options)
         == Run(env, idx, seq1, out1, seq2, out2, mfilter, p2, threads, options)
    ensures !(Truthy(seq2) && !Truthy(out2)) ==>
      Run(env, idx, seq1, out1, seq2, out2, mfilter, p1, threads, options).steps[0].call.keywords["options"] == Strs(options)
  {
  }

  /** How the caller passes `options`: left to the default, or given. */
  datatype OptionsArg = DefaultList | Passed(items: seq<string>)

  /**
   * `BBMap.run` as written: `options += [...]` extends the list object in
   * place, and when the caller passed nothing that object is the one
   * default list shared by every call; a list the caller gives is extended
   * too, although it is documented to override the preset. Returns the trace
   * and the default list's contents afterwards.
   */
  function RunAsWritten(env: Env, defaults: seq<string>, idx: string, seq1: string, out1: string, seq2: Option<string>,
                        out2: Option<string>, mfilter: bool, preset: string, threads: int, options: OptionsArg): (r: (Trace, seq<string>))
    ensures Truthy(seq2) && !Truthy(out2) ==> r == (Trace([], Raised(ValueErr(Seq2WithoutOut2))), defaults)
    ensures options.Passed? ==> r.1 == defaults
    ensures !(Truthy(seq2) && !Truthy(out2)) ==>
      var given := if options.DefaultList? then defaults else options.items;
      r.0 == AlignAndConvert(env, idx, seq1, out1, seq2, out2, mfilter, threads, WithPreset(preset, given))
    ensures options.DefaultList? && !(Truthy(seq2) && !Truthy(out2)) ==> r.1 == WithPreset(preset, defaults)
    ensures preset != "nanopore" && options.Passed? ==> r.0 == Run(env, idx, seq1, out1, seq2, out2, mfilter, preset, threads, options.items)
  {
    if Truthy(seq2) && !Truthy(out2) then (Trace([], Raised(ValueErr(Seq2WithoutOut2))), defaults)
    else
      var list := if options.DefaultList? then defaults else options.items;
      var list := WithPreset(preset, list);
      var defaults' := if options.DefaultList? then list else defaults;
      (AlignAndConvert(env, idx, seq1, out1, seq2, out2, mfilter, threads, list), defaults')
  }

  /** As written, a caller's list gets the preset's limit appended: `nanopore` and `illumina` differ even then. */
  lemma AlignerOptions(env: Env, defaults: seq<string>, idx: string, seq1: string, out1: string, seq2: Option<string>,
                       out2: Option<string>, mfilter: bool, preset: string, threads: int, options: seq<string>)
    requires !(Truthy(seq2) && !Truthy(out2))
    ensures var r := RunAsWritten(env, defaults, idx, seq1, out1, seq2, out2, mfilter, preset, threads, Passed(options)).0;
      && r.steps[0].Invoke?
      && r.steps[0].call.keywords["options"] == Strs(if preset == "nanopore" then options + [NanoporeLimit] else options)
    ensures RunAsWritten(env, defaults, idx, seq1, out1, seq2, out2, mfilter, "nanopore", threads, Passed(options)).0
         != RunAsWritten(env, defaults, idx, seq1, out1, seq2, out2, mfilter, "illumina", threads, Passed(options)).0
  {
    var n := RunAsWritten(env, defaults, idx, seq1, out1, seq2, out2, mfilter, "nanopore", threads, Passed(options)).0;
    var i := RunAsWritten(env, defaults, idx, seq1, out1, seq2, out2, mfilter, "illumina", threads, Passed(options)).0;
    assert n.steps[0].call.keywords["options"] == Strs(options + [NanoporeLimit]);
    assert i.steps[0].call.keywords["options"] == Strs(options);
    assert |options + [NanoporeLimit]| != |options|;
  }

  /**
   * The shared default grows by one limit per `nanopore` call: the second
   * such call hands the aligner the limit twice, where a fresh list would
   * hold it once.
   */
  lemma DefaultOptionsAccumulate(env: Env, idx: string, seq1: string, out1: string, threads: int)
    ensures var first := RunAsWritten(env, [], idx, seq1, out1, None, None, true, "nanopore", threads, DefaultList);
      var second := RunAsWritten(env, first.1, idx, seq1, out1, None, None, true, "nanopore", threads, DefaultList);
      && first.1 == [NanoporeLimit]
      && second.0.steps[0].call.keywords["options"] == Strs([NanoporeLimit, NanoporeLimit])
      && Run(env, idx, seq1, out1, None, None, true, "nanopore", threads, []).steps[0].call.keywords["options"] == Strs([NanoporeLimit])
  {
  }

  /** With the corrected definition a default call sees the same options however many calls came before. */
  lemma DefaultCallsIndependent(env: Env, idx: string, seq1: string, out1: string, seq2: Option<string>, out2: Option<string>,
                                mfilter: bool, preset: string, threads: int)
    requires !(Truthy(seq2) && !Truthy(out2))
    ensures Run(env, idx, seq1, out1, seq2, out2, mfilter, preset, threads, []).steps[0].call.keywords["options"]
         == Strs(if preset == "nanopore" then [NanoporeLimit] else [])
  {
  }
}

=== FILE: biobloom_aligner.dfy ===
/**
 * BioBloom Tools filter and categoriser commands with input checks
 * (hocort/aligners/biobloom.py).
 */
module BioBloomAligner {

  import opened Wrappers
  import opened Argv
  import Decimal
  import Allowlist

  /** `build_index`: the character check, the emptiness checks, then one `biobloommaker` command. */
  function BuildIndex(pathOut: Option<string>, fastaIn: Option<string>, threads: int, options: seq<string>): (r: Result<seq<Cmd>>)
    ensures var v := Allowlist.ValidateArgs([pathOut, fastaIn] + Strings(options));
      && (!v.valid ==> r == Err(DisallowedInput(v.arg, v.chars)))
      && (v.valid && !Truthy(fastaIn) ==> r == Err(NoFastaIn))
      && (v.valid && Truthy(fastaIn) && !Truthy(pathOut) ==> r == Err(NoPathOut))
      && (r.Ok? <==> v.valid && Truthy(fastaIn) && Truthy(pathOut))
    ensures r.Ok? ==> r.value == [BuildCommand(fastaIn.value, pathOut.value, threads)]
  {
    var v := Allowlist.ValidateArgs([pathOut, fastaIn] + Strings(options));
    if !v.valid then Err(DisallowedInput(v.arg, v.chars))
    else if !Truthy(fastaIn) then Err(NoFastaIn)
    else if !Truthy(pathOut) then Err(NoPathOut)
    else Ok([BuildCommand(fastaIn.value, pathOut.value, threads)])
  }

  /** The filter is built under the fixed name `reference`, from the FASTA, into the output prefix. */
  function BuildCommand(fastaIn: string, pathOut: string, threads: int): (r: Cmd)
    ensures |r| == 8
    ensures r[0] == "biobloommaker" && r[1..3] == ["-t", Decimal.IntToString(threads)]
    ensures r[3..5] == ["-p", "reference"] && r[5] == fastaIn && r[6..] == ["-o", pathOut]
  {
    ["biobloommaker", "-t", Decimal.IntToString(threads), "-p", "reference", fastaIn, "-o", pathOut]
  }

  /** Valid options do not change the command: they are checked, then dropped. */
  lemma BuildIndexIgnoresOptions(pathOut: Option<string>, fastaIn: Option<string>, threads: int, o1: seq<string>, o2: seq<string>)
    requires Allowlist.ValidateArgs([pathOut, fastaIn] + Strings(o1)).valid
    requires Allowlist.ValidateArgs([pathOut, fastaIn] + Strings(o2)).valid
    ensures BuildIndex(pathOut, fastaIn, threads, o1) == BuildIndex(pathOut, fastaIn, threads, o2)
  {
  }

  /** `--paired_mode seq1 seq2` for a truthy `seq2`, otherwise `seq1`. */
  function Reads(seq1: string, seq2: Option<string>): seq<string>
  {
    Mates(["--paired_mode"], seq1, seq2)
  }

  /**
   * `classify`: the character check, then the index and read checks. The
   * output prefix is checked for characters but not for emptiness.
   */
  function Classify(index: Option<string>, seq1: Option<string>, out: string, seq2: Option<string>,
                    threads: int, options: seq<string>): (r: Result<seq<Cmd>>)
    ensures var v := Allowlist.ValidateArgs([index, seq1, Some(out), seq2] + Strings(options));
      && (!v.valid ==> r == Err(DisallowedInput(v.arg, v.chars)))
      && (v.valid && !Truthy(index) ==> r == Err(NoIndex))
      && (v.valid && Truthy(index) && !Truthy(seq1) ==> r == Err(NoFastq))
      && (r.Ok? <==> v.valid && Truthy(index) && Truthy(seq1))
    ensures r.Ok? ==> r.value == [ClassifyCommand(index.value, seq1.value, out, seq2, threads, options)]
  {
    var v := Allowlist.ValidateArgs([index, seq1, Some(out), seq2] + Strings(options));
    if !v.valid then Err(DisallowedInput(v.arg, v.chars))
    else if !Truthy(index) then Err(NoIndex)
    else if !Truthy(seq1) then Err(NoFastq)
    else Ok([ClassifyCommand(index.value, seq1.value, out, seq2, threads, options)])
  }

  /** The categoriser command for accepted arguments: fixed head, reads, then the options. */
  function ClassifyCommand(index: string, seq1: string, out: string, seq2: Option<string>,
                           threads: int, options: seq<string>): (r: Cmd)
    ensures |r| == 8 + |Reads(seq1, seq2)| + |options|
    ensures r[..8] == ["biobloomcategorizer", "-t", Decimal.IntToString(threads), "-f", index, "--fq", "-p", out]
    ensures r[8..|r| - |options|] == Reads(seq1, seq2)
    ensures r[|r| - |options|..] == options
  {
    ["biobloomcategorizer", "-t", Decimal.IntToString(threads), "-f", index, "--fq", "-p", out]
    + Reads(seq1, seq2) + options
  }

  /** An empty output prefix passes every check: nothing stops `-p ""` reaching the tool. */
  lemma EmptyOutputAccepted(index: string, seq1: string, threads: int)
    requires index != "" && seq1 != ""
    requires Allowlist.AllAllowed(index) && Allowlist.AllAllowed(seq1)
    ensures Classify(Some(index), Some(seq1), "", None, threads, []) == Ok([ClassifyCommand(index, seq1, "", None, threads, [])])
  {
    var args: seq<Option<string>> := [Some(index), Some(seq1), Some(""), None] + Strings([]);
    assert Allowlist.Validate(index).valid;
    assert Allowlist.Validate(seq1).valid;
    assert Allowlist.Validate("").valid;
    assert forall i :: 0 <= i < |args| ==> Allowlist.Passes(args[i]);
  }
}

=== FILE: biobloom_pipeline.dfy ===
/** The BioBloom pipeline (hocort/pipelines/biobloom.py). */
module BioBloomPipeline {

  import opened Wrappers
  import opened Argv
  import opened PipelineCore
  import BioBloomAligner

  /** The options string becomes a list: empty for `''`, else the whole string as one element. */
  function FinalOptions(options: string): (r: seq<string>)
    ensures |options| == 0 <==> r == []
    ensures |options| > 0 ==> r == [options]
  {
    if |options| > 0 then [options] else []
  }

  /** `BioBloom.run`: build the categoriser command, run it unpiped, return 1 on any non-zero code. */
  function Run(env: Env, idx: Option<string>, seq1: Option<string>, out: string, seq2: Option<string>,
               threads: int, options: string): (r: Trace)
    ensures var built := BioBloomAligner.Classify(idx, seq1, out, seq2, threads, FinalOptions(options));
      && (built.Err? <==> r.outcome.Raised?)
      && (built.Err? ==> r == Trace([], Raised(ValueErr(built.error))))
      && (built.Ok? ==>
            && r.steps == [Execute(Chain(built.value, false))]
            && (r.outcome == Returned(Code(0)) <==> AllZero(Codes(env.exec, Chain(built.value, false))))
            && (r.outcome == Returned(Code(1)) <==> !AllZero(Codes(env.exec, Chain(built.value, false)))))
  {
    match BioBloomAligner.Classify(idx, seq1, out, seq2, threads, FinalOptions(options))
    case Err(e) => Trace([], Raised(ValueErr(e)))
    case Ok(cmds) =>
      var chain := Chain(cmds, false);
      Exit([Execute(chain)], ExitStatus(Codes(env.exec, chain)))
  }

  /**
   * Nothing runs when the arguments are rejected: a missing index or read
   * file, or a disallowed character, ends the run before any command.
   */
  lemma RejectedBeforeExecution(env: Env, idx: Option<string>, seq1: Option<string>, out: string, seq2: Option<string>,
                                threads: int, options: string)
    requires !Truthy(idx) || !Truthy(seq1)
    ensures Run(env, idx, seq1, out, seq2, threads, options).steps == []
    ensures Run(env, idx, seq1, out, seq2, threads, options).outcome.Raised?
  {
  }

  /** A non-empty options string reaches the command as one token, after the reads. */
  lemma OptionsStringIsOneToken(env: Env, idx: string, seq1: string, out: string, seq2: Option<string>,
                                threads: int, options: string)
    requires |options| > 0
    requires BioBloomAligner.Classify(Some(idx), Some(seq1), out, seq2, threads, [options]).Ok?
    ensures var cmd := Run(env, Some(idx), Some(seq1), out, seq2, threads, options).steps[0].chain.cmds[0];
      cmd[|cmd| - 1] == options
  {
    var cmd := BioBloomAligner.ClassifyCommand(idx, seq1, out, seq2, threads, [options]);
    assert cmd[|cmd| - 1] == cmd[|cmd| - 1..][0];
  }
}

=== FILE: bowtie2_aligner.dfy ===
/** Bowtie2 alignment commands (hocort/aligners/bowtie2.py). */
module Bowtie2Aligner {

  import opened Wrappers
  import opened Argv
  import Decimal
  import Sam

  /** `-1 seq1 -2 seq2` for a truthy `seq2`, otherwise `-U seq1`. */
  function Reads(seq1: string, seq2: Option<string>): (r: seq<string>)
    ensures Truthy(seq2) ==> r == ["-1", seq1, "-2", seq2.value]
    ensures !Truthy(seq2) ==> r == ["-U", seq1]
  {
    if Truthy(seq2) then ["-1", seq1, "-2", seq2.value] else ["-U", seq1]
  }

  /** `generate_index` is a no-op: it issues no command. */
  function GenerateIndex(path: string, sequences: string): (r: seq<Chain>)
    ensures |r| == 0
  {
    []
  }

  /** `align_sam`: bowtie2 writes SAM to `output` itself. */
  function AlignSam(index: string, seq1: string, output: string, seq2: Option<string>, threads: int, options: seq<string>): (r: Chain)
    ensures !r.pipe && |r.cmds| == 1
    ensures |r.cmds[0]| == 8 + |options| + |Reads(seq1, seq2)|
    ensures r.cmds[0][..8] == ["bowtie2", "-p", Decimal.IntToString(threads), "-x", index, "-q", "-S", output]
    ensures r.cmds[0][8..8 + |options|] == options
    ensures r.cmds[0][8 + |options|..] == Reads(seq1, seq2)
  {
    Single(["bowtie2", "-p", Decimal.IntToString(threads), "-x", index, "-q", "-S", output] + options + Reads(seq1, seq2))
  }

  /** `align_bam`: bowtie2 writes SAM to its standard output, piped into samtools. */
  function AlignBam(index: string, seq1: string, output: string, seq2: Option<string>, threads: int, options: seq<string>): (r: Chain)
    ensures r.pipe && |r.cmds| == 2
    ensures |r.cmds[0]| == 6 + |options| + |Reads(seq1, seq2)|
    ensures r.cmds[0][..6] == ["bowtie2", "-p", Decimal.IntToString(threads), "-x", index, "-q"]
    ensures r.cmds[0][6..] == options + Reads(seq1, seq2)
    ensures r.cmds[1] == Sam.ToBam(threads, output)
  {
    Piped(["bowtie2", "-p", Decimal.IntToString(threads), "-x", index, "-q"] + options + Reads(seq1, seq2),
          Sam.ToBam(threads, output))
  }

  /** The BAM variant's aligner stage is the SAM command with `-S output` taken out. */
  lemma BamIsSamWithoutOutput(index: string, seq1: string, output: string, seq2: Option<string>, threads: int, options: seq<string>)
    ensures var sam := AlignSam(index, seq1, output, seq2, threads, options).cmds[0];
      && sam[6..8] == ["-S", output]
      && AlignBam(index, seq1, output, seq2, threads, options).cmds[0] == Without(sam, 6, 2)
  {
  }

  /** An empty second read file is single-end input, exactly as no second file. */
  lemma EmptySeq2IsSingleEnd(index: string, seq1: string, output: string, threads: int, options: seq<string>)
    ensures AlignSam(index, seq1, output, Some(""), threads, options) == AlignSam(index, seq1, output, None, threads, options)
    ensures AlignBam(index, seq1, output, Some(""), threads, options) == AlignBam(index, seq1, output, None, threads, options)
  {
  }
}

=== FILE: bowtie2_bowtie2_pipeline.dfy ===
/** Bowtie2 end-to-end, then Bowtie2 local on the same index (hocort/pipelines/bowtie2_bowtie2.py). */
module Bowtie2Bowtie2Pipeline {

  import opened Wrappers
  import opened Argv
  import opened PipelineCore
  import Bowtie2Hisat2Pipeline

  function First(tmp: string, bt2Idx: string, seq1: string, seq2: Option<string>, intermediary: string, hcfilter: string): Call
  {
    Call("Bowtie2.run", [Str(bt2Idx), Str(seq1), Str(Bowtie2Hisat2Pipeline.Temp1(tmp))],
         map["seq2" := OptArg(seq2), "out2" := OptArg(Bowtie2Hisat2Pipeline.Temp2(tmp, seq2)), "mode" := Str("end-to-end"),
             "intermediary" := Str(intermediary), "hcfilter" := Str(hcfilter)])
  }

  function Second(tmp: string, bt2Idx: string, out1: string, seq2: Option<string>, out2: Option<string>,
                  intermediary: string, hcfilter: string): Call
  {
    Call("Bowtie2.run", [Str(bt2Idx), Str(Bowtie2Hisat2Pipeline.Temp1(tmp)), Str(out1)],
         map["seq2" := OptArg(Bowtie2Hisat2Pipeline.Temp2(tmp, seq2)), "out2" := OptArg(out2), "mode" := Str("local"),
             "intermediary" := Str(intermediary), "hcfilter" := Str(hcfilter)])
  }

  /** `Bowtie2Bowtie2.run`; its `threads` argument is accepted and dropped. */
  function Run(env: Env, bt2Idx: string, seq1: string, out1: string, seq2: Option<string>, out2: Option<string>,
               threads: int, intermediary: string, hcfilter: string): (r: Trace)
    ensures var first := First(env.tmp, bt2Idx, seq1, seq2, intermediary, hcfilter);
      var second := Second(env.tmp, bt2Idx, out1, seq2, out2, intermediary, hcfilter);
      && |r.steps| >= 1 && r.steps[0] == SubRun(first)
      && (Failed(env.sub(first)) <==> r.steps == [SubRun(first)])
      && (!Failed(env.sub(first)) ==> r.steps == [SubRun(first), SubRun(second)])
      && (r.outcome == Returned(Code(0)) <==> env.sub(first) == Code(0) && env.sub(second) == Code(0))
      && (r.outcome == Returned(Code(0)) || r.outcome == Returned(Code(1)))
  {
    TwoStage(env, First(env.tmp, bt2Idx, seq1, seq2, intermediary, hcfilter),
             Second(env.tmp, bt2Idx, out1, seq2, out2, intermediary, hcfilter))
  }

  /** The thread count has no effect at all. */
  lemma ThreadsDropped(env: Env, bt2Idx: string, seq1: string, out1: string, seq2: Option<string>, out2: Option<string>,
                       t1: int, t2: int, intermediary: string, hcfilter: string)
    ensures Run(env, bt2Idx, seq1, out1, seq2, out2, t1, intermediary, hcfilter)
         == Run(env, bt2Idx, seq1, out1, seq2, out2, t2, intermediary, hcfilter)
  {
  }

  /** Both passes use the same index; the first is `end-to-end`, the second `local`, reading the first's output. */
  lemma PassesDiffer(tmp: string, bt2Idx: string, seq1: string, out1: string, seq2: Option<string>, out2: Option<string>,
                     intermediary: string, hcfilter: string)
    ensures var first := First(tmp, bt2Idx, seq1, seq2, intermediary, hcfilter);
      var second := Second(tmp, bt2Idx, out1, seq2, out2, intermediary, hcfilter);
      && first.positional[0] == second.positional[0] == Str(bt2Idx)
      && first.keywords["mode"] == Str("end-to-end") && second.keywords["mode"] == Str("local")
      && first.positional[2] == second.positional[1]
      && "threads" !in first.keywords && "threads" !in second.keywords
  {
  }

  /**
   * The `Bowtie2` pipeline returns `None` even when it completes, and
   * `None != 0` holds, so a first pass that returns `None` ends the run
   * with 1 before the second pass.
   */
  lemma NoneFromFirstPassStops(env: Env, bt2Idx: string, seq1: string, out1: string, seq2: Option<string>, out2: Option<string>,
                               threads: int, intermediary: string, hcfilter: string)
    requires env.sub(First(env.tmp, bt2Idx, seq1, seq2, intermediary, hcfilter)) == NoneReturned
    ensures Run(env, bt2Idx, seq1, out1, seq2, out2, threads, intermediary, hcfilter)
         == Exit([SubRun(First(env.tmp, bt2Idx, seq1, seq2, intermediary, hcfilter))], 1)
  {
  }
}

=== FILE: bowtie2_hisat2_pipeline.dfy ===
/** Bowtie2 end-to-end, then HISAT2 (hocort/pipelines/bowtie2_hisat2.py). */
module Bowtie2Hisat2Pipeline {

  import opened Wrappers
  import opened Argv
  import opened PipelineCore

  function Temp1(tmp: string): string { tmp + "/temp1.fastq" }
  function Temp2(tmp: string, seq2: Option<string>): Option<string> { MateTemp(seq2, tmp + "/temp2.fastq") }

  function First(tmp: string, bt2Idx: string, seq1: string, seq2: Option<string>,
                 threads: int, intermediary: string, hcfilter: string): Call
  {
    Call("Bowtie2.run", [Str(bt2Idx), Str(seq1), Str(Temp1(tmp))],
         map["seq2" := OptArg(seq2), "out2" := OptArg(Temp2(tmp, seq2)), "mode" := Str("end-to-end"),
             "threads" := Int(threads), "intermediary" := Str(intermediary), "hcfilter" := Str(hcfilter)])
  }

  function Second(tmp: string, hs2Idx: string, out1: string, seq2: Option<string>, out2: Option<string>,
                  threads: int, intermediary: string, hcfilter: string): Call
  {
    Call("HISAT2.run", [Str(hs2Idx), Str(Temp1(tmp)), Str(out1)],
         map["seq2" := OptArg(Temp2(tmp, seq2)), "out2" := OptArg(out2),
             "threads" := Int(threads), "intermediary" := Str(intermediary), "hcfilter" := Str(hcfilter)])
  }

  /** `Bowtie2HISAT2.run`. */
  function Run(env: Env, bt2Idx: string, hs2Idx: string, seq1: string, out1: string, seq2: Option<string>, out2: Option<string>,
               threads: int, intermediary: string, hcfilter: string): (r: Trace)
    ensures var first := First(env.tmp, bt2Idx, seq1, seq2, threads, intermediary, hcfilter);
      var second := Second(env.tmp, hs2Idx, out1, seq2, out2, threads, intermediary, hcfilter);
      && |r.steps| >= 1 && r.steps[0] == SubRun(first)
      && (Failed(env.sub(first)) <==> r.steps == [SubRun(first)])
      && (!Failed(env.sub(first)) ==> r.steps == [SubRun(first), SubRun(second)])
      && (r.outcome == Returned(Code(0)) <==> env.sub(first) == Code(0) && env.sub(second) == Code(0))
      && (r.outcome == Returned(Code(0)) || r.outcome == Returned(Code(1)))
  {
    TwoStage(env, First(env.tmp, bt2Idx, seq1, seq2, threads, intermediary, hcfilter),
             Second(env.tmp, hs2Idx, out1, seq2, out2, threads, intermediary, hcfilter))
  }

  /**
   * The first stage aligns end-to-end; the second reads what the first
   * writes, and both see the same thread count, intermediary and filter flag.
   */
  lemma StagesConnect(tmp: string, bt2Idx: string, hs2Idx: string, seq1: string, out1: string, seq2: Option<string>,
                      out2: Option<string>, threads: int, intermediary: string, hcfilter: string)
    ensures var first := First(tmp, bt2Idx, seq1, seq2, threads, intermediary, hcfilter);
      var second := Second(tmp, hs2Idx, out1, seq2, out2, threads, intermediary, hcfilter);
      && first.keywords["mode"] == Str("end-to-end") && "mode" !in second.keywords
      && first.positional[2] == second.positional[1]
      && first.keywords["out2"] == second.keywords["seq2"]
      && (second.keywords["seq2"] == NoneValue <==> seq2.None?)
      && forall k :: k in ["threads", "intermediary", "hcfilter"] ==> first.keywords[k] == second.keywords[k]
  {
  }
}

=== FILE: bowtie2_only_pipeline.dfy ===
/** The single-pass Bowtie2 pipeline (hocort/pipelines/bowtie2_only.py). */
module Bowtie2OnlyPipeline {

  import opened Wrappers
  import opened Argv
  import opened PipelineCore
  import Bowtie2Aligner
  import IdFilter
  import FastQ
  import Decimal

  /** The one alignment option. */
  const AlignOptions: seq<string> := ["--score-min L,-0.4,-0.4"]

  /** The aligner's own default thread count, since the pipeline passes none. */
  const AlignerThreads := 1

  function Intermediate(tmp: string): string
  {
    tmp + "/output"
  }

  /** Filtered output names: the output prefix with a per-mate suffix. */
  function Out1(out: string): string { out + ".file1.fastq" }
  function Out2(out: string): string { out + ".file2.fastq" }

  /** `Bowtie2Only.run`: align, extract, write names, filter; no exit code. */
  function Run(env: Env, idx: string, seq1: string, out: string, seq2: Option<string>, intermediary: string): (r: Trace)
    ensures r.outcome == Returned(NoneReturned)
    ensures var chain := if intermediary == "BAM"
        then Bowtie2Aligner.AlignBam(idx, seq1, Intermediate(env.tmp), seq2, AlignerThreads, AlignOptions)
        else Bowtie2Aligner.AlignSam(idx, seq1, Intermediate(env.tmp), seq2, AlignerThreads, AlignOptions);
      var ext := ExtractCall(if intermediary == "BAM" then BamFile else SamFile, Intermediate(env.tmp), 0, None, Some(Truthy(seq2)));
      var outs2 := if seq2.Some? then Some(Out2(out)) else None;
      var filters := IdFilter.MateFilters(seq1, Out1(out), seq2, outs2, IdFilter.IdsPath(env.tmp), FastQ.DefaultInclude);
      && |r.steps| >= 1
      && r.steps[0] == Execute(chain)
      && r.steps[1..] == IdFilter.ExtractWriteFilter(env, ext, IdFilter.IdsPath(env.tmp), filters)
  {
    var chain := if intermediary == "BAM"
      then Bowtie2Aligner.AlignBam(idx, seq1, Intermediate(env.tmp), seq2, AlignerThreads, AlignOptions)
      else Bowtie2Aligner.AlignSam(idx, seq1, Intermediate(env.tmp), seq2, AlignerThreads, AlignOptions);
    var ext := ExtractCall(if intermediary == "BAM" then BamFile else SamFile, Intermediate(env.tmp), 0, None, Some(Truthy(seq2)));
    var idsPath := IdFilter.IdsPath(env.tmp);
    var filters := IdFilter.MateFilters(seq1, Out1(out), seq2, if seq2.Some? then Some(Out2(out)) else None, idsPath, FastQ.DefaultInclude);
    var steps := [Execute(chain)] + IdFilter.ExtractWriteFilter(env, ext, idsPath, filters);
    assert steps[1..] == IdFilter.ExtractWriteFilter(env, ext, idsPath, filters);
    Trace(steps, Returned(NoneReturned))
  }

  /** The two filtered outputs share the prefix and differ only in the mate number. */
  lemma OutputsDifferOnlyInMate(out: string)
    ensures |Out1(out)| == |Out2(out)|
    ensures forall i :: 0 <= i < |Out1(out)| && i != |out| + 5 ==> Out1(out)[i] == Out2(out)[i]
    ensures Out1(out)[|out| + 5] == '1' && Out2(out)[|out| + 5] == '2'
  {
  }

  /** The aligner runs with one thread and the single scoring option, in either format. */
  lemma AlignsWithFixedSettings(env: Env, idx: string, seq1: string, out: string, seq2: Option<string>, intermediary: string)
    ensures var cmd := Run(env, idx, seq1, out, seq2, intermediary).steps[0].chain.cmds[0];
      && cmd[1..3] == ["-p", "1"]
      && |cmd| > 8
      && cmd[if intermediary == "BAM" then 6 else 8] == "--score-min L,-0.4,-0.4"
  {
    var cmd := Run(env, idx, seq1, out, seq2, intermediary).steps[0].chain.cmds[0];
    assert Decimal.IntToString(1) == "1" by {
      assert Decimal.NatToString(1) == [Decimal.DigitChar(1)];
    }
    if intermediary == "BAM" {
      assert cmd[1] == cmd[..6][1] && cmd[2] == cmd[..6][2];
      assert cmd[6] == cmd[6..][0];
    } else {
      assert cmd[1] == cmd[..8][1] && cmd[2] == cmd[..8][2];
      assert cmd[8] == cmd[8..8 + 1][0];
    }
  }
}

=== FILE: bowtie2_pipeline.dfy ===
/** The Bowtie2 pipeline (hocort/pipelines/bowtie2.py). */
module Bowtie2Pipeline {

  import opened Wrappers
  import opened Argv
  import opened PipelineCore
  import Bowtie2Aligner
  import IdFilter
  import FastQ

  const LocalOptions: seq<string> := ["--local", "--very-fast-local", "--score-min G,21,9"]
  const EndToEndOptions: seq<string> := ["--end-to-end", "--sensitive", "--score-min L,-0.4,-0.4"]

  /** The preset for a mode; any other mode binds no options at all. */
  function ModeOptions(mode: string): (r: Option<seq<string>>)
    ensures r.Some? <==> mode == "local" || mode == "end-to-end"
    ensures mode == "local" ==> r == Some(LocalOptions)
    ensures mode == "end-to-end" ==> r == Some(EndToEndOptions)
  {
    if mode == "local" then Some(LocalOptions)
    else if mode == "end-to-end" then Some(EndToEndOptions)
    else None
  }

  /** `bowtie2_output`: the intermediate alignment file. */
  function Intermediate(tmp: string): string
  {
    tmp + "/output"
  }

  /** The aligner chain for a bound set of options. */
  function AlignChain(env: Env, idx: string, seq1: string, seq2: Option<string>, intermediary: string, threads: int, options: seq<string>): Chain
  {
    if intermediary == "BAM" then Bowtie2Aligner.AlignBam(idx, seq1, Intermediate(env.tmp), seq2, threads, options)
    else Bowtie2Aligner.AlignSam(idx, seq1, Intermediate(env.tmp), seq2, threads, options)
  }

  /** The identifier extraction: mapping quality 0, mate suffixes for truthy `seq2`. */
  function ExtractStep(env: Env, seq2: Option<string>, intermediary: string): ExtractCall
  {
    ExtractCall(if intermediary == "BAM" then BamFile else SamFile, Intermediate(env.tmp), 0, None, Some(Truthy(seq2)))
  }

  /**
   * `Bowtie2.run` with the alignment calls bound to the Bowtie2 aligner, as
   * the import intends. It never returns an exit code: a mismatched pair of
   * paths returns `None` early, and a completed run falls off the end.
   */
  function Run(env: Env, idx: string, seq1: string, out1: string, out2: Option<string>, seq2: Option<string>,
               intermediary: string, includeMode: string, mode: string, threads: int): (r: Trace)
    ensures r.outcome.Returned? ==> r.outcome.status == NoneReturned
    ensures Truthy(seq2) != Truthy(out2) ==> r == Trace([], Returned(NoneReturned))
    ensures Truthy(seq2) == Truthy(out2) && ModeOptions(mode).None? ==> r == Trace([], Raised(UnboundLocal("options")))
    ensures r.outcome.Raised? <==> Truthy(seq2) == Truthy(out2) && ModeOptions(mode).None?
    ensures Truthy(seq2) == Truthy(out2) && ModeOptions(mode).Some? ==>
      var ext := ExtractStep(env, seq2, intermediary);
      var filters := IdFilter.MateFilters(seq1, out1, seq2, out2, IdFilter.IdsPath(env.tmp), includeMode);
      && |r.steps| >= 1
      && r.steps[0] == Execute(AlignChain(env, idx, seq1, seq2, intermediary, threads, ModeOptions(mode).value))
      && r.steps[1..] == IdFilter.ExtractWriteFilter(env, ext, IdFilter.IdsPath(env.tmp), filters)
      && (|r.steps| == 5 <==> seq2.Some?)
  {
    if Truthy(seq2) && !Truthy(out2) then Trace([], Returned(NoneReturned))
    else if Truthy(out2) && !Truthy(seq2) then Trace([], Returned(NoneReturned))
    else match ModeOptions(mode)
      case None => Trace([], Raised(UnboundLocal("options")))
      case Some(options) =>
        var chain := AlignChain(env, idx, seq1, seq2, intermediary, threads, options);
        var ext := ExtractStep(env, seq2, intermediary);
        var idsPath := IdFilter.IdsPath(env.tmp);
        var filters := IdFilter.MateFilters(seq1, out1, seq2, out2, idsPath, includeMode);
        var steps := [Execute(chain)] + IdFilter.ExtractWriteFilter(env, ext, idsPath, filters);
        assert steps[1..] == IdFilter.ExtractWriteFilter(env, ext, idsPath, filters);
        Trace(steps, Returned(NoneReturned))
  }

  /**
   * `Bowtie2.run` as written. The class statement rebinds the name `Bowtie2`
   * from the imported aligner to the pipeline class itself, which has no
   * `align_bam` or `align_sam`. Past the pairing checks, looking the method
   * up raises `AttributeError` before its arguments (and so the possibly
   * unbound `options`) are evaluated, and before any command runs.
   */
  function RunAsWritten(env: Env, idx: string, seq1: string, out1: string, out2: Option<string>, seq2: Option<string>,
                        intermediary: string, includeMode: string, mode: string, threads: int): (r: Trace)
    ensures r.steps == []
    ensures r.outcome == Returned(NoneReturned) <==> Truthy(seq2) != Truthy(out2)
    ensures Truthy(seq2) == Truthy(out2) ==>
      r.outcome == Raised(AttributeErr("Bowtie2", if intermediary == "BAM" then "align_bam" else "align_sam"))
  {
    if Truthy(seq2) && !Truthy(out2) then Trace([], Returned(NoneReturned))
    else if Truthy(out2) && !Truthy(seq2) then Trace([], Returned(NoneReturned))
    else if intermediary == "BAM" then Trace([], Raised(AttributeErr("Bowtie2", "align_bam")))
    else Trace([], Raised(AttributeErr("Bowtie2", "align_sam")))
  }

  /**
   * The two definitions agree only on the early `None`: whenever the
   * corrected run aligns, or fails on an unknown mode, the run as written
   * has already raised `AttributeError` without running anything.
   */
  lemma AsWrittenNeverAligns(env: Env, idx: string, seq1: string, out1: string, out2: Option<string>, seq2: Option<string>,
                             intermediary: string, includeMode: string, mode: string, threads: int)
    ensures var fixed := Run(env, idx, seq1, out1, out2, seq2, intermediary, includeMode, mode, threads);
      var written := RunAsWritten(env, idx, seq1, out1, out2, seq2, intermediary, includeMode, mode, threads);
      && (fixed.outcome == Returned(NoneReturned) && fixed.steps == [] <==> written == fixed)
      && (fixed.steps != [] || fixed.outcome.Raised? ==> written.outcome.Raised? && written.outcome.exc.AttributeErr?)
  {
  }

  /**
   * Corrected, the identifiers are extracted from the file the aligner
   * writes: the `-S` target for SAM, the samtools `-o` target for BAM.
   */
  lemma ExtractsWhatAlignerWrote(env: Env, idx: string, seq1: string, out1: string, out2: Option<string>, seq2: Option<string>,
                                 intermediary: string, includeMode: string, mode: string, threads: int)
    requires Truthy(seq2) == Truthy(out2) && ModeOptions(mode).Some?
    ensures var r := Run(env, idx, seq1, out1, out2, seq2, intermediary, includeMode, mode, threads);
      var chain := r.steps[0].chain;
      && |r.steps| >= 2 && r.steps[1].Extract?
      && (intermediary == "BAM" ==> |chain.cmds| == 2 && chain.cmds[1][5..] == ["-o", r.steps[1].extract.path])
      && (intermediary != "BAM" ==> |chain.cmds| == 1 && chain.cmds[0][6..8] == ["-S", r.steps[1].extract.path])
      && r.steps[1].extract.mapq == 0
      && r.steps[1].extract.addSlash == Some(Truthy(seq2))
  {
    var chain := AlignChain(env, idx, seq1, seq2, intermediary, threads, ModeOptions(mode).value);
    if intermediary != "BAM" {
      assert chain.cmds[0][6..8] == chain.cmds[0][..8][6..8];
    }
  }

  /** No exit code, of the aligner or of either filter, changes how the run ends. */
  lemma CodesIgnored(env1: Env, env2: Env, idx: string, seq1: string, out1: string, out2: Option<string>, seq2: Option<string>,
                     intermediary: string, includeMode: string, mode: string, threads: int)
    requires env1.tmp == env2.tmp && env1.extract == env2.extract
    ensures Run(env1, idx, seq1, out1, out2, seq2, intermediary, includeMode, mode, threads)
         == Run(env2, idx, seq1, out1, out2, seq2, intermediary, includeMode, mode, threads)
  {
  }

  /**
   * An empty second read file passes the pairing check and is aligned as
   * single-end, yet `seq2 is not None` still sends it to a second filter
   * whose output is rendered `out=None`.
   */
  lemma EmptySeq2StillFiltered(env: Env, idx: string, seq1: string, out1: string, intermediary: string, includeMode: string, threads: int)
    ensures var r := Run(env, idx, seq1, out1, None, Some(""), intermediary, includeMode, "local", threads);
      && |r.steps| == 5
      && r.steps[1].extract.addSlash == Some(false)
      && r.steps[4].chain.cmds[0][1..3] == ["in=", "out=None"]
  {
    var r := Run(env, idx, seq1, out1, None, Some(""), intermediary, includeMode, "local", threads);
    var f := IdFilter.MateFilters(seq1, out1, Some(""), None, IdFilter.IdsPath(env.tmp), includeMode);
    assert r.steps[4] == r.steps[1..][3] == Execute(f[1]);
    assert r.steps[1] == r.steps[1..][0];
    IdFilter.FilterTokens(seq1, out1, Some(""), None, IdFilter.IdsPath(env.tmp), includeMode);
    MissingMateTokens();
  }

  /** An empty `seq2` and a `None` `out2` render as `in=` and `out=None`. */
  lemma MissingMateTokens()
    ensures "in=" + Render(Some("")) == "in=" && "out=" + Render(None) == "out=None"
  {
    assert "in=" + "" == "in=" && "out=" + "None" == "out=None";
  }
}

=== FILE: bwa_mem2_aligner.dfy ===
/** BWA-MEM2 index and alignment commands (hocort/aligners/bwa_mem2.py). */
module BwaMem2Aligner {

  import opened Wrappers
  import opened Argv
  import Decimal
  import Sam

  /** The read files: `seq1`, then `seq2` only when it is truthy. */
  function Reads(seq1: string, seq2: Option<string>): seq<string>
  {
    Mates([], seq1, seq2)
  }

  /** `build_index`: `bwa-mem2 index -p <out> <fasta>`; the options are accepted and dropped. */
  function BuildIndex(pathOut: string, fastaIn: string, options: seq<string>): (r: Chain)
    ensures !r.pipe && |r.cmds| == 1 && |r.cmds[0]| == 5
    ensures r.cmds[0][..2] == ["bwa-mem2", "index"]
    ensures r.cmds[0][2..4] == ["-p", pathOut]
    ensures r.cmds[0][|r.cmds[0]| - 1] == fastaIn
  {
    Single(["bwa-mem2", "index", "-p", pathOut, fastaIn])
  }

  /** `align_sam`: unlike bowtie2 and minimap2, the options come after the reads. */
  function AlignSam(index: string, seq1: string, output: string, seq2: Option<string>, threads: int, options: seq<string>): (r: Chain)
    ensures !r.pipe && |r.cmds| == 1
    ensures |r.cmds[0]| == 7 + |Reads(seq1, seq2)| + |options|
    ensures r.cmds[0][..7] == ["bwa-mem2", "mem", "-t", Decimal.IntToString(threads), "-o", output, index]
    ensures r.cmds[0][7..] == Reads(seq1, seq2) + options
  {
    Single(["bwa-mem2", "mem", "-t", Decimal.IntToString(threads), "-o", output, index] + Reads(seq1, seq2) + options)
  }

  /** `align_bam`: bwa-mem2 writes SAM to its standard output, piped into samtools. */
  function AlignBam(index: string, seq1: string, output: string, seq2: Option<string>, threads: int, options: seq<string>): (r: Chain)
    ensures r.pipe && |r.cmds| == 2
    ensures |r.cmds[0]| == 5 + |Reads(seq1, seq2)| + |options|
    ensures r.cmds[0][..5] == ["bwa-mem2", "mem", "-t", Decimal.IntToString(threads), index]
    ensures r.cmds[0][5..] == Reads(seq1, seq2) + options
    ensures r.cmds[1] == Sam.ToBam(threads, output)
  {
    Piped(["bwa-mem2", "mem", "-t", Decimal.IntToString(threads), index] + Reads(seq1, seq2) + options,
          Sam.ToBam(threads, output))
  }

  /** The options never reach the index command. */
  lemma BuildIndexIgnoresOptions(pathOut: string, fastaIn: string, o1: seq<string>, o2: seq<string>)
    ensures BuildIndex(pathOut, fastaIn, o1) == BuildIndex(pathOut, fastaIn, o2)
  {
  }

  /** The BAM variant's aligner stage is the SAM command with `-o output` taken out. */
  lemma BamIsSamWithoutOutput(index: string, seq1: string, output: string, seq2: Option<string>, threads: int, options: seq<string>)
    ensures var sam := AlignSam(index, seq1, output, seq2, threads, options).cmds[0];
      && sam[4..6] == ["-o", output]
      && AlignBam(index, seq1, output, seq2, threads, options).cmds[0] == Without(sam, 4, 2)
  {
  }
}

=== FILE: bwa_mem2_pipeline.dfy ===
/** The BWA-MEM2 pipeline (hocort/pipelines/bwa_mem2.py). */
module BwaMem2Pipeline {

  import opened Wrappers
  import opened Argv
  import opened PipelineCore
  import IdFilter
  import FastQ

  /** The alignment settings, fixed whatever the caller asks for. */
  const AlignOptions: seq<string> := ["-O 20,20", "-E 6,6", "-L 2,2"]

  /** `bwa_mem2_output`: the intermediate SAM file. */
  function Intermediate(tmp: string): string
  {
    tmp + "/output.sam"
  }

  /**
   * The aligner call. `BWA_MEM2.align` is not defined by the aligner module
   * this pipeline imports, so the call is recorded, not built.
   */
  function AlignCall(env: Env, idx: string, seq1: string, seq2: Option<string>, threads: int): Call
  {
    Call("BWA_MEM2.align", [Str(idx), Str(seq1), Str(Intermediate(env.tmp))],
         map["seq2" := OptArg(seq2), "threads" := Int(threads), "options" := Strs(AlignOptions)])
  }

  /**
   * `BWA_MEM2.run`. The `include` argument is overwritten with `False`,
   * which the filter command renders as `include=False`; the run never
   * returns an exit code.
   */
  function Run(env: Env, idx: string, seq1: string, out1: string, out2: Option<string>, seq2: Option<string>,
               intermediary: string, includeMode: string, threads: int): (r: Trace)
    ensures r.outcome == Returned(NoneReturned)
    ensures var ext := ExtractCall(SamFile, Intermediate(env.tmp), 0, None, Some(Truthy(seq2)));
      var filters := IdFilter.MateFilters(seq1, out1, seq2, out2, IdFilter.IdsPath(env.tmp), RenderBool(false));
      && |r.steps| >= 1
      && r.steps[0] == Invoke(AlignCall(env, idx, seq1, seq2, threads))
      && r.steps[1..] == IdFilter.ExtractWriteFilter(env, ext, IdFilter.IdsPath(env.tmp), filters)
  {
    var ext := ExtractCall(SamFile, Intermediate(env.tmp), 0, None, Some(Truthy(seq2)));
    var idsPath := IdFilter.IdsPath(env.tmp);
    var filters := IdFilter.MateFilters(seq1, out1, seq2, out2, idsPath, RenderBool(false));
    var steps := [Invoke(AlignCall(env, idx, seq1, seq2, threads))] + IdFilter.ExtractWriteFilter(env, ext, idsPath, filters);
    assert steps[1..] == IdFilter.ExtractWriteFilter(env, ext, idsPath, filters);
    Trace(steps, Returned(NoneReturned))
  }

  /** Neither the caller's include flag nor the intermediary format has any effect. */
  lemma IncludeAndIntermediaryIgnored(env: Env, idx: string, seq1: string, out1: string, out2: Option<string>, seq2: Option<string>,
                                      i1: string, i2: string, inc1: string, inc2: string, threads: int)
    ensures Run(env, idx, seq1, out1, out2, seq2, i1, inc1, threads) == Run(env, idx, seq1, out1, out2, seq2, i2, inc2, threads)
  {
  }

  /** Every filter the run starts is told `include=False`, and a second one runs iff `seq2` is not `None`. */
  lemma FiltersExcludeNames(env: Env, idx: string, seq1: string, out1: string, out2: Option<string>, seq2: Option<string>,
                            intermediary: string, includeMode: string, threads: int)
    ensures var r := Run(env, idx, seq1, out1, out2, seq2, intermediary, includeMode, threads);
      && (|r.steps| == 5 <==> seq2.Some?)
      && |r.steps| >= 4
      && forall i :: 3 <= i < |r.steps| ==> r.steps[i].Execute? && r.steps[i].chain.cmds[0][4] == "include=False"
  {
    var r := Run(env, idx, seq1, out1, out2, seq2, intermediary, includeMode, threads);
    var filters := IdFilter.MateFilters(seq1, out1, seq2, out2, IdFilter.IdsPath(env.tmp), RenderBool(false));
    IdFilter.FilterTokens(seq1, out1, seq2, out2, IdFilter.IdsPath(env.tmp), RenderBool(false));
    forall i | 3 <= i < |r.steps|
      ensures r.steps[i].Execute? && r.steps[i].chain.cmds[0][4] == "include=False"
    {
      assert r.steps[i] == r.steps[1..][i - 1] == Execute(filters[i - 3]);
    }
  }
}

=== FILE: compare.dfy ===
/**
 * Read-name tallies and their comparison (hocort/compare.py), over the
 * record names of a FASTQ file.
 */
module Compare {

  /** `name.split('_')[0]`: the name up to its first underscore, or all of it. */
  function Key(name: string): (r: string)
    ensures r <= name
    ensures forall i :: 0 <= i < |r| ==> r[i] != '_'
    ensures |r| < |name| ==> name[|r|] == '_'
  {
    if |name| == 0 || name[0] == '_' then "" else [name[0]] + Key(name[1..])
  }

  /** How many names have key `k`: the reference the tally is checked against. */
  function Occurrences(names: seq<string>, k: string): nat
  {
    if |names| == 0 then 0
    else Occurrences(names[..|names| - 1], k) + (if Key(names[|names| - 1]) == k then 1 else 0)
  }

  /**
   * The keys of the first `n` names, each once, in the order their first
   * name appears: the order a Python dictionary keeps its keys in.
   */
  function FirstKeys(names: seq<string>, n: nat): seq<string>
    requires n <= |names|
  {
    if n == 0 then []
    else
      var init := FirstKeys(names, n - 1);
      var k := Key(names[n - 1]);
      if k in init then init else init + [k]
  }

  /** The position of the first of the first `n` names with key `k`, or `n` when none has it. */
  function FirstIndex(names: seq<string>, n: nat, k: string): nat
    requires n <= |names|
  {
    if n == 0 then 0
    else
      var f := FirstIndex(names, n - 1, k);
      if f < n - 1 || Key(names[n - 1]) == k then f else n
  }

  /** `FirstIndex` finds the first name with key `k`, and no name has `k` when it finds none. */
  lemma {:induction false} FirstIndexMeaning(names: seq<string>, n: nat, k: string)
    requires n <= |names|
    ensures FirstIndex(names, n, k) <= n
    ensures FirstIndex(names, n, k) < n ==> Key(names[FirstIndex(names, n, k)]) == k
    ensures forall i :: 0 <= i < FirstIndex(names, n, k) ==> Key(names[i]) != k
  {
    if n > 0 {
      FirstIndexMeaning(names, n - 1, k);
    }
  }

  /** A key is listed iff one of the names has it, and listed keys come in order of their first names. */
  lemma {:induction false} FirstKeysOrdered(names: seq<string>, n: nat)
    requires n <= |names|
    ensures forall k :: k in FirstKeys(names, n) <==> FirstIndex(names, n, k) < n
    ensures forall a, b :: 0 <= a < b < |FirstKeys(names, n)| ==>
      FirstIndex(names, n, FirstKeys(names, n)[a]) < FirstIndex(names, n, FirstKeys(names, n)[b])
  {
    if n > 0 {
      var init := FirstKeys(names, n - 1);
      var k := Key(names[n - 1]);
      FirstKeysOrdered(names, n - 1);
      var fk := FirstKeys(names, n);
      assert forall j :: FirstIndex(names, n - 1, j) < n - 1 ==> FirstIndex(names, n, j) == FirstIndex(names, n - 1, j);
      if k !in init {
        assert FirstIndex(names, n, k) == n - 1;
        forall a, b | 0 <= a < b < |fk|
          ensures FirstIndex(names, n, fk[a]) < FirstIndex(names, n, fk[b])
        {
          assert fk[a] == init[a];
          if b < |fk| - 1 {
            assert fk[b] == init[b];
          }
        }
      }
    }
  }

  /** The dictionary `count` builds: keys in insertion order and a count per key. */
  datatype Tally = Tally(keys: seq<string>, counts: map<string, nat>)

  /** Keys listed once each, exactly the map's domain, every count positive. */
  ghost predicate Valid(t: Tally)
  {
    && (forall a, b :: 0 <= a < b < |t.keys| ==> t.keys[a] != t.keys[b])
    && (forall k :: k in t.counts <==> k in t.keys)
    && (forall k :: k in t.counts ==> t.counts[k] >= 1)
  }

  /** The sum of the counts, in key order (the `total` loop). */
  function SumOver(keys: seq<string>, counts: map<string, nat>): int
    requires forall k :: k in keys ==> k in counts
  {
    if |keys| == 0 then 0 else SumOver(keys[..|keys| - 1], counts) + counts[keys[|keys| - 1]]
  }

  /** Changing the count of a key not listed leaves the sum alone. */
  lemma {:induction false} SumOverIrrelevant(keys: seq<string>, counts: map<string, nat>, k: string, v: nat)
    requires forall j :: j in keys ==> j in counts
    requires k !in keys
    ensures SumOver(keys, counts[k := v]) == SumOver(keys, counts)
    decreases |keys|
  {
    if |keys| > 0 {
      var init := keys[..|keys| - 1];
      assert forall j :: j in init ==> j in keys;
      SumOverIrrelevant(init, counts, k, v);
    }
  }

  /** Adding one to the count of a key listed once adds one to the sum. */
  lemma {:induction false} SumOverIncrement(keys: seq<string>, counts: map<string, nat>, k: string)
    requires forall j :: j in keys ==> j in counts
    requires forall a, b :: 0 <= a < b < |keys| ==> keys[a] != keys[b]
    requires k in keys
    ensures SumOver(keys, counts[k := counts[k] + 1]) == SumOver(keys, counts) + 1
    decreases |keys|
  {
    var init := keys[..|keys| - 1];
    var last := keys[|keys| - 1];
    assert forall j :: j in init ==> j in keys;
    if last == k {
      assert k !in init by {
        forall a | 0 <= a < |init| ensures init[a] != k { assert init[a] == keys[a]; }
      }
      SumOverIrrelevant(init, counts, k, counts[k] + 1);
    } else {
      assert k in init by {
        var a :| 0 <= a < |keys| && keys[a] == k;
        assert a < |keys| - 1 && init[a] == k;
      }
      SumOverIncrement(init, counts, k);
    }
  }

  /** What the first pass of `count` keeps after reading `names`. */
  ghost predicate Tallies(t: Tally, names: seq<string>)
  {
    && Valid(t)
    && (forall k :: k in t.counts ==> t.counts[k] == Occurrences(names, k))
    && (forall k :: k !in t.counts ==> Occurrences(names, k) == 0)
    && SumOver(t.keys, t.counts) == |names|
  }

  /** The first pass's step: count one more name under key `k`. */
  function Bump(t: Tally, k: string): (r: Tally)
    ensures k in r.counts
    ensures k in t.counts ==> r.keys == t.keys && r.counts[k] == t.counts[k] + 1
    ensures k !in t.counts ==> r.keys == t.keys + [k] && r.counts[k] == 1
    ensures forall j :: j != k ==> (j in r.counts <==> j in t.counts)
    ensures forall j :: j != k && j in t.counts ==> r.counts[j] == t.counts[j]
  {
    if k in t.counts then Tally(t.keys, t.counts[k := t.counts[k] + 1])
    else Tally(t.keys + [k], t.counts[k := 1])
  }

  /** Bumping keeps keys distinct, the domain exact and counts positive. */
  lemma BumpValid(t: Tally, k: string)
    requires Valid(t)
    ensures Valid(Bump(t, k))
  {
    var r := Bump(t, k);
    if k !in t.counts {
      assert forall j :: j in r.keys <==> j in t.keys || j == k;
    }
  }

  /** Bumping adds the new name's occurrence to the right key and no other. */
  lemma BumpCounts(t: Tally, names: seq<string>, name: string)
    requires forall k :: k in t.counts ==> t.counts[k] == Occurrences(names, k)
    requires forall k :: k !in t.counts ==> Occurrences(names, k) == 0
    ensures forall k :: k in Bump(t, Key(name)).counts ==> Bump(t, Key(name)).counts[k] == Occurrences(names + [name], k)
    ensures forall k :: k !in Bump(t, Key(name)).counts ==> Occurrences(names + [name], k) == 0
  {
    var ns := names + [name];
    assert ns[..|ns| - 1] == names;
  }

  /** Bumping adds one to the total. */
  lemma BumpSum(t: Tally, k: string)
    requires Valid(t)
    ensures forall j :: j in Bump(t, k).keys ==> j in Bump(t, k).counts
    ensures SumOver(Bump(t, k).keys, Bump(t, k).counts) == SumOver(t.keys, t.counts) + 1
  {
    BumpValid(t, k);
    var r := Bump(t, k);
    if k in t.counts {
      SumOverIncrement(t.keys, t.counts, k);
    } else {
      SumOverIrrelevant(t.keys, t.counts, k, 1);
      assert r.keys[..|r.keys| - 1] == t.keys;
    }
  }

  /** Bumping lists a key the first time one of its names is read, and never again. */
  lemma BumpKeys(t: Tally, names: seq<string>, i: nat)
    requires i < |names|
    requires Valid(t) && t.keys == FirstKeys(names, i)
    ensures Bump(t, Key(names[i])).keys == FirstKeys(names, i + 1)
  {
  }

  /** One step of the first pass keeps the tally correct for one more name. */
  lemma BumpTallies(t: Tally, names: seq<string>, i: nat)
    requires i < |names|
    requires Tallies(t, names[..i])
    ensures Tallies(Bump(t, Key(names[i])), names[..i + 1])
  {
    assert names[..i] + [names[i]] == names[..i + 1];
    BumpValid(t, Key(names[i]));
    BumpCounts(t, names[..i], names[i]);
    BumpSum(t, Key(names[i]));
  }

  /** The first pass of `count`: bump or create each name's entry. */
  method TallyNames(names: seq<string>) returns (t: Tally)
    ensures Tallies(t, names)
    ensures t.keys == FirstKeys(names, |names|)
  {
    t := Tally([], map[]);
    var i := 0;
    while i < |names|
      invariant 0 <= i <= |names|
      invariant Tallies(t, names[..i])
      invariant t.keys == FirstKeys(names, i)
    {
      BumpTallies(t, names, i);
      BumpKeys(t, names, i);
      t := Bump(t, Key(names[i]));
      i := i + 1;
    }
    assert names[..i] == names;
  }

  /** The second pass of `count`: add up the counts in key order. */
  method Total(t: Tally) returns (total: int)
    requires Valid(t)
    ensures total == SumOver(t.keys, t.counts)
  {
    total := 0;
    var j := 0;
    while j < |t.keys|
      invariant 0 <= j <= |t.keys|
      invariant total == SumOver(t.keys[..j], t.counts)
    {
      assert t.keys[..j + 1][..j] == t.keys[..j];
      total := total + t.counts[t.keys[j]];
      j := j + 1;
    }
    assert t.keys[..j] == t.keys;
  }

  /** `count`: the tally of the names' keys, listed in first-occurrence order, and the number of names. */
  method Count(names: seq<string>) returns (t: Tally, total: int)
    ensures Valid(t)
    ensures forall k :: k in t.counts ==> t.counts[k] == Occurrences(names, k)
    ensures forall k :: k !in t.counts ==> Occurrences(names, k) == 0
    ensures total == |names|
    ensures total == SumOver(t.keys, t.counts)
    ensures t.keys == FirstKeys(names, |names|)
  {
    t := TallyNames(names);
    total := Total(t);
  }

  /** One line of the report: a label, the two counts and their difference. */
  datatype Report = Report(msg: string, file1: int, file2: int, difference: int)

  /** `print_cmp`: the difference is the first file's count minus the second's. */
  function PrintCmp(msg: string, file1: int, file2: int): (r: Report)
    ensures r.file1 - r.difference == r.file2
    ensures r.msg == msg && r.file1 == file1 && r.file2 == file2
  {
    Report(msg, file1, file2, file1 - file2)
  }

  /** The count of `k` in a tally, 0 when it is absent (`entries2[entry1] if entry1 in entries2 else 0`). */
  function CountOr0(t: Tally, k: string): (r: int)
    ensures k in t.counts ==> r == t.counts[k]
    ensures k !in t.counts ==> r == 0
  {
    if k in t.counts then t.counts[k] else 0
  }

  /** The lines for one pair of keys from the `zip`. */
  function PairReports(t1: Tally, t2: Tally, e1: string, e2: string): (r: seq<Report>)
    requires e1 in t1.counts && e2 in t2.counts
    ensures |r| == 1 || |r| == 2
    ensures r[0] == PrintCmp(e1, t1.counts[e1], CountOr0(t2, e1))
    ensures |r| == 2 <==> e2 !in t1.counts
    ensures |r| == 2 ==> r[1] == PrintCmp(e2, 0, t2.counts[e2])
  {
    [PrintCmp(e1, t1.counts[e1], CountOr0(t2, e1))]
    + (if e2 !in t1.counts then [PrintCmp(e2, 0, t2.counts[e2])] else [])
  }

  /** The lines for `zip(keys1, keys2)`, from pair `j` on. */
  function ZipReports(t1: Tally, t2: Tally, j: nat): (r: seq<Report>)
    requires Valid(t1) && Valid(t2)
    requires j <= |t1.keys| && j <= |t2.keys|
    ensures var m := if |t1.keys| < |t2.keys| then |t1.keys| else |t2.keys|;
      m - j <= |r| <= 2 * (m - j)
    ensures forall x :: 0 <= x < |r| ==>
      (exists a :: j <= a < |t1.keys| && a < |t2.keys| && r[x].msg == t1.keys[a])
      || (exists b :: j <= b < |t2.keys| && b < |t1.keys| && r[x].msg == t2.keys[b] && r[x].msg !in t1.counts)
    decreases |t1.keys| - j
  {
    if j == |t1.keys| || j == |t2.keys| then []
    else PairReports(t1, t2, t1.keys[j], t2.keys[j]) + ZipReports(t1, t2, j + 1)
  }

  /** `compare`: the pair lines, then the totals. */
  function CompareTallies(t1: Tally, total1: int, t2: Tally, total2: int): (r: seq<Report>)
    requires Valid(t1) && Valid(t2)
    ensures |r| >= 1 && r[|r| - 1] == PrintCmp("total reads: ", total1, total2)
    ensures r[..|r| - 1] == ZipReports(t1, t2, 0)
  {
    ZipReports(t1, t2, 0) + [PrintCmp("total reads: ", total1, total2)]
  }

  /**
   * Keys of the first file past the shorter key list are never reported:
   * `zip` stops at the shorter list.
   */
  lemma ZipDropsLongerTail(t1: Tally, t2: Tally, i: nat)
    requires Valid(t1) && Valid(t2)
    requires |t2.keys| <= i < |t1.keys|
    ensures forall x :: 0 <= x < |ZipReports(t1, t2, 0)| ==> ZipReports(t1, t2, 0)[x].msg != t1.keys[i]
  {
    var r := ZipReports(t1, t2, 0);
    forall x | 0 <= x < |r| ensures r[x].msg != t1.keys[i] {
      if exists a :: 0 <= a < |t1.keys| && a < |t2.keys| && r[x].msg == t1.keys[a] {
        var a :| 0 <= a < |t1.keys| && a < |t2.keys| && r[x].msg == t1.keys[a];
        assert a != i;
      } else {
        assert t1.keys[i] in t1.counts;
      }
    }
  }

  /** Every key of the first file within the shared length gets its own line, with both counts. */
  lemma {:induction false} ZipReportsEachKey(t1: Tally, t2: Tally, j: nat, a: nat)
    requires Valid(t1) && Valid(t2)
    requires j <= a < |t1.keys| && a < |t2.keys|
    ensures PrintCmp(t1.keys[a], t1.counts[t1.keys[a]], CountOr0(t2, t1.keys[a])) in ZipReports(t1, t2, j)
    decreases a - j
  {
    var p := PairReports(t1, t2, t1.keys[j], t2.keys[j]);
    assert ZipReports(t1, t2, j) == p + ZipReports(t1, t2, j + 1);
    if a == j {
      assert p[0] in ZipReports(t1, t2, j);
    } else {
      ZipReportsEachKey(t1, t2, j + 1, a);
    }
  }

  /** A key of the second file within the shared length and absent from the first gets a (0, n2) line. */
  lemma {:induction false} ZipReportsSecondOnly(t1: Tally, t2: Tally, j: nat, b: nat)
    requires Valid(t1) && Valid(t2)
    requires j <= b < |t1.keys| && b < |t2.keys|
    requires t2.keys[b] !in t1.counts
    ensures PrintCmp(t2.keys[b], 0, t2.counts[t2.keys[b]]) in ZipReports(t1, t2, j)
    decreases b - j
  {
    var p := PairReports(t1, t2, t1.keys[j], t2.keys[j]);
    assert ZipReports(t1, t2, j) == p + ZipReports(t1, t2, j + 1);
    if b == j {
      assert p[1] in ZipReports(t1, t2, j);
    } else {
      ZipReportsSecondOnly(t1, t2, j + 1, b);
    }
  }

  /** The line for key `k`: its number of names in each file, and their difference. */
  function Line(k: string, names1: seq<string>, names2: seq<string>): Report
  {
    PrintCmp(k, Occurrences(names1, k), Occurrences(names2, k))
  }

  /** A line giving the numbers of names with its key in each file, and their difference. */
  ghost predicate Faithful(line: Report, names1: seq<string>, names2: seq<string>)
  {
    line == Line(line.msg, names1, names2)
  }

  /** A tally whose counts are the numbers of names per key, absent keys counting none. */
  ghost predicate CountsNames(t: Tally, names: seq<string>)
  {
    && (forall k :: k in t.counts ==> t.counts[k] == Occurrences(names, k))
    && (forall k :: k !in t.counts ==> Occurrences(names, k) == 0)
  }

  /** Each line for one pair reports the true counts of its key. */
  lemma PairReportsFaithful(t1: Tally, t2: Tally, names1: seq<string>, names2: seq<string>, e1: string, e2: string, x: nat)
    requires CountsNames(t1, names1) && CountsNames(t2, names2)
    requires e1 in t1.counts && e2 in t2.counts
    requires x < |PairReports(t1, t2, e1, e2)|
    ensures Faithful(PairReports(t1, t2, e1, e2)[x], names1, names2)
  {
  }

  /** Line `x` of the pair lines from pair `j` on reports the true count of its key in both files. */
  lemma {:induction false} ZipReportsFaithful(t1: Tally, t2: Tally, names1: seq<string>, names2: seq<string>, j: nat, x: nat)
    requires Valid(t1) && Valid(t2) && CountsNames(t1, names1) && CountsNames(t2, names2)
    requires j <= |t1.keys| && j <= |t2.keys|
    requires x < |ZipReports(t1, t2, j)|
    ensures Faithful(ZipReports(t1, t2, j)[x], names1, names2)
    decreases |t1.keys| - j
  {
    assert j < |t1.keys| && j < |t2.keys|;
    var e1, e2 := t1.keys[j], t2.keys[j];
    var p := PairReports(t1, t2, e1, e2);
    var rest := ZipReports(t1, t2, j + 1);
    assert ZipReports(t1, t2, j) == p + rest;
    if x < |p| {
      PairReportsFaithful(t1, t2, names1, names2, e1, e2, x);
      assert p[x] == (p + rest)[x];
    } else {
      ZipReportsFaithful(t1, t2, names1, names2, j + 1, x - |p|);
      assert rest[x - |p|] == (p + rest)[x];
    }
  }

  /**
   * What `compare` prints for the zipped key lists `k1s` and `k2s` from
   * position `j` on, stated over the names: for each pair, the first key's
   * line, then the second key's line when no name of the first file has it.
   */
  function ZipLines(k1s: seq<string>, k2s: seq<string>, names1: seq<string>, names2: seq<string>, j: nat): seq<Report>
    decreases |k1s| - j
  {
    if j >= |k1s| || j >= |k2s| then []
    else
      [Line(k1s[j], names1, names2)]
      + (if Occurrences(names1, k2s[j]) == 0 then [Line(k2s[j], names1, names2)] else [])
      + ZipLines(k1s, k2s, names1, names2, j + 1)
  }

  /** The dictionaries' `zip` prints exactly the lines `ZipLines` describes over their key lists. */
  lemma {:induction false} ZipReportsMatchLines(t1: Tally, t2: Tally, names1: seq<string>, names2: seq<string>, j: nat)
    requires Valid(t1) && Valid(t2) && CountsNames(t1, names1) && CountsNames(t2, names2)
    requires j <= |t1.keys| && j <= |t2.keys|
    ensures ZipReports(t1, t2, j) == ZipLines(t1.keys, t2.keys, names1, names2, j)
    decreases |t1.keys| - j
  {
    if j < |t1.keys| && j < |t2.keys| {
      var e1, e2 := t1.keys[j], t2.keys[j];
      assert e2 !in t1.counts <==> Occurrences(names1, e2) == 0;
      assert CountOr0(t2, e1) == Occurrences(names2, e1);
      ZipReportsMatchLines(t1, t2, names1, names2, j + 1);
    }
  }

  /** Every pair from position `j` on gets the first key's line, and the second key's when the first file lacks it. */
  lemma {:induction false} ZipLinesCover(k1s: seq<string>, k2s: seq<string>, names1: seq<string>, names2: seq<string>, j: nat, i: nat)
    requires j <= i < |k1s| && i < |k2s|
    ensures Line(k1s[i], names1, names2) in ZipLines(k1s, k2s, names1, names2, j)
    ensures Occurrences(names1, k2s[i]) == 0 ==> Line(k2s[i], names1, names2) in ZipLines(k1s, k2s, names1, names2, j)
    decreases i - j
  {
    var head := [Line(k1s[j], names1, names2)]
      + (if Occurrences(names1, k2s[j]) == 0 then [Line(k2s[j], names1, names2)] else []);
    var rest := ZipLines(k1s, k2s, names1, names2, j + 1);
    assert ZipLines(k1s, k2s, names1, names2, j) == head + rest;
    if i == j {
      assert head[0] in head + rest;
      if Occurrences(names1, k2s[i]) == 0 {
        assert head[1] in head + rest;
      }
    } else {
      ZipLinesCover(k1s, k2s, names1, names2, j + 1, i);
      assert forall l :: l in rest ==> l in head + rest;
    }
  }

  /** Every line from position `j` on is the line of a paired first key, or of a paired second key the first file lacks. */
  lemma {:induction false} ZipLinesOnly(k1s: seq<string>, k2s: seq<string>, names1: seq<string>, names2: seq<string>, j: nat, x: nat)
    requires x < |ZipLines(k1s, k2s, names1, names2, j)|
    ensures var l := ZipLines(k1s, k2s, names1, names2, j)[x];
      && Faithful(l, names1, names2)
      && exists i :: j <= i < |k1s| && i < |k2s| && (l.msg == k1s[i] || (l.msg == k2s[i] && Occurrences(names1, l.msg) == 0))
    decreases |k1s| - j
  {
    assert j < |k1s| && j < |k2s|;
    var head := [Line(k1s[j], names1, names2)]
      + (if Occurrences(names1, k2s[j]) == 0 then [Line(k2s[j], names1, names2)] else []);
    var rest := ZipLines(k1s, k2s, names1, names2, j + 1);
    assert ZipLines(k1s, k2s, names1, names2, j) == head + rest;
    if x < |head| {
      assert (head + rest)[x] == head[x];
    } else {
      ZipLinesOnly(k1s, k2s, names1, names2, j + 1, x - |head|);
      assert (head + rest)[x] == rest[x - |head|];
    }
  }

  /** `k` is a first key within the shared length, or a second key there that no name of the first file has. */
  ghost predicate PairedKey(k: string, k1s: seq<string>, k2s: seq<string>, names1: seq<string>)
  {
    exists i :: 0 <= i < |k1s| && i < |k2s| && (k == k1s[i] || (k == k2s[i] && Occurrences(names1, k2s[i]) == 0))
  }

  /**
   * The lines for zipped key lists `k1s` and `k2s`: every paired first key
   * has its line, so does every paired second key the first file lacks, no
   * other key has one, and every line gives its key's true counts.
   */
  ghost predicate Covers(lines: seq<Report>, k1s: seq<string>, k2s: seq<string>, names1: seq<string>, names2: seq<string>)
  {
    && (forall i :: 0 <= i < |k1s| && i < |k2s| ==> Line(k1s[i], names1, names2) in lines)
    && (forall i :: 0 <= i < |k1s| && i < |k2s| && Occurrences(names1, k2s[i]) == 0 ==> Line(k2s[i], names1, names2) in lines)
    && (forall x :: 0 <= x < |lines| ==> Faithful(lines[x], names1, names2))
    && (forall x :: 0 <= x < |lines| ==> PairedKey(lines[x].msg, k1s, k2s, names1))
  }

  /** `ZipLines` prints a line for every paired first key and every paired second key the first file lacks, for no other key, each with its key's true counts. */
  lemma ZipLinesCovers(k1s: seq<string>, k2s: seq<string>, names1: seq<string>, names2: seq<string>)
    ensures Covers(ZipLines(k1s, k2s, names1, names2, 0), k1s, k2s, names1, names2)
  {
    forall i | 0 <= i < |k1s| && i < |k2s|
      ensures Line(k1s[i], names1, names2) in ZipLines(k1s, k2s, names1, names2, 0)
      ensures Occurrences(names1, k2s[i]) == 0 ==> Line(k2s[i], names1, names2) in ZipLines(k1s, k2s, names1, names2, 0)
    {
      ZipLinesCover(k1s, k2s, names1, names2, 0, i);
    }
    forall x | 0 <= x < |ZipLines(k1s, k2s, names1, names2, 0)|
      ensures Faithful(ZipLines(k1s, k2s, names1, names2, 0)[x], names1, names2)
      ensures PairedKey(ZipLines(k1s, k2s, names1, names2, 0)[x].msg, k1s, k2s, names1)
    {
      ZipLinesOnly(k1s, k2s, names1, names2, 0, x);
    }
  }

  /**
   * `compare` on two files' record names. The keys of each file are listed
   * in first-occurrence order and zipped: each pair prints the first key's
   * line and, when the first file has no name with it, the second key's
   * line; every line gives its key's number of names in each file. The last
   * line gives the two numbers of names and their difference.
   */
  method CompareNames(names1: seq<string>, names2: seq<string>) returns (r: seq<Report>)
    ensures |r| >= 1
    ensures r[|r| - 1] == Report("total reads: ", |names1|, |names2|, |names1| - |names2|)
    ensures r[..|r| - 1] == ZipLines(FirstKeys(names1, |names1|), FirstKeys(names2, |names2|), names1, names2, 0)
    ensures Covers(r[..|r| - 1], FirstKeys(names1, |names1|), FirstKeys(names2, |names2|), names1, names2)
  {
    var t1, total1 := Count(names1);
    var t2, total2 := Count(names2);
    r := CompareTallies(t1, total1, t2, total2);
    ZipReportsMatchLines(t1, t2, names1, names2, 0);
    ZipLinesCovers(t1.keys, t2.keys, names1, names2);
  }
}

=== FILE: decimal.dfy ===
/** Decimal rendering of integers, as Python's `str(threads)` and `f'{threads}'` produce it. */
module Decimal {

  function DigitChar(d: nat): char
    requires d < 10
  {
    "0123456789"[d]
  }

  predicate IsDigit(c: char)
  {
    '0' <= c <= '9'
  }

  function DigitValue(c: char): nat
    requires IsDigit(c)
  {
    (c as int - '0' as int) as nat
  }

  /** The shortest decimal numeral of `n`. */
  function NatToString(n: nat): (r: string)
    ensures |r| >= 1
    ensures forall i :: 0 <= i < |r| ==> IsDigit(r[i])
    ensures |r| > 1 ==> r[0] != '0'
    decreases n
  {
    if n < 10 then [DigitChar(n)] else NatToString(n / 10) + [DigitChar(n % 10)]
  }

  /** `str(i)`: a minus sign in front of negative numbers. */
  function IntToString(i: int): (r: string)
    ensures |r| >= 1
    ensures r[0] == '-' <==> i < 0
  {
    if i < 0 then "-" + NatToString(-i) else NatToString(i)
  }

  /** The value of a string of decimal digits (the reading `int()` gives it). */
  function ParseNat(s: string): nat
    requires forall i :: 0 <= i < |s| ==> IsDigit(s[i])
    decreases |s|
  {
    if |s| == 0 then 0 else ParseNat(s[..|s| - 1]) * 10 + DigitValue(s[|s| - 1])
  }

  lemma DigitRoundTrip(d: nat)
    requires d < 10
    ensures IsDigit(DigitChar(d)) && DigitValue(DigitChar(d)) == d
  {
  }

  /** Reading a rendered numeral gives the number back. */
  lemma {:induction false} NatRoundTrip(n: nat)
    ensures ParseNat(NatToString(n)) == n
    decreases n
  {
    var s := NatToString(n);
    if n < 10 {
      DigitRoundTrip(n);
      assert s[..|s| - 1] == [];
    } else {
      NatRoundTrip(n / 10);
      DigitRoundTrip(n % 10);
      assert s[..|s| - 1] == NatToString(n / 10);
    }
  }

  /** Different numbers render differently, so a thread count is never confused with another. */
  lemma IntToStringInjective(a: int, b: int)
    requires IntToString(a) == IntToString(b)
    ensures a == b
  {
    var ma := if a < 0 then -a else a;
    var mb := if b < 0 then -b else b;
    assert (a < 0) == (b < 0);
    MagnitudeDigits(a);
    MagnitudeDigits(b);
    assert NatToString(ma) == NatToString(mb);
    NatRoundTrip(ma);
    NatRoundTrip(mb);
  }

  /** Past the sign, a rendering holds the digits of the magnitude. */
  lemma MagnitudeDigits(a: int)
    ensures a < 0 ==> IntToString(a)[1..] == NatToString(-a)
    ensures a >= 0 ==> IntToString(a) == NatToString(a)
  {
  }
}

=== FILE: fastq.dfy ===
/** The delegated read filter, `filterbyname.sh` (hocort/parse/fastq.py). */
module FastQ {

  import opened Wrappers
  import opened Argv

  /** Default of the `include` argument: keep reads whose names are not listed. */
  const DefaultInclude := "f"

  /**
   * `FastQ.filter_by_id`: one unpiped command. Paths are rendered by an
   * f-string, so a `None` path becomes the text "None".
   */
  function FilterById(input: Option<string>, output: Option<string>, names: Option<string>, includeMode: string, options: seq<string>): (r: Chain)
    ensures !r.pipe && |r.cmds| == 1
    ensures |r.cmds[0]| == 6 + |options|
    ensures r.cmds[0][0] == "filterbyname.sh" && r.cmds[0][5] == "ow=t"
    ensures r.cmds[0][6..] == options
  {
    Single(["filterbyname.sh", "in=" + Render(input), "out=" + Render(output),
            "names=" + Render(names), "include=" + includeMode, "ow=t"] + options)
  }

  /** The arguments a `filterbyname.sh` command line carries, read back. */
  datatype FilterArgs = FilterArgs(input: string, output: string, names: string, includeMode: string, options: seq<string>)

  predicate HasKey(tok: string, key: string)
  {
    |key| < |tok| && tok[..|key|] == key && tok[|key|] == '='
  }

  function ValueOf(tok: string, key: string): string
    requires HasKey(tok, key)
  {
    tok[|key| + 1..]
  }

  /** Reads a command line back into the arguments it passes to `filterbyname.sh`. */
  function ParseFilter(cmd: Cmd): Option<FilterArgs>
  {
    if |cmd| >= 6 && cmd[0] == "filterbyname.sh" && cmd[5] == "ow=t"
       && HasKey(cmd[1], "in") && HasKey(cmd[2], "out") && HasKey(cmd[3], "names") && HasKey(cmd[4], "include")
    then Some(FilterArgs(ValueOf(cmd[1], "in"), ValueOf(cmd[2], "out"), ValueOf(cmd[3], "names"),
                         ValueOf(cmd[4], "include"), cmd[6..]))
    else None
  }

  /** The tool receives exactly the rendered paths, the include flag and the options, in order. */
  lemma FilterRoundTrip(input: Option<string>, output: Option<string>, names: Option<string>, includeMode: string, options: seq<string>)
    ensures ParseFilter(FilterById(input, output, names, includeMode, options).cmds[0])
      == Some(FilterArgs(Render(input), Render(output), Render(names), includeMode, options))
  {
    var cmd := FilterById(input, output, names, includeMode, options).cmds[0];
    assert cmd[1] == "in=" + Render(input) && cmd[1][..2] == "in";
    assert cmd[2] == "out=" + Render(output) && cmd[2][..3] == "out";
    assert cmd[3] == "names=" + Render(names) && cmd[3][..5] == "names";
    assert cmd[4] == "include=" + includeMode && cmd[4][..7] == "include";
    assert ValueOf(cmd[1], "in") == Render(input);
    assert ValueOf(cmd[2], "out") == Render(output);
    assert ValueOf(cmd[3], "names") == Render(names);
    assert ValueOf(cmd[4], "include") == includeMode;
  }
}

=== FILE: id_filter.dfy ===
/**
 * The tail shared by the Bowtie2, BWA-MEM2 and Bowtie2-only pipelines:
 * extract identifiers, write them one per line, run `filterbyname.sh` on
 * the first reads and, when a second read file was passed at all, on it.
 */
module IdFilter {

  import opened Wrappers
  import opened Argv
  import opened PipelineCore
  import FastQ

  /** `seq_ids_output`: the identifier file in the temporary directory. */
  function IdsPath(tmp: string): string
  {
    tmp + "/removed.list"
  }

  /**
   * One filter per read file: the second only when `seq2 is not None`
   * (so an empty `seq2` still gets one), both with the same names file
   * and include flag.
   */
  function MateFilters(seq1: string, out1: string, seq2: Option<string>, out2: Option<string>,
                       idsPath: string, includeMode: string): (r: seq<Chain>)
    ensures |r| == 1 || |r| == 2
    ensures |r| == 2 <==> seq2.Some?
    ensures r[0] == FastQ.FilterById(Some(seq1), Some(out1), Some(idsPath), includeMode, [])
    ensures |r| == 2 ==> r[1] == FastQ.FilterById(seq2, out2, Some(idsPath), includeMode, [])
  {
    [FastQ.FilterById(Some(seq1), Some(out1), Some(idsPath), includeMode, [])]
    + (if seq2.Some? then [FastQ.FilterById(seq2, out2, Some(idsPath), includeMode, [])] else [])
  }

  /** Token 4 of every filter carries the include flag; the second filter reads `seq2` into `out2`. */
  lemma FilterTokens(seq1: string, out1: string, seq2: Option<string>, out2: Option<string>, idsPath: string, includeMode: string)
    ensures var f := MateFilters(seq1, out1, seq2, out2, idsPath, includeMode);
      && (forall i :: 0 <= i < |f| ==> f[i].cmds[0][4] == "include=" + includeMode)
      && (|f| == 2 ==> f[1].cmds[0][1] == "in=" + Render(seq2) && f[1].cmds[0][2] == "out=" + Render(out2))
  {
  }

  /** Extract, write the identifier file, then run each filter; their codes are not looked at. */
  function ExtractWriteFilter(env: Env, ext: ExtractCall, idsPath: string, filters: seq<Chain>): (r: seq<Step>)
    ensures |r| == 2 + |filters|
    ensures r[0] == Extract(ext)
    ensures r[1] == WriteFile(idsPath, IdFile(env.extract(ext)))
    ensures forall i :: 0 <= i < |filters| ==> r[2 + i] == Execute(filters[i])
  {
    [Extract(ext), WriteFile(idsPath, IdFile(env.extract(ext)))]
    + seq(|filters|, i requires 0 <= i < |filters| => Execute(filters[i]))
  }

  /** The file the filters read names from holds exactly the extracted identifiers, one per line. */
  lemma NamesFileHoldsIds(env: Env, ext: ExtractCall, idsPath: string, filters: seq<Chain>)
    requires forall k :: 0 <= k < |env.extract(ext)| ==> NoNewline(env.extract(ext)[k])
    ensures Split(ExtractWriteFilter(env, ext, idsPath, filters)[1].content) == env.extract(ext) + [""]
  {
    IdFileRoundTrip(env.extract(ext));
  }
}

=== FILE: kraken2_aligner.dfy ===
/**
 * Kraken2 database and classification commands with input checks
 * (hocort/aligners/kraken2.py).
 */
module Kraken2Aligner {

  import opened Wrappers
  import opened Argv
  import Decimal
  import Allowlist

  /** The four `kraken2-build` steps, in the order they must run. */
  const BuildSteps: seq<string> := ["--download-taxonomy", "--add-to-library", "--build", "--clean"]

  /** One `kraken2-build` step; only the library step names the FASTA file. */
  function BuildStep(step: string, fastaIn: string, pathOut: string, threads: int): Cmd
  {
    ["kraken2-build", "--threads", Decimal.IntToString(threads), step]
    + (if step == "--add-to-library" then [fastaIn] else [])
    + ["--db", pathOut]
  }

  /** What `build_index` checks: every string argument, the path and FASTA first. */
  function BuildChecked(pathOut: Option<string>, fastaIn: Option<string>, options: seq<string>): seq<Option<string>>
  {
    [pathOut, fastaIn] + Strings(options)
  }

  /**
   * `build_index`: a character check on the paths and options, then the
   * emptiness checks, then four commands. The options are checked but never used.
   */
  function BuildIndex(pathOut: Option<string>, fastaIn: Option<string>, threads: int, options: seq<string>): (r: Result<seq<Cmd>>)
    ensures var v := Allowlist.ValidateArgs(BuildChecked(pathOut, fastaIn, options));
      && (!v.valid ==> r == Err(DisallowedInput(v.arg, v.chars)))
      && (v.valid && !Truthy(fastaIn) ==> r == Err(NoFastaIn))
      && (v.valid && Truthy(fastaIn) && !Truthy(pathOut) ==> r == Err(NoPathOut))
      && (r.Ok? <==> v.valid && Truthy(fastaIn) && Truthy(pathOut))
    ensures r.Ok? ==> r.value == BuildCommands(fastaIn.value, pathOut.value, threads)
  {
    var v := Allowlist.ValidateArgs(BuildChecked(pathOut, fastaIn, options));
    if !v.valid then Err(DisallowedInput(v.arg, v.chars))
    else if !Truthy(fastaIn) then Err(NoFastaIn)
    else if !Truthy(pathOut) then Err(NoPathOut)
    else Ok(BuildCommands(fastaIn.value, pathOut.value, threads))
  }

  /** The four build commands for accepted arguments. */
  function BuildCommands(fastaIn: string, pathOut: string, threads: int): (r: seq<Cmd>)
    ensures |r| == 4
    ensures |r[1]| == 7 && |r[0]| == 6 && |r[2]| == 6 && |r[3]| == 6
    ensures forall i :: 0 <= i < 4 ==>
      && r[i][..4] == ["kraken2-build", "--threads", Decimal.IntToString(threads), BuildSteps[i]]
      && r[i][|r[i]| - 2..] == ["--db", pathOut]
    ensures r[1][4] == fastaIn
  {
    [BuildStep(BuildSteps[0], fastaIn, pathOut, threads), BuildStep(BuildSteps[1], fastaIn, pathOut, threads),
     BuildStep(BuildSteps[2], fastaIn, pathOut, threads), BuildStep(BuildSteps[3], fastaIn, pathOut, threads)]
  }

  /** Valid options do not change the commands: they are checked, then dropped. */
  lemma BuildIndexIgnoresOptions(pathOut: Option<string>, fastaIn: Option<string>, threads: int, o1: seq<string>, o2: seq<string>)
    requires Allowlist.ValidateArgs(BuildChecked(pathOut, fastaIn, o1)).valid
    requires Allowlist.ValidateArgs(BuildChecked(pathOut, fastaIn, o2)).valid
    ensures BuildIndex(pathOut, fastaIn, threads, o1) == BuildIndex(pathOut, fastaIn, threads, o2)
  {
  }

  /** What `classify` checks, in this order. */
  function ClassifyChecked(index: Option<string>, seq1: Option<string>, classifiedOut: Option<string>,
                           unclassifiedOut: Option<string>, seq2: Option<string>, options: seq<string>): seq<Option<string>>
  {
    [index, seq1, classifiedOut, unclassifiedOut, seq2] + Strings(options)
  }

  /** `--flag path` when the path is truthy, nothing otherwise. */
  function OptionalPath(flag: string, path: Option<string>): (r: seq<string>)
    ensures Truthy(path) ==> r == [flag, path.value]
    ensures !Truthy(path) ==> r == []
  {
    if Truthy(path) then [flag, path.value] else []
  }

  /** `--paired seq1 seq2` for a truthy `seq2`, otherwise `seq1`. */
  function Reads(seq1: string, seq2: Option<string>): seq<string>
  {
    Mates(["--paired"], seq1, seq2)
  }

  /**
   * `classify`: the character check, then the index and read checks; the
   * output flags appear only for truthy paths; the options come last.
   */
  function Classify(index: Option<string>, seq1: Option<string>, classifiedOut: Option<string>, unclassifiedOut: Option<string>,
                    seq2: Option<string>, threads: int, options: seq<string>): (r: Result<seq<Cmd>>)
    ensures var v := Allowlist.ValidateArgs(ClassifyChecked(index, seq1, classifiedOut, unclassifiedOut, seq2, options));
      && (!v.valid ==> r == Err(DisallowedInput(v.arg, v.chars)))
      && (v.valid && !Truthy(index) ==> r == Err(NoIndex))
      && (v.valid && Truthy(index) && !Truthy(seq1) ==> r == Err(NoFastq))
      && (r.Ok? <==> v.valid && Truthy(index) && Truthy(seq1))
    ensures r.Ok? ==> r.value == [ClassifyCommand(index.value, seq1.value, classifiedOut, unclassifiedOut, seq2, threads, options)]
  {
    var v := Allowlist.ValidateArgs(ClassifyChecked(index, seq1, classifiedOut, unclassifiedOut, seq2, options));
    if !v.valid then Err(DisallowedInput(v.arg, v.chars))
    else if !Truthy(index) then Err(NoIndex)
    else if !Truthy(seq1) then Err(NoFastq)
    else Ok([ClassifyCommand(index.value, seq1.value, classifiedOut, unclassifiedOut, seq2, threads, options)])
  }

  /** The classification command for accepted arguments. */
  function ClassifyCommand(index: string, seq1: string, classifiedOut: Option<string>, unclassifiedOut: Option<string>,
                           seq2: Option<string>, threads: int, options: seq<string>): (r: Cmd)
    ensures var outs := OptionalPath("--classified-out", classifiedOut) + OptionalPath("--unclassified-out", unclassifiedOut);
      && |r| == 5 + |outs| + |Reads(seq1, seq2)| + |options|
      && r[..5] == ["kraken2", "--threads", Decimal.IntToString(threads), "--db", index]
      && r[5..5 + |outs|] == outs
      && r[5 + |outs|..|r| - |options|] == Reads(seq1, seq2)
      && r[|r| - |options|..] == options
  {
    var head := ["kraken2", "--threads", Decimal.IntToString(threads), "--db", index];
    var c := OptionalPath("--classified-out", classifiedOut);
    var u := OptionalPath("--unclassified-out", unclassifiedOut);
    var rs := Reads(seq1, seq2);
    assert (head + c + u + rs + options)[5..5 + |c + u|] == c + u;
    head + c + u + rs + options
  }

  /** A disallowed character in any checked argument wins over a missing index or read file. */
  lemma CharacterCheckComesFirst(index: Option<string>, seq1: Option<string>, classifiedOut: Option<string>,
                                 unclassifiedOut: Option<string>, seq2: Option<string>, threads: int, options: seq<string>, k: nat)
    requires k < |ClassifyChecked(index, seq1, classifiedOut, unclassifiedOut, seq2, options)|
    requires !Allowlist.Passes(ClassifyChecked(index, seq1, classifiedOut, unclassifiedOut, seq2, options)[k])
    ensures var r := Classify(index, seq1, classifiedOut, unclassifiedOut, seq2, threads, options);
      r.Err? && r.error.DisallowedInput?
  {
  }
}

=== FILE: kraken2_bowtie2_pipeline.dfy ===
/** Kraken2, then Bowtie2 end-to-end on the unclassified reads (hocort/pipelines/kraken2_bowtie2.py). */
module Kraken2Bowtie2Pipeline {

  import opened Wrappers
  import opened Argv
  import opened PipelineCore
  import Kraken2Pipeline

  /** Kraken2 writes straight into the temporary directory; `hcfilter` is not passed to it. */
  function First(tmp: string, kr2Idx: string, seq1: string, seq2: Option<string>, threads: int): Call
  {
    Call("Kraken2.run", [Str(kr2Idx), Str(seq1), Str(tmp)], map["seq2" := OptArg(seq2), "threads" := Int(threads)])
  }

  function Second(tmp: string, bt2Idx: string, out1: string, seq2: Option<string>, out2: Option<string>,
                  intermediary: string, hcfilter: bool, threads: int, mapq: int): Call
  {
    Call("Bowtie2.run", [Str(bt2Idx), Str(Kraken2Pipeline.Unclass1(tmp)), Str(out1)],
         map["seq2" := OptArg(Kraken2Pipeline.Unclass2(tmp, seq2)), "out2" := OptArg(out2), "mode" := Str("end-to-end"),
             "threads" := Int(threads), "intermediary" := Str(intermediary), "hcfilter" := Bool(hcfilter), "mapq" := Int(mapq)])
  }

  /** `Kraken2Bowtie2.run`: no pairing check; Bowtie2 starts only after Kraken2 returned 0. */
  function Run(env: Env, bt2Idx: string, kr2Idx: string, seq1: string, out1: string, seq2: Option<string>, out2: Option<string>,
               intermediary: string, hcfilter: bool, threads: int, mapq: int): (r: Trace)
    ensures var first := First(env.tmp, kr2Idx, seq1, seq2, threads);
      var second := Second(env.tmp, bt2Idx, out1, seq2, out2, intermediary, hcfilter, threads, mapq);
      && |r.steps| >= 1 && r.steps[0] == SubRun(first)
      && (Failed(env.sub(first)) <==> r.steps == [SubRun(first)])
      && (!Failed(env.sub(first)) ==> r.steps == [SubRun(first), SubRun(second)])
      && (r.outcome == Returned(Code(0)) <==> env.sub(first) == Code(0) && env.sub(second) == Code(0))
      && (r.outcome == Returned(Code(0)) || r.outcome == Returned(Code(1)))
  {
    TwoStage(env, First(env.tmp, kr2Idx, seq1, seq2, threads),
             Second(env.tmp, bt2Idx, out1, seq2, out2, intermediary, hcfilter, threads, mapq))
  }

  /**
   * Bowtie2 reads the unclassified files the Kraken2 pipeline names when
   * its output directory is the temporary directory.
   */
  lemma ReadsKrakenUnclassified(tmp: string, seq2: Option<string>)
    requires Kraken2Pipeline.HashFree(tmp)
    ensures Truthy(seq2) ==>
      && Kraken2Pipeline.Substitute(Kraken2Pipeline.UnclassOut(tmp, seq2), "_1") == Kraken2Pipeline.Unclass1(tmp)
      && Kraken2Pipeline.Substitute(Kraken2Pipeline.UnclassOut(tmp, seq2), "_2") == Kraken2Pipeline.Unclass2(tmp, seq2).value
    ensures !Truthy(seq2) ==> Kraken2Pipeline.UnclassOut(tmp, seq2) == Kraken2Pipeline.Unclass1(tmp)
  {
    Kraken2Pipeline.UnclassifiedMates(tmp, seq2);
  }

  /** `hcfilter`, `mapq` and `intermediary` go only to Bowtie2, which runs `end-to-end`. */
  lemma SettingsForwarded(tmp: string, bt2Idx: string, kr2Idx: string, seq1: string, out1: string, seq2: Option<string>,
                          out2: Option<string>, intermediary: string, hcfilter: bool, threads: int, mapq: int)
    ensures var first := First(tmp, kr2Idx, seq1, seq2, threads);
      var second := Second(tmp, bt2Idx, out1, seq2, out2, intermediary, hcfilter, threads, mapq);
      && "hcfilter" !in first.keywords && "mapq" !in first.keywords
      && second.keywords["hcfilter"] == Bool(hcfilter) && second.keywords["mapq"] == Int(mapq)
      && second.keywords["mode"] == Str("end-to-end")
      && first.keywords["threads"] == second.keywords["threads"] == Int(threads)
  {
  }
}

=== FILE: kraken2_classifier.dfy ===
/**
 * The older Kraken2 classifier (hocort/classifiers/kraken2.py): it runs its
 * own commands and reports one aggregated exit code.
 */
module Kraken2Classifier {

  import opened Wrappers
  import opened Argv
  import Decimal
  import Kraken2Aligner

  /** The four steps; the library step is spelled with an underscore here. */
  const BuildSteps: seq<string> := ["--download-taxonomy", "--add_to_library", "--build", "--clean"]

  /** The four `kraken2-build` commands `build_index` runs, in order. */
  function BuildCommands(pathOut: string, fastaIn: string, threads: int): (r: seq<Cmd>)
    ensures |r| == 4
    ensures |r[1]| == 7 && |r[0]| == 6 && |r[2]| == 6 && |r[3]| == 6
    ensures forall i :: 0 <= i < 4 ==>
      && r[i][..4] == ["kraken2-build", "--threads", Decimal.IntToString(threads), BuildSteps[i]]
      && r[i][|r[i]| - 2..] == ["--db", pathOut]
    ensures r[1][4] == fastaIn
  {
    var t := Decimal.IntToString(threads);
    [["kraken2-build", "--threads", t, "--download-taxonomy", "--db", pathOut],
     ["kraken2-build", "--threads", t, "--add_to_library", fastaIn, "--db", pathOut],
     ["kraken2-build", "--threads", t, "--build", "--db", pathOut],
     ["kraken2-build", "--threads", t, "--clean", "--db", pathOut]]
  }

  /** What `build_index` returns, and the chains it handed to the executor. */
  datatype BuildOutcome = BuildOutcome(code: int, stdout: string, stderr: string, ran: seq<Chain>)

  /** The result of running one command on its own. */
  function RunOne(exec: Executor, cmd: Cmd): StageResult
  {
    exec(Single(cmd), 0)
  }

  /**
   * `build_index`: every command runs whatever the earlier ones returned;
   * the reported code is the sum of the four codes and the outputs are
   * concatenated in order.
   */
  function BuildIndex(exec: Executor, pathOut: string, fastaIn: string, threads: int): (r: BuildOutcome)
    ensures var cmds := BuildCommands(pathOut, fastaIn, threads);
      && r.ran == [Single(cmds[0]), Single(cmds[1]), Single(cmds[2]), Single(cmds[3])]
      && r.code == SumCodes(exec, r.ran)
      && r.stdout == StdoutOf(exec, r.ran)
      && r.stderr == StderrOf(exec, r.ran)
  {
    var cmds := BuildCommands(pathOut, fastaIn, threads);
    var s1, s2, s3, s4 := RunOne(exec, cmds[0]), RunOne(exec, cmds[1]), RunOne(exec, cmds[2]), RunOne(exec, cmds[3]);
    var ran := [Single(cmds[0]), Single(cmds[1]), Single(cmds[2]), Single(cmds[3])];
    assert SumCodes(exec, ran[3..]) == s4.code by { assert ran[3..][1..] == []; }
    assert SumCodes(exec, ran[2..]) == s3.code + s4.code by { assert ran[2..][1..] == ran[3..]; }
    assert SumCodes(exec, ran[1..]) == s2.code + s3.code + s4.code by { assert ran[1..][1..] == ran[2..]; }
    assert StdoutOf(exec, ran[3..]) == s4.stdout by { assert ran[3..][1..] == []; }
    assert StdoutOf(exec, ran[2..]) == s3.stdout + s4.stdout by { assert ran[2..][1..] == ran[3..]; }
    assert StdoutOf(exec, ran[1..]) == s2.stdout + s3.stdout + s4.stdout by { assert ran[1..][1..] == ran[2..]; }
    assert StderrOf(exec, ran[3..]) == s4.stderr by { assert ran[3..][1..] == []; }
    assert StderrOf(exec, ran[2..]) == s3.stderr + s4.stderr by { assert ran[2..][1..] == ran[3..]; }
    assert StderrOf(exec, ran[1..]) == s2.stderr + s3.stderr + s4.stderr by { assert ran[1..][1..] == ran[2..]; }
    BuildOutcome(s1.code + s2.code + s3.code + s4.code,
                 s1.stdout + s2.stdout + s3.stdout + s4.stdout,
                 s1.stderr + s2.stderr + s3.stderr + s4.stderr,
                 ran)
  }

  /** Sum of the first-stage codes of a list of chains: an independent fold. */
  function SumCodes(exec: Executor, chains: seq<Chain>): int
  {
    if |chains| == 0 then 0 else exec(chains[0], 0).code + SumCodes(exec, chains[1..])
  }

  /** Standard output of a list of chains, in order. */
  function StdoutOf(exec: Executor, chains: seq<Chain>): string
  {
    if |chains| == 0 then "" else exec(chains[0], 0).stdout + StdoutOf(exec, chains[1..])
  }

  /** Standard error of a list of chains, in order. */
  function StderrOf(exec: Executor, chains: seq<Chain>): string
  {
    if |chains| == 0 then "" else exec(chains[0], 0).stderr + StderrOf(exec, chains[1..])
  }

  /** The commands that run do not depend on what the executor returns. */
  lemma AllStepsRun(e1: Executor, e2: Executor, pathOut: string, fastaIn: string, threads: int)
    ensures BuildIndex(e1, pathOut, fastaIn, threads).ran == BuildIndex(e2, pathOut, fastaIn, threads).ran
    ensures |BuildIndex(e1, pathOut, fastaIn, threads).ran| == 4
  {
  }

  /** Codes that are all non-negative sum to zero exactly when every step succeeded. */
  lemma {:induction false} NonNegativeSumIsZeroIffAllZero(exec: Executor, chains: seq<Chain>)
    requires forall i :: 0 <= i < |chains| ==> exec(chains[i], 0).code >= 0
    ensures SumCodes(exec, chains) >= 0
    ensures SumCodes(exec, chains) == 0 <==> forall i :: 0 <= i < |chains| ==> exec(chains[i], 0).code == 0
    decreases |chains|
  {
    if |chains| > 0 {
      assert forall i :: 1 <= i < |chains| ==> chains[i] == chains[1..][i - 1];
      NonNegativeSumIsZeroIffAllZero(exec, chains[1..]);
    }
  }

  /** A failing step and a step with a negative code (a signal) can cancel out to a reported zero. */
  lemma SumHidesFailures(pathOut: string, fastaIn: string, threads: int)
    ensures var cmds := BuildCommands(pathOut, fastaIn, threads);
      var exec: Executor := (c: Chain, i: nat) => StageResult(if c == Single(cmds[0]) then 1 else if c == Single(cmds[1]) then -1 else 0, "", "");
      && exec(Single(cmds[0]), 0).code != 0
      && BuildIndex(exec, pathOut, fastaIn, threads).code == 0
  {
    var cmds := BuildCommands(pathOut, fastaIn, threads);
    assert cmds[0][3] != cmds[1][3];
    assert Single(cmds[0]) != Single(cmds[1]);
    assert cmds[2][3] != cmds[0][3] && cmds[2][3] != cmds[1][3];
    assert cmds[3][3] != cmds[0][3] && cmds[3][3] != cmds[1][3];
  }

  /** The classifier's build commands are the aligner's, except for the library step's spelling. */
  lemma BuildMatchesAlignerButSpelling(pathOut: string, fastaIn: string, threads: int)
    requires fastaIn != "" && pathOut != ""
    ensures var mine := BuildCommands(pathOut, fastaIn, threads);
      var theirs := Kraken2Aligner.BuildCommands(fastaIn, pathOut, threads);
      && mine[0] == theirs[0] && mine[2] == theirs[2] && mine[3] == theirs[3]
      && mine[1] == theirs[1][3 := "--add_to_library"]
      && theirs[1][3] == "--add-to-library"
  {
  }

  /** `--paired seq1 seq2` for a truthy `seq2`, otherwise `seq1`. */
  function Reads(seq1: string, seq2: Option<string>): seq<string>
  {
    Mates(["--paired"], seq1, seq2)
  }

  /** The `classify` command: both output flags always, then the options, then the reads. */
  function ClassifyCommand(index: string, seq1: string, classifiedOut: string, unclassifiedOut: string,
                           seq2: Option<string>, threads: int, options: seq<string>): (r: Cmd)
    ensures |r| == 9 + |options| + |Reads(seq1, seq2)|
    ensures r[..9] == ["kraken2", "--threads", Decimal.IntToString(threads), "--db", index,
                       "--classified-out", classifiedOut, "--unclassified-out", unclassifiedOut]
    ensures r[9..9 + |options|] == options
    ensures r[9 + |options|..] == Reads(seq1, seq2)
  {
    ["kraken2", "--threads", Decimal.IntToString(threads), "--db", index,
     "--classified-out", classifiedOut, "--unclassified-out", unclassifiedOut] + options + Reads(seq1, seq2)
  }

  /**
   * With both output paths given, the classifier and the aligner build the
   * same tokens, but the classifier puts the options before the reads.
   */
  lemma OptionsBeforeReads(index: string, seq1: string, classifiedOut: string, unclassifiedOut: string,
                           seq2: Option<string>, threads: int, options: seq<string>)
    requires classifiedOut != "" && unclassifiedOut != ""
    ensures var head := ["kraken2", "--threads", Decimal.IntToString(threads), "--db", index,
                         "--classified-out", classifiedOut, "--unclassified-out", unclassifiedOut];
      && ClassifyCommand(index, seq1, classifiedOut, unclassifiedOut, seq2, threads, options)
         == head + options + Reads(seq1, seq2)
      && Kraken2Aligner.ClassifyCommand(index, seq1, Some(classifiedOut), Some(unclassifiedOut), seq2, threads, options)
         == head + Reads(seq1, seq2) + options
  {
    var head := ["kraken2", "--threads", Decimal.IntToString(threads), "--db", index,
                 "--classified-out", classifiedOut, "--unclassified-out", unclassifiedOut];
    var a := Kraken2Aligner.ClassifyCommand(index, seq1, Some(classifiedOut), Some(unclassifiedOut), seq2, threads, options);
    var rs := Reads(seq1, seq2);
    assert Kraken2Aligner.Reads(seq1, seq2) == rs;
    var outs := Kraken2Aligner.OptionalPath("--classified-out", Some(classifiedOut))
      + Kraken2Aligner.OptionalPath("--unclassified-out", Some(unclassifiedOut));
    assert outs == head[5..];
    assert a[..9] == head by { assert a[..9] == a[..5] + a[5..9]; }
    assert a == a[..9] + a[9..|a| - |options|] + a[|a| - |options|..];
  }
}

=== FILE: kraken2_hisat2_pipeline.dfy ===
/** Kraken2, then HISAT2 on what Kraken2 left unclassified (hocort/pipelines/kraken2_hisat2.py). */
module Kraken2Hisat2Pipeline {

  import opened Wrappers
  import opened Argv
  import opened PipelineCore
  import Kraken2Pipeline

  /** `kr2_out`: a `#` pattern only when both second paths are truthy. */
  function KrakenOut(tmp: string, seq2: Option<string>, out2: Option<string>): string
  {
    if Truthy(seq2) && Truthy(out2) then tmp + "/out#.fastq" else tmp + "/out_1.fastq"
  }

  /** `temp1` and `temp2`: the files HISAT2 is told to read. */
  function Temp1(tmp: string): string { tmp + "/out_1.fastq" }
  function Temp2(tmp: string, seq2: Option<string>): Option<string> { MateTemp(seq2, tmp + "/out_2.fastq") }

  /** What `self.validate(locals())` is handed: every argument by name. */
  function Locals(hs2Idx: string, kr2Idx: string, seq1: string, out1: string, seq2: Option<string>, out2: Option<string>,
                  mfilter: bool, threads: int, hs2Options: string, kr2Options: string): Call
  {
    Call("Kraken2HISAT2.run", [],
         map["hs2_idx" := Str(hs2Idx), "kr2_idx" := Str(kr2Idx), "seq1" := Str(seq1), "out1" := Str(out1),
             "seq2" := OptArg(seq2), "out2" := OptArg(out2), "mfilter" := Bool(mfilter), "threads" := Int(threads),
             "hs2_options" := Str(hs2Options), "kr2_options" := Str(kr2Options)])
  }

  /** The Kraken2 stage, writing under `krakenOut`. */
  function First(kr2Idx: string, seq1: string, krakenOut: string, seq2: Option<string>,
                 mfilter: bool, threads: int, kr2Options: string): Call
  {
    Call("Kraken2.run", [Str(kr2Idx), Str(seq1), Str(krakenOut)],
         map["seq2" := OptArg(seq2), "mfilter" := Bool(mfilter), "threads" := Int(threads), "options" := Str(kr2Options)])
  }

  /** The HISAT2 stage, reading `in1` and, when present, `in2`. */
  function Second(hs2Idx: string, in1: string, in2: Option<string>, out1: string, out2: Option<string>,
                  mfilter: bool, threads: int, hs2Options: string): Call
  {
    Call("HISAT2.run", [Str(hs2Idx), Str(in1), Str(out1)],
         map["seq2" := OptArg(in2), "out2" := OptArg(out2), "threads" := Int(threads),
             "mfilter" := Bool(mfilter), "options" := Str(hs2Options)])
  }

  /** The pairing check, then validation, then the two stages; both variants share it. */
  function Guarded(env: Env, locals: Call, seq2: Option<string>, out2: Option<string>, first: Call, second: Call): (r: Trace)
    ensures Truthy(seq2) && !Truthy(out2) ==> r == Trace([], Raised(ValueErr(Seq2WithoutOut2)))
    ensures var v := env.validate(locals);
      !(Truthy(seq2) && !Truthy(out2)) && !v.0 ==> r == Trace([], Raised(ValueErr(DisallowedInput(v.1, v.2))))
    ensures r.outcome.Raised? <==> r.steps == []
    ensures r.outcome.Returned? ==> r == TwoStage(env, first, second)
  {
    if Truthy(seq2) && !Truthy(out2) then Trace([], Raised(ValueErr(Seq2WithoutOut2)))
    else
      var v := env.validate(locals);
      if !v.0 then Trace([], Raised(ValueErr(DisallowedInput(v.1, v.2))))
      else TwoStage(env, first, second)
  }

  /**
   * `Kraken2HISAT2.run` as written: Kraken2 is pointed at `kr2_out` and
   * HISAT2 at `temp1`/`temp2`.
   */
  function RunAsWritten(env: Env, hs2Idx: string, kr2Idx: string, seq1: string, out1: string, seq2: Option<string>, out2: Option<string>,
                        mfilter: bool, threads: int, hs2Options: string, kr2Options: string): (r: Trace)
    ensures Truthy(seq2) && !Truthy(out2) ==> r == Trace([], Raised(ValueErr(Seq2WithoutOut2)))
    ensures var v := env.validate(Locals(hs2Idx, kr2Idx, seq1, out1, seq2, out2, mfilter, threads, hs2Options, kr2Options));
      !(Truthy(seq2) && !Truthy(out2)) && !v.0 ==> r == Trace([], Raised(ValueErr(DisallowedInput(v.1, v.2))))
    ensures r.outcome.Raised? <==> r.steps == []
    ensures r.outcome.Returned? ==>
      var first := First(kr2Idx, seq1, KrakenOut(env.tmp, seq2, out2), seq2, mfilter, threads, kr2Options);
      var second := Second(hs2Idx, Temp1(env.tmp), Temp2(env.tmp, seq2), out1, out2, mfilter, threads, hs2Options);
      && r.steps[0] == SubRun(first)
      && (Failed(env.sub(first)) <==> r.steps == [SubRun(first)])
      && (!Failed(env.sub(first)) ==> r.steps == [SubRun(first), SubRun(second)])
      && (r.outcome == Returned(Code(0)) <==> env.sub(first) == Code(0) && env.sub(second) == Code(0))
      && (r.outcome != Returned(Code(0)) ==> r.outcome == Returned(Code(1)))
  {
    Guarded(env, Locals(hs2Idx, kr2Idx, seq1, out1, seq2, out2, mfilter, threads, hs2Options, kr2Options), seq2, out2,
            First(kr2Idx, seq1, KrakenOut(env.tmp, seq2, out2), seq2, mfilter, threads, kr2Options),
            Second(hs2Idx, Temp1(env.tmp), Temp2(env.tmp, seq2), out1, out2, mfilter, threads, hs2Options))
  }

  /**
   * `Kraken2HISAT2.run` with the stages connected: Kraken2 writes into the
   * temporary directory and HISAT2 reads the unclassified files it leaves
   * there, as in the Kraken2-then-Bowtie2 pipeline.
   */
  function Run(env: Env, hs2Idx: string, kr2Idx: string, seq1: string, out1: string, seq2: Option<string>, out2: Option<string>,
               mfilter: bool, threads: int, hs2Options: string, kr2Options: string): (r: Trace)
    ensures Truthy(seq2) && !Truthy(out2) ==> r == Trace([], Raised(ValueErr(Seq2WithoutOut2)))
    ensures var v := env.validate(Locals(hs2Idx, kr2Idx, seq1, out1, seq2, out2, mfilter, threads, hs2Options, kr2Options));
      !(Truthy(seq2) && !Truthy(out2)) && !v.0 ==> r == Trace([], Raised(ValueErr(DisallowedInput(v.1, v.2))))
    ensures r.outcome.Raised? <==> r.steps == []
    ensures r.outcome.Returned? ==>
      var first := First(kr2Idx, seq1, env.tmp, seq2, mfilter, threads, kr2Options);
      var second := Second(hs2Idx, Kraken2Pipeline.Unclass1(env.tmp), Kraken2Pipeline.Unclass2(env.tmp, seq2),
                           out1, out2, mfilter, threads, hs2Options);
      && r.steps[0] == SubRun(first)
      && (Failed(env.sub(first)) <==> r.steps == [SubRun(first)])
      && (!Failed(env.sub(first)) ==> r.steps == [SubRun(first), SubRun(second)])
      && (r.outcome == Returned(Code(0)) <==> env.sub(first) == Code(0) && env.sub(second) == Code(0))
      && (r.outcome != Returned(Code(0)) ==> r.outcome == Returned(Code(1)))
  {
    Guarded(env, Locals(hs2Idx, kr2Idx, seq1, out1, seq2, out2, mfilter, threads, hs2Options, kr2Options), seq2, out2,
            First(kr2Idx, seq1, env.tmp, seq2, mfilter, threads, kr2Options),
            Second(hs2Idx, Kraken2Pipeline.Unclass1(env.tmp), Kraken2Pipeline.Unclass2(env.tmp, seq2),
                   out1, out2, mfilter, threads, hs2Options))
  }

  /**
   * As written, the second stage never reads a file the Kraken2 pipeline
   * writes: Kraken2 treats `kr2_out` as a directory and writes
   * `kr2_out/unclass…fq`, while HISAT2 is told to read `temp1`/`temp2`.
   */
  lemma AsWrittenReadsUnwrittenFiles(tmp: string, hs2Idx: string, out1: string, seq2: Option<string>, out2: Option<string>,
                                     mfilter: bool, threads: int, hs2Options: string)
    ensures var second := Second(hs2Idx, Temp1(tmp), Temp2(tmp, seq2), out1, out2, mfilter, threads, hs2Options);
      var written := Kraken2Pipeline.UnclassWritten(KrakenOut(tmp, seq2, out2), seq2);
      && |ReadPaths(second)| >= 1
      && forall i, j :: 0 <= i < |written| && 0 <= j < |ReadPaths(second)| ==> ReadPaths(second)[j] != Str(written[i])
  {
    var second := Second(hs2Idx, Temp1(tmp), Temp2(tmp, seq2), out1, out2, mfilter, threads, hs2Options);
    var written := Kraken2Pipeline.UnclassWritten(KrakenOut(tmp, seq2, out2), seq2);
    assert |KrakenOut(tmp, seq2, out2)| >= |tmp| + 11;
    forall i, j | 0 <= i < |written| && 0 <= j < |ReadPaths(second)|
      ensures ReadPaths(second)[j] != Str(written[i])
    {
      assert ReadPaths(second)[j] == Str(Temp1(tmp)) || ReadPaths(second)[j] == Str(tmp + "/out_2.fastq");
    }
  }

  /**
   * Connected, the second stage reads exactly the unclassified files the
   * Kraken2 pipeline writes into the directory the first stage names.
   */
  lemma SecondReadsWhatFirstWrote(tmp: string, hs2Idx: string, kr2Idx: string, seq1: string, out1: string,
                                  seq2: Option<string>, out2: Option<string>, mfilter: bool, threads: int,
                                  hs2Options: string, kr2Options: string)
    requires Kraken2Pipeline.HashFree(tmp)
    requires seq2.Some? ==> seq2.value != ""
    ensures var first := First(kr2Idx, seq1, tmp, seq2, mfilter, threads, kr2Options);
      var second := Second(hs2Idx, Kraken2Pipeline.Unclass1(tmp), Kraken2Pipeline.Unclass2(tmp, seq2),
                           out1, out2, mfilter, threads, hs2Options);
      && first.positional[2] == Str(tmp)
      && |Kraken2Pipeline.UnclassWritten(tmp, seq2)| == |ReadPaths(second)|
      && forall i :: 0 <= i < |ReadPaths(second)| ==> ReadPaths(second)[i] == Str(Kraken2Pipeline.UnclassWritten(tmp, seq2)[i])
  {
    Kraken2Pipeline.UnclassifiedMates(tmp, seq2);
  }

  /**
   * An empty `seq2` makes Kraken2 write single-end output, yet HISAT2 is
   * still handed a second file, which Kraken2 never wrote: `temp2` is
   * decided by `seq2 == None`, not by truthiness.
   */
  lemma EmptySeq2AsksForMissingMate(tmp: string, hs2Idx: string, kr2Idx: string, seq1: string, out1: string,
                                    out2: Option<string>, mfilter: bool, threads: int, hs2Options: string, kr2Options: string)
    requires Kraken2Pipeline.HashFree(tmp)
    ensures var second := Second(hs2Idx, Kraken2Pipeline.Unclass1(tmp), Kraken2Pipeline.Unclass2(tmp, Some("")),
                                 out1, out2, mfilter, threads, hs2Options);
      && Kraken2Pipeline.UnclassWritten(tmp, Some("")) == [tmp + "/unclass_1.fq"]
      && ReadPaths(second) == [Str(tmp + "/unclass_1.fq"), Str(tmp + "/unclass_2.fq")]
  {
    Kraken2Pipeline.UnclassifiedMates(tmp, Some(""));
  }

  /** `mfilter` and `threads` reach both stages unchanged. */
  lemma SettingsForwarded(tmp: string, hs2Idx: string, kr2Idx: string, seq1: string, out1: string, seq2: Option<string>,
                          out2: Option<string>, mfilter: bool, threads: int, hs2Options: string, kr2Options: string)
    ensures var first := First(kr2Idx, seq1, tmp, seq2, mfilter, threads, kr2Options);
      var second := Second(hs2Idx, Kraken2Pipeline.Unclass1(tmp), Kraken2Pipeline.Unclass2(tmp, seq2),
                           out1, out2, mfilter, threads, hs2Options);
      && first.keywords["mfilter"] == second.keywords["mfilter"] == Bool(mfilter)
      && first.keywords["threads"] == second.keywords["threads"] == Int(threads)
  {
  }
}

=== FILE: kraken2_minimap2_pipeline.dfy ===
/** Kraken2, then Minimap2 on what Kraken2 left unclassified (hocort/pipelines/kraken2_minimap2.py). */
module Kraken2Minimap2Pipeline {

  import opened Wrappers
  import opened Argv
  import opened PipelineCore
  import Kraken2Hisat2Pipeline
  import Kraken2Pipeline

  /** The Kraken2 stage, writing under `krakenOut`; `hcfilter` is passed to it too. */
  function First(kr2Idx: string, seq1: string, krakenOut: string, seq2: Option<string>, hcfilter: bool, threads: int): Call
  {
    Call("Kraken2.run", [Str(kr2Idx), Str(seq1), Str(krakenOut)],
         map["seq2" := OptArg(seq2), "hcfilter" := Bool(hcfilter), "threads" := Int(threads)])
  }

  /** The Minimap2 stage, reading `in1` and, when present, `in2`. */
  function Second(mn2Idx: string, in1: string, in2: Option<string>, out1: string, out2: Option<string>,
                  hcfilter: bool, preset: string, threads: int): Call
  {
    Call("Minimap2.run", [Str(mn2Idx), Str(in1), Str(out1)],
         map["seq2" := OptArg(in2), "out2" := OptArg(out2), "threads" := Int(threads),
             "hcfilter" := Bool(hcfilter), "preset" := Str(preset)])
  }

  /**
   * `Kraken2Minimap2.run` as written: a second read file without a second
   * output returns 1 and runs nothing; otherwise Kraken2 is pointed at
   * `kr2_out` and Minimap2 at `temp1`/`temp2`.
   */
  function RunAsWritten(env: Env, mn2Idx: string, kr2Idx: string, seq1: string, out1: string, seq2: Option<string>, out2: Option<string>,
                        hcfilter: bool, preset: string, threads: int): (r: Trace)
    ensures Truthy(seq2) && !Truthy(out2) <==> r == Exit([], 1)
    ensures r.outcome == Returned(Code(0)) || r.outcome == Returned(Code(1))
    ensures !(Truthy(seq2) && !Truthy(out2)) ==>
      var first := First(kr2Idx, seq1, Kraken2Hisat2Pipeline.KrakenOut(env.tmp, seq2, out2), seq2, hcfilter, threads);
      var second := Second(mn2Idx, Kraken2Hisat2Pipeline.Temp1(env.tmp), Kraken2Hisat2Pipeline.Temp2(env.tmp, seq2),
                           out1, out2, hcfilter, preset, threads);
      && |r.steps| >= 1 && r.steps[0] == SubRun(first)
      && (Failed(env.sub(first)) <==> r.steps == [SubRun(first)])
      && (!Failed(env.sub(first)) ==> r.steps == [SubRun(first), SubRun(second)])
      && (r.outcome == Returned(Code(0)) <==> env.sub(first) == Code(0) && env.sub(second) == Code(0))
  {
    if Truthy(seq2) && !Truthy(out2) then Exit([], 1)
    else TwoStage(env, First(kr2Idx, seq1, Kraken2Hisat2Pipeline.KrakenOut(env.tmp, seq2, out2), seq2, hcfilter, threads),
                  Second(mn2Idx, Kraken2Hisat2Pipeline.Temp1(env.tmp), Kraken2Hisat2Pipeline.Temp2(env.tmp, seq2),
                         out1, out2, hcfilter, preset, threads))
  }

  /**
   * `Kraken2Minimap2.run` with the stages connected: Kraken2 writes into the
   * temporary directory and Minimap2 reads the unclassified files it leaves there.
   */
  function Run(env: Env, mn2Idx: string, kr2Idx: string, seq1: string, out1: string, seq2: Option<string>, out2: Option<string>,
               hcfilter: bool, preset: string, threads: int): (r: Trace)
    ensures Truthy(seq2) && !Truthy(out2) <==> r == Exit([], 1)
    ensures r.outcome == Returned(Code(0)) || r.outcome == Returned(Code(1))
    ensures !(Truthy(seq2) && !Truthy(out2)) ==>
      var first := First(kr2Idx, seq1, env.tmp, seq2, hcfilter, threads);
      var second := Second(mn2Idx, Kraken2Pipeline.Unclass1(env.tmp), Kraken2Pipeline.Unclass2(env.tmp, seq2),
                           out1, out2, hcfilter, preset, threads);
      && |r.steps| >= 1 && r.steps[0] == SubRun(first)
      && (Failed(env.sub(first)) <==> r.steps == [SubRun(first)])
      && (!Failed(env.sub(first)) ==> r.steps == [SubRun(first), SubRun(second)])
      && (r.outcome == Returned(Code(0)) <==> env.sub(first) == Code(0) && env.sub(second) == Code(0))
  {
    if Truthy(seq2) && !Truthy(out2) then Exit([], 1)
    else TwoStage(env, First(kr2Idx, seq1, env.tmp, seq2, hcfilter, threads),
                  Second(mn2Idx, Kraken2Pipeline.Unclass1(env.tmp), Kraken2Pipeline.Unclass2(env.tmp, seq2),
                         out1, out2, hcfilter, preset, threads))
  }

  /** As written, Minimap2 never reads a file the Kraken2 pipeline writes. */
  lemma AsWrittenReadsUnwrittenFiles(tmp: string, mn2Idx: string, out1: string, seq2: Option<string>, out2: Option<string>,
                                     hcfilter: bool, preset: string, threads: int)
    ensures var second := Second(mn2Idx, Kraken2Hisat2Pipeline.Temp1(tmp), Kraken2Hisat2Pipeline.Temp2(tmp, seq2),
                                 out1, out2, hcfilter, preset, threads);
      var written := Kraken2Pipeline.UnclassWritten(Kraken2Hisat2Pipeline.KrakenOut(tmp, seq2, out2), seq2);
      && |ReadPaths(second)| >= 1
      && forall i, j :: 0 <= i < |written| && 0 <= j < |ReadPaths(second)| ==> ReadPaths(second)[j] != Str(written[i])
  {
    var hisat := Kraken2Hisat2Pipeline.Second("", Kraken2Hisat2Pipeline.Temp1(tmp), Kraken2Hisat2Pipeline.Temp2(tmp, seq2),
                                              out1, out2, false, threads, "");
    Kraken2Hisat2Pipeline.AsWrittenReadsUnwrittenFiles(tmp, "", out1, seq2, out2, false, threads, "");
    var second := Second(mn2Idx, Kraken2Hisat2Pipeline.Temp1(tmp), Kraken2Hisat2Pipeline.Temp2(tmp, seq2),
                         out1, out2, hcfilter, preset, threads);
    assert ReadPaths(second) == ReadPaths(hisat);
  }

  /** Connected, Minimap2 reads exactly the unclassified files the Kraken2 stage writes. */
  lemma SecondReadsWhatFirstWrote(tmp: string, mn2Idx: string, kr2Idx: string, seq1: string, out1: string,
                                  seq2: Option<string>, out2: Option<string>, hcfilter: bool, preset: string, threads: int)
    requires Kraken2Pipeline.HashFree(tmp)
    requires seq2.Some? ==> seq2.value != ""
    ensures var first := First(kr2Idx, seq1, tmp, seq2, hcfilter, threads);
      var second := Second(mn2Idx, Kraken2Pipeline.Unclass1(tmp), Kraken2Pipeline.Unclass2(tmp, seq2),
                           out1, out2, hcfilter, preset, threads);
      && first.positional[2] == Str(tmp)
      && |Kraken2Pipeline.UnclassWritten(tmp, seq2)| == |ReadPaths(second)|
      && forall i :: 0 <= i < |ReadPaths(second)| ==> ReadPaths(second)[i] == Str(Kraken2Pipeline.UnclassWritten(tmp, seq2)[i])
  {
    Kraken2Pipeline.UnclassifiedMates(tmp, seq2);
  }

  /** `preset` goes only to Minimap2; `hcfilter` and `threads` go to both stages. */
  lemma SettingsForwarded(tmp: string, mn2Idx: string, kr2Idx: string, seq1: string, out1: string, seq2: Option<string>,
                          out2: Option<string>, hcfilter: bool, preset: string, threads: int)
    ensures var first := First(kr2Idx, seq1, tmp, seq2, hcfilter, threads);
      var second := Second(mn2Idx, Kraken2Pipeline.Unclass1(tmp), Kraken2Pipeline.Unclass2(tmp, seq2),
                           out1, out2, hcfilter, preset, threads);
      && "preset" !in first.keywords && second.keywords["preset"] == Str(preset)
      && first.keywords["hcfilter"] == second.keywords["hcfilter"] == Bool(hcfilter)
      && first.keywords["threads"] == second.keywords["threads"] == Int(threads)
  {
  }
}

=== FILE: kraken2_pipeline.dfy ===
/** The Kraken2 pipeline (hocort/pipelines/kraken2.py): one classification, one exit code. */
module Kraken2Pipeline {

  import opened Wrappers
  import opened Argv
  import opened PipelineCore
  import Kraken2Classifier

  /** `if len(options) > 0: options = options else: options = []`. */
  function Normalise(options: seq<string>): (r: seq<string>)
    ensures r == options
  {
    if |options| > 0 then options else []
  }

  /** Where classified reads go: a `#` pattern for paired input, `_1` otherwise. */
  function ClassOut(out: string, seq2: Option<string>): string
  {
    if Truthy(seq2) then out + "/class#.fq" else out + "/class_1.fq"
  }

  /** Where unclassified reads go, named like `ClassOut`. */
  function UnclassOut(out: string, seq2: Option<string>): string
  {
    if Truthy(seq2) then out + "/unclass#.fq" else out + "/unclass_1.fq"
  }

  /** `Kraken2.run`: classify once, return 1 when the classifier's first code is non-zero. */
  function Run(env: Env, idx: string, seq1: string, out: string, seq2: Option<string>, threads: int, options: seq<string>): (r: Trace)
    ensures var cmd := Kraken2Classifier.ClassifyCommand(idx, seq1, ClassOut(out, seq2), UnclassOut(out, seq2), seq2, threads, options);
      && r.steps == [Execute(Single(cmd))]
      && (r.outcome == Returned(Code(1)) <==> env.exec(Single(cmd), 0).code != 0)
      && (r.outcome == Returned(Code(0)) <==> env.exec(Single(cmd), 0).code == 0)
  {
    var opts := Normalise(options);
    var cmd := Kraken2Classifier.ClassifyCommand(idx, seq1, ClassOut(out, seq2), UnclassOut(out, seq2), seq2, threads, opts);
    var res := env.exec(Single(cmd), 0);
    if res.code != 0 then Exit([Execute(Single(cmd))], 1)
    else Exit([Execute(Single(cmd))], 0)
  }

  /** The classification command names both derived paths, the reads and the options. */
  lemma CommandCarriesPaths(env: Env, idx: string, seq1: string, out: string, seq2: Option<string>, threads: int, options: seq<string>)
    ensures var cmd := Run(env, idx, seq1, out, seq2, threads, options).steps[0].chain.cmds[0];
      && cmd[4] == idx
      && cmd[6] == ClassOut(out, seq2) && cmd[8] == UnclassOut(out, seq2)
      && cmd[9..9 + |options|] == options
      && (Truthy(seq2) ==> cmd[9 + |options|..] == ["--paired", seq1, seq2.value])
      && (!Truthy(seq2) ==> cmd[9 + |options|..] == [seq1])
  {
  }

  /** A path with no `#` in it, which Kraken2 leaves as it is. */
  predicate HashFree(s: string)
  {
    forall i :: 0 <= i < |s| ==> s[i] != '#'
  }

  /**
   * How the Kraken2 binary names mate `n` of a `#` pattern: every `#` in
   * the pattern becomes `_n`.
   */
  function Substitute(pattern: string, mate: string): string
    decreases |pattern|
  {
    if |pattern| == 0 then ""
    else if pattern[0] == '#' then mate + Substitute(pattern[1..], mate)
    else [pattern[0]] + Substitute(pattern[1..], mate)
  }

  /** A pattern without `#` names its file as it is. */
  lemma {:induction false} SubstituteNoHash(s: string, mate: string)
    requires HashFree(s)
    ensures Substitute(s, mate) == s
    decreases |s|
  {
    if |s| > 0 {
      assert HashFree(s[1..]);
      SubstituteNoHash(s[1..], mate);
      assert [s[0]] + s[1..] == s;
    }
  }

  /** A substitution never shortens a pattern. */
  lemma {:induction false} SubstituteLength(pattern: string, mate: string)
    requires |mate| >= 1
    ensures |Substitute(pattern, mate)| >= |pattern|
    decreases |pattern|
  {
    if |pattern| > 0 {
      SubstituteLength(pattern[1..], mate);
    }
  }

  /** Substitution distributes over concatenation. */
  lemma {:induction false} SubstituteConcat(a: string, b: string, mate: string)
    ensures Substitute(a + b, mate) == Substitute(a, mate) + Substitute(b, mate)
    decreases |a|
  {
    if |a| == 0 {
      assert a + b == b;
    } else {
      var ab := a + b;
      assert ab[0] == a[0];
      assert ab[1..] == a[1..] + b;
      SubstituteConcat(a[1..], b, mate);
      if a[0] == '#' {
        assert Substitute(ab, mate) == mate + Substitute(a[1..] + b, mate);
        assert Substitute(a, mate) == mate + Substitute(a[1..], mate);
      } else {
        assert Substitute(ab, mate) == [a[0]] + Substitute(a[1..] + b, mate);
        assert Substitute(a, mate) == [a[0]] + Substitute(a[1..], mate);
      }
    }
  }

  /** One `#` between two hash-free parts becomes the mate suffix. */
  lemma SubstituteHole(pre: string, post: string, mate: string)
    requires HashFree(pre) && HashFree(post)
    ensures Substitute(pre + "#" + post, mate) == pre + mate + post
  {
    var hp := "#" + post;
    assert hp[1..] == post;
    assert Substitute(hp, mate) == mate + post by {
      SubstituteNoHash(post, mate);
    }
    assert Substitute(pre, mate) == pre by {
      SubstituteNoHash(pre, mate);
    }
    SubstituteConcat(pre, hp, mate);
    assert pre + "#" + post == pre + hp;
    assert pre + (mate + post) == pre + mate + post;
  }

  /**
   * The unclassified files Kraken2 writes under `out`: both mates of the `#`
   * pattern for paired input, the one `_1` file otherwise.
   */
  function UnclassWritten(out: string, seq2: Option<string>): (r: seq<string>)
    ensures |r| == if Truthy(seq2) then 2 else 1
    ensures forall i :: 0 <= i < |r| ==> |r[i]| >= |out| + 12
  {
    var pattern := UnclassOut(out, seq2);
    SubstituteLength(pattern, "_1");
    SubstituteLength(pattern, "_2");
    if Truthy(seq2) then [Substitute(pattern, "_1"), Substitute(pattern, "_2")] else [pattern]
  }

  /** The first unclassified mate, once Kraken2 has replaced the `#`. */
  function Unclass1(out: string): string { out + "/unclass_1.fq" }

  /** The second unclassified mate, asked for unless `seq2 is None`. */
  function Unclass2(out: string, seq2: Option<string>): Option<string> { MateTemp(seq2, out + "/unclass_2.fq") }

  /**
   * For paired input the unclassified mates land in `out/unclass_1.fq` and
   * `out/unclass_2.fq`; for single-end input the one file is
   * `out/unclass_1.fq` directly. These are the files the Kraken2-then-Bowtie2
   * pipeline reads.
   */
  lemma UnclassifiedMates(out: string, seq2: Option<string>)
    requires HashFree(out)
    ensures Truthy(seq2) ==>
      && Substitute(UnclassOut(out, seq2), "_1") == out + "/unclass_1.fq"
      && Substitute(UnclassOut(out, seq2), "_2") == out + "/unclass_2.fq"
    ensures !Truthy(seq2) ==> UnclassOut(out, seq2) == out + "/unclass_1.fq"
    ensures UnclassWritten(out, seq2)[0] == Unclass1(out)
    ensures Truthy(seq2) ==> Unclass2(out, seq2) == Some(UnclassWritten(out, seq2)[1])
  {
    var pre := out + "/unclass";
    assert HashFree(pre) by {
      forall i | 0 <= i < |pre| ensures pre[i] != '#' {
        if i >= |out| { assert pre[i] == "/unclass"[i - |out|]; }
      }
    }
    assert out + "/unclass#.fq" == pre + "#" + ".fq";
    SubstituteHole(pre, ".fq", "_1");
    SubstituteHole(pre, ".fq", "_2");
  }
}

=== FILE: minimap2_aligner.dfy ===
/** Minimap2 index and alignment commands (hocort/aligners/minimap2.py). */
module Minimap2Aligner {

  import opened Wrappers
  import opened Argv
  import Decimal
  import Sam

  /** The read files: `seq1`, then `seq2` only when it is truthy. */
  function Reads(seq1: string, seq2: Option<string>): seq<string>
  {
    Mates([], seq1, seq2)
  }

  /** `build_index`: options go between the output path and the FASTA input, which is last. */
  function BuildIndex(pathOut: string, fastaIn: string, threads: int, options: seq<string>): (r: Chain)
    ensures !r.pipe && |r.cmds| == 1
    ensures |r.cmds[0]| == 6 + |options|
    ensures r.cmds[0][..5] == ["minimap2", "-t", Decimal.IntToString(threads), "-d", pathOut]
    ensures r.cmds[0][5..5 + |options|] == options
    ensures r.cmds[0][|r.cmds[0]| - 1] == fastaIn
  {
    Single(["minimap2", "-t", Decimal.IntToString(threads), "-d", pathOut] + options + [fastaIn])
  }

  /** `align_sam`: options precede the index, and the index precedes the reads. */
  function AlignSam(index: string, seq1: string, output: string, seq2: Option<string>, threads: int, options: seq<string>): (r: Chain)
    ensures !r.pipe && |r.cmds| == 1
    ensures |r.cmds[0]| == 7 + |options| + |Reads(seq1, seq2)|
    ensures r.cmds[0][..6] == ["minimap2", "-t", Decimal.IntToString(threads), "-a", "-o", output]
    ensures r.cmds[0][6..] == options + [index] + Reads(seq1, seq2)
  {
    Single(["minimap2", "-t", Decimal.IntToString(threads), "-a", "-o", output] + options + [index] + Reads(seq1, seq2))
  }

  /** `align_bam`: minimap2 writes SAM to its standard output, piped into samtools. */
  function AlignBam(index: string, seq1: string, output: string, seq2: Option<string>, threads: int, options: seq<string>): (r: Chain)
    ensures r.pipe && |r.cmds| == 2
    ensures |r.cmds[0]| == 5 + |options| + |Reads(seq1, seq2)|
    ensures r.cmds[0][..4] == ["minimap2", "-t", Decimal.IntToString(threads), "-a"]
    ensures r.cmds[0][4..] == options + [index] + Reads(seq1, seq2)
    ensures r.cmds[1] == Sam.ToBam(threads, output)
  {
    Piped(["minimap2", "-t", Decimal.IntToString(threads), "-a"] + options + [index] + Reads(seq1, seq2),
          Sam.ToBam(threads, output))
  }

  /** The BAM variant's aligner stage is the SAM command with `-o output` taken out. */
  lemma BamIsSamWithoutOutput(index: string, seq1: string, output: string, seq2: Option<string>, threads: int, options: seq<string>)
    ensures var sam := AlignSam(index, seq1, output, seq2, threads, options).cmds[0];
      && sam[4..6] == ["-o", output]
      && AlignBam(index, seq1, output, seq2, threads, options).cmds[0] == Without(sam, 4, 2)
  {
  }
}

=== FILE: minimap2_pipeline.dfy ===
/** The Minimap2 pipeline (hocort/pipelines/minimap2.py): align, extract identifiers, filter. */
module Minimap2Pipeline {

  import opened Wrappers
  import opened Argv
  import opened PipelineCore
  import Minimap2Aligner
  import Sam

  /** The scoring used when the caller passes no options. */
  const DefaultOptions: seq<string> := ["-A1", "-B4", "-O1,10", "-s100", "--end-bonus", "200"]

  /** Empty options are replaced by the defaults; anything else is kept. */
  function EffectiveOptions(options: seq<string>): (r: seq<string>)
    ensures |options| == 0 ==> r == DefaultOptions
    ensures |options| > 0 ==> r == options
    ensures |r| > 0
  {
    if |options| > 0 then options else DefaultOptions
  }

  /** `minimap2_output`: the intermediate alignment file. */
  function Intermediate(tmp: string): string
  {
    tmp + "/output"
  }

  /** The aligner chain: piped into samtools exactly when the intermediary is `BAM`. */
  function AlignChain(env: Env, idx: string, seq1: string, seq2: Option<string>, intermediary: string, threads: int, options: seq<string>): Chain
  {
    var opts := EffectiveOptions(options);
    if intermediary == "BAM" then Minimap2Aligner.AlignBam(idx, seq1, Intermediate(env.tmp), seq2, threads, opts)
    else Minimap2Aligner.AlignSam(idx, seq1, Intermediate(env.tmp), seq2, threads, opts)
  }

  /** `Minimap2.run`. */
  function Run(env: Env, idx: string, seq1: string, out1: string, seq2: Option<string>, out2: Option<string>,
               intermediary: string, hcfilter: string, threads: int, mapq: int, options: seq<string>): (r: Trace)
    ensures var chain := AlignChain(env, idx, seq1, seq2, intermediary, threads, options);
      && |r.steps| >= 1 && r.steps[0] == Execute(chain)
      && (intermediary == "BAM" ==>
            (env.exec(chain, 0).code != 0 || env.exec(chain, 1).code != 0 <==> r == Exit([Execute(chain)], 1)))
      && (intermediary != "BAM" ==> (env.exec(chain, 0).code != 0 <==> r == Exit([Execute(chain)], 1)))
    ensures |r.steps| > 1 ==>
      var ext := ExtractCall(if intermediary == "BAM" then BamFile else SamFile, Intermediate(env.tmp), mapq, Some(threads), None);
      && |r.steps| == 3
      && r.steps[1] == Extract(ext)
      && r.steps[2] == Filter(FilterCall(env.extract(ext), seq1, out1, seq2, out2, hcfilter))
      && (r.outcome == Returned(Code(0)) <==> env.filter(r.steps[2].filter) == 0)
      && (r.outcome == Returned(Code(1)) <==> env.filter(r.steps[2].filter) != 0)
  {
    var chain := AlignChain(env, idx, seq1, seq2, intermediary, threads, options);
    if intermediary == "BAM" then
      assert Codes(env.exec, chain)[..2] == [env.exec(chain, 0).code, env.exec(chain, 1).code];
      AlignThenFilter(env, chain, 2, ExtractCall(BamFile, Intermediate(env.tmp), mapq, Some(threads), None),
                      seq1, out1, seq2, out2, hcfilter)
    else
      assert Codes(env.exec, chain)[..1] == [env.exec(chain, 0).code];
      AlignThenFilter(env, chain, 1, ExtractCall(SamFile, Intermediate(env.tmp), mapq, Some(threads), None),
                      seq1, out1, seq2, out2, hcfilter)
  }

  /**
   * Identifiers are read from the file the chain writes: the `-o` value of
   * minimap2 itself for SAM, of the samtools stage for BAM.
   */
  lemma ExtractsWhatAlignerWrote(env: Env, idx: string, seq1: string, out1: string, seq2: Option<string>, out2: Option<string>,
                                 intermediary: string, hcfilter: string, threads: int, mapq: int, options: seq<string>)
    requires |Run(env, idx, seq1, out1, seq2, out2, intermediary, hcfilter, threads, mapq, options).steps| > 1
    ensures var r := Run(env, idx, seq1, out1, seq2, out2, intermediary, hcfilter, threads, mapq, options);
      var chain := r.steps[0].chain;
      && (intermediary == "BAM" ==> |chain.cmds| == 2 && chain.cmds[1][5..] == ["-o", r.steps[1].extract.path])
      && (intermediary != "BAM" ==> |chain.cmds| == 1 && chain.cmds[0][4..6] == ["-o", r.steps[1].extract.path])
      && r.steps[1].extract.addSlash.None?
  {
    var chain := AlignChain(env, idx, seq1, seq2, intermediary, threads, options);
    if intermediary != "BAM" {
      assert chain.cmds[0][4..6] == chain.cmds[0][..6][4..6];
    }
  }

  /** Under BAM, a failing samtools stage alone ends the run before any extraction. */
  lemma SamtoolsFailureStops(env: Env, idx: string, seq1: string, out1: string, seq2: Option<string>, out2: Option<string>,
                             hcfilter: string, threads: int, mapq: int, options: seq<string>)
    requires env.exec(AlignChain(env, idx, seq1, seq2, "BAM", threads, options), 1).code != 0
    ensures Run(env, idx, seq1, out1, seq2, out2, "BAM", hcfilter, threads, mapq, options).outcome == Returned(Code(1))
    ensures |Run(env, idx, seq1, out1, seq2, out2, "BAM", hcfilter, threads, mapq, options).steps| == 1
  {
  }
}

=== FILE: pipeline_core.dfy ===
/**
 * What every pipeline `run` shares: the oracles it consults, the actions it
 * takes in order, how it ends, the identifier file it writes, and the
 * "stop at the first failing stage" shape of the compound pipelines.
 */
module PipelineCore {

  import opened Wrappers
  import opened Argv

  /** A Python argument value as pipelines pass it on. */
  datatype Arg = Str(s: string) | NoneValue | Bool(b: bool) | Int(i: int) | Strs(items: seq<string>)

  /** An optional path as the argument Python would pass (`None` or a string). */
  function OptArg(o: Option<string>): (r: Arg)
    ensures o.None? <==> r == NoneValue
    ensures o.Some? ==> r == Str(o.value)
  {
    match o
    case None => NoneValue
    case Some(s) => Str(s)
  }

  /** A call into code this model does not define: its name, positional and keyword arguments. */
  datatype Call = Call(target: string, positional: seq<Arg>, keywords: map<string, Arg>)

  /** `SAM.extract_ids` or `BAM.extract_ids`. */
  datatype Format = SamFile | BamFile

  /** The arguments of an `extract_ids` call; a keyword the caller leaves out is `None` here. */
  datatype ExtractCall = ExtractCall(format: Format, path: string, mapq: int, threads: Option<int>, addSlash: Option<bool>)

  /** The arguments of `self.filter(query_names, seq1, out1, seq2=, out2=, hcfilter=)`. */
  datatype FilterCall = FilterCall(ids: seq<string>, seq1: string, out1: string, seq2: Option<string>, out2: Option<string>, hcfilter: string)

  /** One observable action of a `run`, in the order it happens. */
  datatype Step =
    | Execute(chain: Chain)
    | Extract(extract: ExtractCall)
    | WriteFile(path: string, content: string)
    | Filter(filter: FilterCall)
    | Invoke(call: Call)
    | SubRun(call: Call)

  /** What a `run` returns: an exit code, or Python's `None`. */
  datatype Status = Code(code: int) | NoneReturned

  /** The exceptions a run can end with: `ValueError`, `UnboundLocalError` on a name, `AttributeError` on `owner.name`. */
  datatype Exception = ValueErr(err: ValueError) | UnboundLocal(name: string) | AttributeErr(owner: string, name: string)

  datatype Outcome = Returned(status: Status) | Raised(exc: Exception)

  /** The actions a `run` took and how it ended. */
  datatype Trace = Trace(steps: seq<Step>, outcome: Outcome)

  /**
   * The world a pipeline runs in:
   * - `tmp` is the temporary directory's name;
   * - `exec` runs a chain of commands;
   * - `extract` lists the identifiers kept from an alignment file;
   * - `filter` is the pipeline's own read filter and returns its code;
   * - `sub` runs another pipeline;
   * - `build` stands for a command builder this model does not define;
   * - `validate` is the pipeline's own check of its arguments.
   */
  datatype Env = Env(
    tmp: string,
    exec: Executor,
    extract: ExtractCall -> seq<string>,
    filter: FilterCall -> int,
    sub: Call -> Status,
    build: Call -> Option<seq<Cmd>>,
    validate: Call -> (bool, string, seq<char>))

  /** Python's `returncode != 0`: `None` counts as a failure too. */
  predicate Failed(s: Status)
  {
    s != Code(0)
  }

  /** A run that returns the given code after the given steps. */
  function Exit(steps: seq<Step>, code: int): Trace
  {
    Trace(steps, Returned(Code(code)))
  }

  /** `for returncode in returncodes: if returncode != 0: return 1`, then `return 0`. */
  function ExitStatus(codes: seq<int>): (r: int)
    ensures r == 0 || r == 1
    ensures r == 0 <==> AllZero(codes)
  {
    if |codes| == 0 then 0
    else if codes[0] != 0 then 1
    else
      assert forall i :: 1 <= i < |codes| ==> codes[i] == codes[1..][i - 1];
      ExitStatus(codes[1..])
  }

  /**
   * Two sub-pipelines in sequence: the second runs only if the first
   * returned 0, and any failure gives 1.
   */
  function TwoStage(env: Env, first: Call, second: Call): (r: Trace)
    ensures |r.steps| >= 1 && r.steps[0] == SubRun(first)
    ensures Failed(env.sub(first)) <==> |r.steps| == 1
    ensures |r.steps| == 2 ==> r.steps[1] == SubRun(second)
    ensures r.outcome == Returned(Code(0)) || r.outcome == Returned(Code(1))
    ensures r.outcome == Returned(Code(0)) <==> env.sub(first) == Code(0) && env.sub(second) == Code(0)
  {
    if Failed(env.sub(first)) then Exit([SubRun(first)], 1)
    else if Failed(env.sub(second)) then Exit([SubRun(first), SubRun(second)], 1)
    else Exit([SubRun(first), SubRun(second)], 0)
  }

  /** How the second stage fares has no bearing on a run that stopped after the first. */
  lemma FailFast(env1: Env, env2: Env, first: Call, second: Call)
    requires env1.sub(first) == env2.sub(first)
    requires Failed(env1.sub(first))
    ensures TwoStage(env1, first, second) == TwoStage(env2, first, second)
  {
  }

  /**
   * The shape of the STAR and Minimap2 pipelines: run the aligner chain,
   * stop with 1 if one of its first `checked` stage codes is non-zero,
   * otherwise extract identifiers and filter the reads with them.
   */
  function AlignThenFilter(env: Env, chain: Chain, checked: nat, ext: ExtractCall,
                           seq1: string, out1: string, seq2: Option<string>, out2: Option<string>, hcfilter: string): (r: Trace)
    requires checked <= |chain.cmds|
    ensures |r.steps| >= 1 && r.steps[0] == Execute(chain)
    ensures !AllZero(Codes(env.exec, chain)[..checked]) <==> |r.steps| == 1
    ensures |r.steps| == 1 ==> r.outcome == Returned(Code(1))
    ensures |r.steps| > 1 ==>
      var call := FilterCall(env.extract(ext), seq1, out1, seq2, out2, hcfilter);
      && r.steps == [Execute(chain), Extract(ext), Filter(call)]
      && (r.outcome == Returned(Code(0)) <==> env.filter(call) == 0)
      && (r.outcome == Returned(Code(1)) <==> env.filter(call) != 0)
  {
    if ExitStatus(Codes(env.exec, chain)[..checked]) != 0 then Exit([Execute(chain)], 1)
    else
      var call := FilterCall(env.extract(ext), seq1, out1, seq2, out2, hcfilter);
      Exit([Execute(chain), Extract(ext), Filter(call)], if env.filter(call) != 0 then 1 else 0)
  }

  /** The read files a sub-pipeline call is handed: its second positional argument, then `seq2` unless it is `None`. */
  function ReadPaths(call: Call): seq<Arg>
  {
    (if |call.positional| > 1 then [call.positional[1]] else [])
    + (if "seq2" in call.keywords && call.keywords["seq2"] != NoneValue then [call.keywords["seq2"]] else [])
  }

  /** `None if seq2 == None else path`: an `is None` test, so an empty `seq2` still gets the path. */
  function MateTemp(seq2: Option<string>, path: string): (r: Option<string>)
    ensures r.None? <==> seq2.None?
    ensures r.Some? ==> r.value == path
  {
    if seq2 == None then None else Some(path)
  }

  /** The identifier file: each identifier followed by a newline, in list order. */
  function IdFile(ids: seq<string>): (r: string)
    ensures |r| >= |ids|
    ensures |ids| > 0 ==> r[|r| - 1] == '\n'
  {
    if |ids| == 0 then "" else ids[0] + "\n" + IdFile(ids[1..])
  }

  predicate NoNewline(s: string)
  {
    forall i :: 0 <= i < |s| ==> s[i] != '\n'
  }

  /** Python's `s.split('\n')`: the pieces between newlines, always at least one. */
  function Split(s: string): (r: seq<string>)
    ensures |r| >= 1
    ensures forall k :: 0 <= k < |r| ==> NoNewline(r[k])
  {
    if |s| == 0 then [""]
    else if s[0] == '\n' then [""] + Split(s[1..])
    else
      var rest := Split(s[1..]);
      [[s[0]] + rest[0]] + rest[1..]
  }

  /** A line without a newline is split off whole. */
  lemma {:induction false} SplitLine(id: string, rest: string)
    requires NoNewline(id)
    ensures Split(id + "\n" + rest) == [id] + Split(rest)
    decreases |id|
  {
    if |id| == 0 {
      assert id + "\n" + rest == "\n" + rest;
      assert ("\n" + rest)[1..] == rest;
    } else {
      var s := id + "\n" + rest;
      assert s[0] == id[0];
      assert s[1..] == id[1..] + "\n" + rest;
      SplitLine(id[1..], rest);
      assert [id[0]] + id[1..] == id;
    }
  }

  /** Reading the identifier file back line by line gives the identifiers, then the empty tail. */
  lemma {:induction false} IdFileRoundTrip(ids: seq<string>)
    requires forall k :: 0 <= k < |ids| ==> NoNewline(ids[k])
    ensures Split(IdFile(ids)) == ids + [""]
    decreases |ids|
  {
    if |ids| > 0 {
      SplitLine(ids[0], IdFile(ids[1..]));
      IdFileRoundTrip(ids[1..]);
      assert ids == [ids[0]] + ids[1..];
    }
  }

  /** Distinct identifier lists give distinct files, when no identifier holds a newline. */
  lemma IdFileInjective(a: seq<string>, b: seq<string>)
    requires forall k :: 0 <= k < |a| ==> NoNewline(a[k])
    requires forall k :: 0 <= k < |b| ==> NoNewline(b[k])
    requires IdFile(a) == IdFile(b)
    ensures a == b
  {
    IdFileRoundTrip(a);
    IdFileRoundTrip(b);
    assert a == (a + [""])[..|a|];
    assert b == (b + [""])[..|b|];
  }
}

=== FILE: sam.dfy ===
/** samtools commands that select mapped or unmapped reads (hocort/parse/sam.py). */
module Sam {

  import opened Wrappers
  import opened Argv
  import Decimal

  // SAM FLAG bits, section 1.4 of the SAM format specification (SAMv1).
  const Paired: bv16 := 0x1
  const Unmapped: bv16 := 0x4
  const MateUnmapped: bv16 := 0x8

  /**
   * The `-f`/`-F` filter tokens. `mfilter` asks for unmapped reads, its
   * absence for mapped ones; in paired mode both mates are constrained.
   * 13 = 0x1|0x4|0x8 and 12 = 0x4|0x8.
   */
  function MaskTokens(paired: bool, mfilter: bool): seq<string>
  {
    if paired then
      (if mfilter then ["-f", "13"] else ["-F", "12", "-f", "1"])
    else
      (if mfilter then ["-f", "4"] else ["-F", "4"])
  }

  /** Bits a record must have (`-f`) and bits it must not have (`-F`). */
  datatype Mask = Mask(require: bv16, exclude: bv16)

  predicate AllDigits(s: string)
  {
    forall i :: 0 <= i < |s| ==> Decimal.IsDigit(s[i])
  }

  function FlagValue(s: string): bv16
    requires AllDigits(s)
  {
    (Decimal.ParseNat(s) % 0x1_0000) as bv16
  }

  /** How samtools reads a run of `-f N` / `-F N` pairs: each one adds its bits. */
  function ReadMask(tokens: seq<string>): Mask
    decreases |tokens|
  {
    if |tokens| < 2 then Mask(0, 0)
    else
      var rest := ReadMask(tokens[2..]);
      if !AllDigits(tokens[1]) then rest
      else if tokens[0] == "-f" then Mask(rest.require | FlagValue(tokens[1]), rest.exclude)
      else if tokens[0] == "-F" then Mask(rest.require, rest.exclude | FlagValue(tokens[1]))
      else rest
  }

  /** Whether samtools keeps a record with FLAG `flag` under `m`. */
  predicate Keeps(m: Mask, flag: bv16)
  {
    (flag & m.require) == m.require && (flag & m.exclude) == 0
  }

  /**
   * The selection the callers ask for: with `mfilter`, unmapped reads (in
   * paired mode, pairs whose two mates are unmapped); without it, mapped reads
   * (in paired mode, pairs whose two mates are mapped).
   */
  predicate Intended(paired: bool, mfilter: bool, flag: bv16)
  {
    var unmapped := (flag & Unmapped) != 0;
    var mateUnmapped := (flag & MateUnmapped) != 0;
    var isPaired := (flag & Paired) != 0;
    if paired then
      isPaired && (if mfilter then unmapped && mateUnmapped else !unmapped && !mateUnmapped)
    else
      (if mfilter then unmapped else !unmapped)
  }

  lemma ParsedLiterals()
    ensures AllDigits("1") && FlagValue("1") == 1
    ensures AllDigits("4") && FlagValue("4") == 4
    ensures AllDigits("12") && FlagValue("12") == 12
    ensures AllDigits("13") && FlagValue("13") == 13
  {
    assert Decimal.ParseNat("1") == 1 by { assert "1"[..0] == ""; }
    assert Decimal.ParseNat("4") == 4 by { assert "4"[..0] == ""; }
    assert Decimal.ParseNat("12") == 12 by { assert "12"[..1] == "1"; }
    assert Decimal.ParseNat("13") == 13 by { assert "13"[..1] == "1"; }
  }

  /** The bits each literal mask requires and excludes. */
  lemma MaskBits(paired: bool, mfilter: bool)
    ensures ReadMask(MaskTokens(paired, mfilter)) ==
      if paired then (if mfilter then Mask(13, 0) else Mask(1, 12))
      else (if mfilter then Mask(4, 0) else Mask(0, 4))
  {
    ParsedLiterals();
    var t := MaskTokens(paired, mfilter);
    if paired && !mfilter {
      assert t[2..] == ["-f", "1"] && t[2..][2..] == [];
      assert ReadMask(t[2..]) == Mask(1, 0);
    } else {
      assert t[2..] == [];
    }
  }

  /** The literal masks select exactly the intended records, for every FLAG value. */
  lemma MaskMeaning(paired: bool, mfilter: bool, flag: bv16)
    ensures Keeps(ReadMask(MaskTokens(paired, mfilter)), flag) <==> Intended(paired, mfilter, flag)
  {
    MaskBits(paired, mfilter);
  }

  /** The last token: the input path when it is truthy, otherwise `-` (standard input). */
  function InputToken(input: Option<string>): string
  {
    if Truthy(input) then input.value else "-"
  }

  /** `SAM.select`: one `samtools view` command that keeps SAM output. */
  function Select(input: Option<string>, output: Option<string>, paired: bool, threads: int, mfilter: bool): (r: seq<Cmd>)
    ensures |r| == 1 && |r[0]| >= 6
    ensures r[0][..5] == ["samtools", "view", "--threads", Decimal.IntToString(threads), "-h"]
    ensures var m := MaskTokens(paired, mfilter);
      && |r[0]| == 5 + |m| + (if Truthy(output) then 2 else 0) + 1
      && r[0][5..5 + |m|] == m
      && (Truthy(output) ==> r[0][5 + |m|..5 + |m| + 2] == ["-o", output.value])
    ensures r[0][|r[0]| - 1] == InputToken(input)
  {
    var cmd := ["samtools", "view", "--threads", Decimal.IntToString(threads), "-h"] + MaskTokens(paired, mfilter);
    var cmd := if Truthy(output) then cmd + ["-o", output.value] else cmd;
    [cmd + [InputToken(input)]]
  }

  /** `SAM.sam_to_fastq`: one `samtools fastq` command writing one or two FASTQ files. */
  function SamToFastq(input: Option<string>, out1: Option<string>, out2: Option<string>, threads: int, mfilter: bool): (r: seq<Cmd>)
    ensures |r| == 1 && |r[0]| >= 6
    ensures r[0][..5] == ["samtools", "fastq", "--threads", Decimal.IntToString(threads), "-N"]
    ensures Truthy(out1) && Truthy(out2) ==>
      r[0][5..] == MaskTokens(true, mfilter) + ["-1", out1.value, "-2", out2.value, InputToken(input)]
    ensures Truthy(out1) && !Truthy(out2) ==>
      r[0][5..] == MaskTokens(false, mfilter) + ["-0", out1.value, InputToken(input)]
    ensures !Truthy(out1) ==> r[0][5..] == [InputToken(input)]
  {
    var cmd := ["samtools", "fastq", "--threads", Decimal.IntToString(threads), "-N"];
    var cmd := if Truthy(out1) && Truthy(out2)
      then cmd + MaskTokens(true, mfilter) + ["-1", out1.value, "-2", out2.value]
      else cmd;
    var cmd := if Truthy(out1) && !Truthy(out2)
      then cmd + MaskTokens(false, mfilter) + ["-0", out1.value]
      else cmd;
    [cmd + [InputToken(input)]]
  }

  /** The filter tokens `select` writes keep exactly the records the caller asks for. */
  lemma SelectKeepsIntended(input: Option<string>, output: Option<string>, paired: bool, threads: int, mfilter: bool, flag: bv16)
    ensures var cmd := Select(input, output, paired, threads, mfilter)[0];
      var n := if paired && !mfilter then 4 else 2;
      && 5 + n <= |cmd|
      && (Keeps(ReadMask(cmd[5..5 + n]), flag) <==> Intended(paired, mfilter, flag))
  {
    MaskMeaning(paired, mfilter, flag);
  }

  /**
   * The filter tokens `sam_to_fastq` writes keep exactly the intended records:
   * pairs when both outputs are given, single reads when only the first is.
   */
  lemma SamToFastqKeepsIntended(input: Option<string>, out1: Option<string>, out2: Option<string>, threads: int, mfilter: bool, flag: bv16)
    requires Truthy(out1)
    ensures var cmd := SamToFastq(input, out1, out2, threads, mfilter)[0];
      var paired := Truthy(out2);
      var n := if paired && !mfilter then 4 else 2;
      && 5 + n <= |cmd|
      && (Keeps(ReadMask(cmd[5..5 + n]), flag) <==> Intended(paired, mfilter, flag))
  {
    var cmd := SamToFastq(input, out1, out2, threads, mfilter)[0];
    var m := MaskTokens(Truthy(out2), mfilter);
    assert cmd[5..5 + |m|] == m;
    MaskMeaning(Truthy(out2), mfilter, flag);
  }

  // Default argument values: `select` keeps unmapped reads, `sam_to_fastq` mapped ones.
  const SelectDefaultMfilter := true
  const SamToFastqDefaultMfilter := false

  /**
   * With their defaults, `select` and a paired `sam_to_fastq` keep disjoint
   * record sets: no FLAG value passes both masks.
   */
  lemma DefaultsSelectOpposite(flag: bv16, input: Option<string>, output: Option<string>, out1: string, out2: string)
    requires out1 != "" && out2 != ""
    ensures var s := Select(input, output, true, 1, SelectDefaultMfilter)[0];
      var f := SamToFastq(input, Some(out1), Some(out2), 1, SamToFastqDefaultMfilter)[0];
      && s[5..7] == ["-f", "13"]
      && f[5..9] == ["-F", "12", "-f", "1"]
      && !(Keeps(ReadMask(s[5..7]), flag) && Keeps(ReadMask(f[5..9]), flag))
  {
    MaskMeaning(true, true, flag);
    MaskMeaning(true, false, flag);
  }

  /** `samtools view -@ <threads> -b -o <output>`: the second stage of every `align_bam` pipe. */
  function ToBam(threads: int, output: string): Cmd
  {
    ["samtools", "view", "-@", Decimal.IntToString(threads), "-b", "-o", output]
  }
}

=== FILE: star_aligner.dfy ===
/** STAR index and alignment commands (hocort/aligners/star.py). */
module StarAligner {

  import opened Wrappers
  import opened Argv
  import Decimal

  /** `--readFilesIn seq1`, then `seq2` only when it is truthy. */
  function Reads(seq1: string, seq2: Option<string>): (r: seq<string>)
    ensures Truthy(seq2) ==> r == ["--readFilesIn", seq1, seq2.value]
    ensures !Truthy(seq2) ==> r == ["--readFilesIn", seq1]
  {
    if Truthy(seq2) then ["--readFilesIn", seq1, seq2.value] else ["--readFilesIn", seq1]
  }

  /** `build_index`: options between the thread count and the genome-generation arguments. */
  function BuildIndex(pathOut: string, fastaIn: string, threads: int, options: seq<string>): (r: Chain)
    ensures !r.pipe && |r.cmds| == 1
    ensures |r.cmds[0]| == 9 + |options|
    ensures r.cmds[0][..3] == ["STAR", "--runThreadN", Decimal.IntToString(threads)]
    ensures r.cmds[0][3..3 + |options|] == options
    ensures r.cmds[0][3 + |options|..] == ["--runMode", "genomeGenerate", "--genomeDir", pathOut, "--genomeFastaFiles", fastaIn]
  {
    Single(["STAR", "--runThreadN", Decimal.IntToString(threads)] + options
           + ["--runMode", "genomeGenerate", "--genomeDir", pathOut, "--genomeFastaFiles", fastaIn])
  }

  /** The tokens before the options in both alignment variants. */
  function AlignPrefix(index: string, outputPath: string, threads: int): seq<string>
  {
    ["STAR", "--runThreadN", Decimal.IntToString(threads), "--genomeDir", index, "--outFileNamePrefix", outputPath]
  }

  /** `align_sam`: a single unpiped command; the reads come after every option. */
  function AlignSam(index: string, seq1: string, outputPath: string, seq2: Option<string>, threads: int, options: seq<string>): (r: Chain)
    ensures !r.pipe && |r.cmds| == 1
    ensures |r.cmds[0]| == 7 + |options| + |Reads(seq1, seq2)|
    ensures r.cmds[0][..7] == AlignPrefix(index, outputPath, threads)
    ensures r.cmds[0][7..7 + |options|] == options
    ensures r.cmds[0][7 + |options|..] == Reads(seq1, seq2)
  {
    Single(AlignPrefix(index, outputPath, threads) + options + Reads(seq1, seq2))
  }

  /** `align_bam`: the SAM command with the single token `--outSAMtype BAM Unsorted` before the options. */
  function AlignBam(index: string, seq1: string, outputPath: string, seq2: Option<string>, threads: int, options: seq<string>): (r: Chain)
    ensures !r.pipe && |r.cmds| == 1
    ensures var sam := AlignSam(index, seq1, outputPath, seq2, threads, options).cmds[0];
      r.cmds[0] == sam[..7] + ["--outSAMtype BAM Unsorted"] + sam[7..]
  {
    Single(AlignPrefix(index, outputPath, threads) + ["--outSAMtype BAM Unsorted"] + options + Reads(seq1, seq2))
  }

  /**
   * When neither the options nor the paths spell `--readFilesIn`, the SAM
   * command holds it exactly once, right after the last option.
   */
  lemma ReadFilesInOnce(index: string, seq1: string, outputPath: string, seq2: Option<string>, threads: int, options: seq<string>)
    requires "--readFilesIn" !in options
    requires index != "--readFilesIn" && outputPath != "--readFilesIn" && seq1 != "--readFilesIn"
    requires seq2 != Some("--readFilesIn")
    ensures var c := AlignSam(index, seq1, outputPath, seq2, threads, options).cmds[0];
      forall i :: 0 <= i < |c| ==> (c[i] == "--readFilesIn" <==> i == 7 + |options|)
  {
    var c := AlignSam(index, seq1, outputPath, seq2, threads, options).cmds[0];
    assert Decimal.IntToString(threads) != "--readFilesIn" by {
      var t := Decimal.IntToString(threads);
      if threads >= 0 { assert Decimal.IsDigit(t[0]); }
      else { assert t[1..] == Decimal.NatToString(-threads); assert Decimal.IsDigit(t[1]); }
    }
    forall i | 7 <= i < 7 + |options|
      ensures c[i] != "--readFilesIn"
    {
      assert c[i] == c[7..7 + |options|][i - 7] == options[i - 7];
    }
    forall i | 7 + |options| < i < |c|
      ensures c[i] != "--readFilesIn"
    {
      assert c[i] == c[7 + |options|..][i - 7 - |options|];
    }
  }
}

=== FILE: star_pipeline.dfy ===
/** The STAR pipeline (hocort/pipelines/star.py): align, extract identifiers, filter. */
module StarPipeline {

  import opened Wrappers
  import opened Argv
  import opened PipelineCore
  import StarAligner

  /** `output_path`: STAR is told to write into the temporary directory. */
  function Prefix(tmp: string): string
  {
    tmp + "/"
  }

  /** The aligner chain: the BAM variant exactly when the intermediary is `BAM`. */
  function AlignChain(env: Env, idx: string, seq1: string, seq2: Option<string>, intermediary: string, threads: int, options: seq<string>): Chain
  {
    if intermediary == "BAM" then StarAligner.AlignBam(idx, seq1, Prefix(env.tmp), seq2, threads, options)
    else StarAligner.AlignSam(idx, seq1, Prefix(env.tmp), seq2, threads, options)
  }

  /** The alignment file STAR leaves behind and the identifier extraction that reads it. */
  function ExtractStep(env: Env, seq2: Option<string>, intermediary: string, threads: int, mapq: int): ExtractCall
  {
    if intermediary == "BAM" then ExtractCall(BamFile, env.tmp + "/Aligned.out.bam", mapq, Some(threads), Some(Truthy(seq2)))
    else ExtractCall(SamFile, env.tmp + "/Aligned.out.sam", mapq, Some(threads), Some(Truthy(seq2)))
  }

  /** `STAR.run`. */
  function Run(env: Env, idx: string, seq1: string, out1: string, seq2: Option<string>, out2: Option<string>,
               intermediary: string, hcfilter: string, threads: int, mapq: int, options: seq<string>): (r: Trace)
    ensures var chain := AlignChain(env, idx, seq1, seq2, intermediary, threads, options);
      && |r.steps| >= 1 && r.steps[0] == Execute(chain)
      && (env.exec(chain, 0).code != 0 <==> r == Exit([Execute(chain)], 1))
    ensures |r.steps| > 1 ==>
      && |r.steps| == 3
      && r.steps[1] == Extract(ExtractStep(env, seq2, intermediary, threads, mapq))
      && r.steps[1].extract.mapq == mapq
      && r.steps[1].extract.addSlash == Some(Truthy(seq2))
      && r.steps[2] == Filter(FilterCall(env.extract(r.steps[1].extract), seq1, out1, seq2, out2, hcfilter))
      && (r.outcome == Returned(Code(0)) <==> env.filter(r.steps[2].filter) == 0)
      && (r.outcome == Returned(Code(1)) <==> env.filter(r.steps[2].filter) != 0)
  {
    var opts := if |options| > 0 then options else [];
    var chain := AlignChain(env, idx, seq1, seq2, intermediary, threads, opts);
    assert Codes(env.exec, chain)[..1] == [env.exec(chain, 0).code];
    AlignThenFilter(env, chain, 1, ExtractStep(env, seq2, intermediary, threads, mapq), seq1, out1, seq2, out2, hcfilter)
  }

  /**
   * The file the identifiers are read from is the one STAR writes: its
   * `--outFileNamePrefix` value followed by `Aligned.out.bam` or
   * `Aligned.out.sam`, matching the chosen intermediary.
   */
  lemma ExtractsWhatStarWrote(env: Env, idx: string, seq1: string, out1: string, seq2: Option<string>, out2: Option<string>,
                              intermediary: string, hcfilter: string, threads: int, mapq: int, options: seq<string>)
    requires |Run(env, idx, seq1, out1, seq2, out2, intermediary, hcfilter, threads, mapq, options).steps| > 1
    ensures var r := Run(env, idx, seq1, out1, seq2, out2, intermediary, hcfilter, threads, mapq, options);
      var cmd := r.steps[0].chain.cmds[0];
      && cmd[5] == "--outFileNamePrefix"
      && (intermediary == "BAM" ==> r.steps[1].extract.format == BamFile && r.steps[1].extract.path == cmd[6] + "Aligned.out.bam")
      && (intermediary != "BAM" ==> r.steps[1].extract.format == SamFile && r.steps[1].extract.path == cmd[6] + "Aligned.out.sam")
  {
    var r := Run(env, idx, seq1, out1, seq2, out2, intermediary, hcfilter, threads, mapq, options);
    PrefixTokens(env, idx, seq1, seq2, intermediary, threads, options);
    OutputNames(env.tmp);
  }

  /** The prefix followed by STAR's file name is the path the extraction opens. */
  lemma OutputNames(tmp: string)
    ensures Prefix(tmp) + "Aligned.out.bam" == tmp + "/Aligned.out.bam"
    ensures Prefix(tmp) + "Aligned.out.sam" == tmp + "/Aligned.out.sam"
  {
    assert "/" + "Aligned.out.bam" == "/Aligned.out.bam";
    assert "/" + "Aligned.out.sam" == "/Aligned.out.sam";
    assert (tmp + "/") + "Aligned.out.bam" == tmp + ("/" + "Aligned.out.bam");
    assert (tmp + "/") + "Aligned.out.sam" == tmp + ("/" + "Aligned.out.sam");
  }

  /** Both variants keep `--outFileNamePrefix` and the temporary directory at tokens 5 and 6. */
  lemma PrefixTokens(env: Env, idx: string, seq1: string, seq2: Option<string>, intermediary: string, threads: int, options: seq<string>)
    ensures var cmd := AlignChain(env, idx, seq1, seq2, intermediary, threads, options).cmds[0];
      |cmd| >= 7 && cmd[5] == "--outFileNamePrefix" && cmd[6] == Prefix(env.tmp)
  {
    var sam := StarAligner.AlignSam(idx, seq1, Prefix(env.tmp), seq2, threads, options).cmds[0];
    assert sam[..7][5] == sam[5] && sam[..7][6] == sam[6];
  }
}

=== FILE: wrappers.dfy ===
/** Optional values, and the two ways the Python source tests them. */
module Wrappers {

  /** An argument that may be `None`. */
  datatype Option<+T> = None | Some(value: T)

  /** Python truthiness of an optional string: false for `None` and for `""`. */
  predicate Truthy(o: Option<string>)
  {
    o.Some? && o.value != ""
  }

  /** The text an f-string produces for an optional string: `None` prints as "None". */
  function Render(o: Option<string>): string
  {
    match o
    case None => "None"
    case Some(s) => s
  }

  /** Python's `str()` of a boolean. */
  function RenderBool(b: bool): string
  {
    if b then "True" else "False"
  }

  /** The `ValueError`s the command builders and pipelines raise. */
  datatype ValueError =
    | DisallowedInput(arg: string, chars: seq<char>)  // 'Input with disallowed characters detected'
    | NoFastaIn                                       // 'No input FASTA file was given.'
    | NoPathOut                                       // 'No output path was given.'
    | NoIndex                                         // 'No index path was given.'
    | NoFastq                                         // 'No input FastQ was given.'
    | Seq2WithoutOut2                                 // 'Input FastQ_2 was given, but no output FastQ_2.'

  /** A value, or the `ValueError` raised instead of returning it. */
  datatype Result<+T> = Ok(value: T) | Err(error: ValueError)
}
